=== FILE: README.md ===
# metalforge in Dafny

A Dafny model of the sequential logic of metalforge, a tablature-style song
player written in Rust. The model covers four groups.

- **Transport.**
  - The song player's transport state: position, pause, resume, rewind and jumps. Backward jumps stop at zero.
  - The keyboard mapping to player events.
  - The player events, which update the player and send engine commands. The commands form an append-only log.
  - The fixed-tick position update with its `previous`/`current` camera pair, and the per-frame camera interpolation.
  - The older `Player` of `mod2.rs`, with its fixed 35 ms tick and string layout.
- **Menu cursor.** A selected index moved by Prev/Next events, the key mapping that produces them, and the highlighting of the selected item.
- **Song data.**
  - `SongLibrary`.
  - Both song records, each with its `id` normalisation and `add_arrangement`.
  - `AssetId` and its derived order.
  - The `PitchClass` display and serde names.
  - Guitar tunings and the built-in test song.
- **Loaders**, with the filesystem, YAML and PSARC decoding and URL parsing as parameters:
  - the song definition mapping and its round trips;
  - the two PSARC manifest groupings, by song key and by (artist, album, title, year) without vocals;
  - file-name and extension dispatch;
  - the three library scanners over an abstract directory tree;
  - `EngineBuilder`.

Conventions:
- A `Duration` is a natural number of nanoseconds.
- `f32` values are reals.
- Rust's `io::Result` is `Outcome`, which adds a third case, `Panic`, for `todo!()` and `unimplemented!()`.
- The songs of a PSARC archive, the contents of a file and the result of `build_url` are inputs to the functions that use them.

The modules follow the source files:

| file | module | source |
|---|---|---|
| results.dfy | `Results`, `Ints` | `io::Result`, integer widths |
| text.dfy | `Text` | ASCII case, alphanumeric filter, decimal rendering, string order |
| song_player.dfy | `Durations`, `SongPlayback` | ui/player/song_player.rs |
| player_event.dfy | `EngineCommands`, `Keys`, `PlayerEvents` | ui/player/event.rs |
| player_camera.dfy | `PlayerCamera` | ui/player/mod.rs |
| legacy_player.dfy | `LegacyPlayer` | ui/player/mod2.rs |
| menu.dfy | `Menu` | ui/menu/mod.rs |
| library.dfy | `Library` | library.rs |
| song_id.dfy | `SongIds` | `Song::id` in song/mod.rs and song.rs |
| songs.dfy | `Songs`, `LegacySongs` | song/mod.rs, song.rs |
| asset.dfy | `Asset` | asset.rs |
| part.dfy | `Part` | part.rs |
| guitar.dfy | `Guitar`, `TestSongs` | song/guitar.rs, song/song.rs |
| songfile.dfy | `SongFiles`, `LegacySongFiles` | loader/songfile.rs, songfile.rs |
| fs.dfy | `Fs` | paths, URLs, `load_file_contents`, directory tree |
| psarc.dfy | `PsarcLoader` | loader/psarc.rs |
| lib_scan.dfy | `LibraryScan` | loader/mod.rs (recursive scanner) |
| early_scan.dfy | `EarlyScan` | loader.rs (early-return scanner) |
| engine.dfy | `Engine` | engine.rs |
| loader_songs.dfy | `LoaderSongs` | song record used by metalforge-loader |
| smither.dfy | `Smither` | metalforge-loader smither.rs |
| loader_scan.dfy | `LoaderScan` | metalforge-loader lib.rs and loader.rs |

Behaviour of the code worth noting, which the model follows:

- `StartPlaying` (the R key) rewinds the local player and then sends `Resume`. It does not send `PlaySong`. The only `PlaySong` is sent once, by the older screen's `setup_player` in mod2.rs.
- Jumps change the position whether or not the player is playing. Every jump sends `Seek` with the new position.
- A tick first copies `current` into `previous`, then recomputes `current` from the position. A jump or rewind therefore shows up at the next tick as an interpolation from the old position. It is not a simultaneous reset of both values.
- `Pause` and `Resume` are not idempotent in the player code. Each call sends its command again.

## Model

| member | source | states |
|---|---|---|
| Durations.Millis | crates/metalforge-bevy/src/ui/player/event.rs:27-28 | a millisecond count is that many million nanoseconds, the unit the jump distances are given in |
| Durations.Min | crates/metalforge-bevy/src/ui/player/song_player.rs:43-45 | `Duration::min` gives one of its arguments, and it is below both |
| SongPlayback.Default | crates/metalforge-bevy/src/ui/player/song_player.rs:48-57 | a new player is at position zero, not playing, at speed 1.0 |
| SongPlayback.IsPlaying | crates/metalforge-bevy/src/ui/player/song_player.rs:20-22 | `playing()` is true exactly when the stored flag is set |
| SongPlayback.Rewind | crates/metalforge-bevy/src/ui/player/song_player.rs:24-27 | rewinding puts the position at zero and keeps the playing flag and speed |
| SongPlayback.Pause | crates/metalforge-bevy/src/ui/player/song_player.rs:29-32 | pausing clears the playing flag and keeps the position and speed |
| SongPlayback.Resume | crates/metalforge-bevy/src/ui/player/song_player.rs:34-37 | resuming sets the playing flag and keeps the position and speed |
| SongPlayback.JumpForwards | crates/metalforge-bevy/src/ui/player/song_player.rs:39-41 | a forward jump moves the position forward by exactly the jump |
| SongPlayback.JumpBackwards | crates/metalforge-bevy/src/ui/player/song_player.rs:43-45 | a backward jump subtracts the jump when it fits and otherwise lands on zero, never below |
| SongPlayback.PauseResumeKeepsPosition | crates/metalforge-bevy/src/ui/player/song_player.rs:29-37 | pause then resume gives back the same player with playing set, so the position is unchanged |
| SongPlayback.JumpForwardsThenBackwards | crates/metalforge-bevy/src/ui/player/song_player.rs:39-45 | a backward jump undoes a forward jump of the same length |
| SongPlayback.JumpBackwardsBounds | crates/metalforge-bevy/src/ui/player/song_player.rs:43-45 | a backward jump never increases the position and never moves it further back than asked |
| PlayerEvents.HandleKeyboard | crates/metalforge-bevy/src/ui/player/event.rs:22-58 | at most one event per frame, with priority Space > R > Left > Right. Space pauses when playing and resumes when paused. Left and right jump 500 ms with either Shift held and 50 ms otherwise. No bound key means no event |
| PlayerEvents.HandleEvent | crates/metalforge-bevy/src/ui/player/event.rs:60-87 | each event sends exactly one command. StartPlaying rewinds, plays and sends Resume. Resume and Pause keep the position, set the queued state and send Resume or Pause. A jump moves the position and sends Seek with the new position, so a jump back past the start sends Seek(0) |
| PlayerEvents.HandleEventsLog | crates/metalforge-bevy/src/ui/player/event.rs:60-119 | over a run of events the log only grows, by each event's command in read order, one per event |
| PlayerEvents.HandleWindowEvents | crates/metalforge-bevy/src/ui/player/event.rs:89-93 | every window-close request appends one Quit and the earlier log is kept |
| PlayerCamera.PluginInitial | crates/metalforge-bevy/src/ui/player/mod.rs:24-35 | the screen starts Paused, with a default player and a zero camera |
| PlayerCamera.UpdatePosition | crates/metalforge-bevy/src/ui/player/mod.rs:89-103 | a tick moves `current` into `previous`. A paused player is unchanged and a playing one advances by the tick. The position never decreases. The velocity is the speed, and `current.x` is the new position in seconds |
| PlayerCamera.TicksAdvance | crates/metalforge-bevy/src/ui/player/mod.rs:89-103 | over any number of ticks a paused player stays put and a playing one advances by the sum of the ticks; the camera ends on the final position |
| PlayerCamera.UpdateCamera | crates/metalforge-bevy/src/ui/player/mod.rs:107-114 | for an overstep fraction in [0, 1] each coordinate of the translation lies between the scaled previous and current positions; it is the previous one at 0 and the current one at 1 |
| PlayerCamera.PlayingNeverRegresses | crates/metalforge-bevy/src/ui/player/mod.rs:89-103 | when the camera shows the player's position, a tick never moves it backwards |
| PlayerCamera.LerpBetween | crates/metalforge-bevy/src/ui/player/mod.rs:111-112 | scaled linear interpolation with a fraction in [0, 1] stays between the scaled endpoints |
| LegacyPlayer.PluginInitial | crates/metalforge-bevy/src/ui/player/mod2.rs:122-125 | the older plugin starts Playing at position zero |
| LegacyPlayer.Rewind | crates/metalforge-bevy/src/ui/player/mod2.rs:58-61 | rewinding puts the position at zero |
| LegacyPlayer.Resume | crates/metalforge-bevy/src/ui/player/mod2.rs:63-65 | resuming leaves the position unchanged |
| LegacyPlayer.JumpForwards | crates/metalforge-bevy/src/ui/player/mod2.rs:67-69 | a forward jump adds exactly the jump |
| LegacyPlayer.JumpBackwards | crates/metalforge-bevy/src/ui/player/mod2.rs:71-73 | a backward jump subtracts at most the position, never underflowing and never moving further back than asked |
| LegacyPlayer.UpdatePlayer | crates/metalforge-bevy/src/ui/player/mod2.rs:295-300 | a tick adds exactly 35 ms while Playing and nothing while Paused |
| LegacyPlayer.UpdatePlayerTicks | crates/metalforge-bevy/src/ui/player/mod2.rs:295-300 | n ticks add n times 35 ms while Playing and nothing while Paused |
| LegacyPlayer.HandleEvent | crates/metalforge-bevy/src/ui/player/mod2.rs:327-366 | StartPlaying leaves the position at zero and queues Playing. Resume keeps the player and queues Playing. Pause keeps the player and queues Paused. Jumps move the position and leave the queued state alone |
| LegacyPlayer.HandleEventsPauseResume | crates/metalforge-bevy/src/ui/player/mod2.rs:327-349 | a run of pause and resume events never moves the position, and the queued state is the one the last event asked for |
| LegacyPlayer.SetupPlayer | crates/metalforge-bevy/src/ui/player/mod2.rs:166-168 | entering the older player screen queues `StartPlaying` behind the pending events and sends `PlaySong` after the earlier commands, which are kept |
| LegacyPlayer.HandleEventsAppend | crates/metalforge-bevy/src/ui/player/mod2.rs:327-366 | handling events a + b is handling a, then b from the player and queued state a leaves |
| LegacyPlayer.SetupStartsFromZero | crates/metalforge-bevy/src/ui/player/mod2.rs:166-168 | whatever events were pending, after the setup's queue is handled the position is zero and `Playing` is queued |
| LegacyPlayer.StringOffset | crates/metalforge-bevy/src/ui/player/mod2.rs:222-226 | string i of n lies at 40·i − 20·(n − 1), for at least one string |
| LegacyPlayer.StringOffsetLayout | crates/metalforge-bevy/src/ui/player/mod2.rs:222-226 | adjacent strings are 40 apart, the layout is symmetric about zero, and all strings lie within ±20·(n − 1) |
| Menu.Default | crates/metalforge-bevy/src/ui/menu/mod.rs:47-52 | the default menu state has all three indices zero |
| Menu.SetupTestMenu | crates/metalforge-bevy/src/ui/menu/mod.rs:54-97 | the menu length becomes 3; the spawned entries carry indices 0, 1, 2 and exactly the selected one is highlighted |
| Menu.HandleMenuEvent | crates/metalforge-bevy/src/ui/menu/mod.rs:195-225 | Prev decrements a positive index and leaves 0 alone. Next increments only below the last item. Play, Settings and Quit change nothing. An index on the menu stays on it |
| Menu.HandleMenuEventsInRange | crates/metalforge-bevy/src/ui/menu/mod.rs:195-225 | through any run of events the cursor stays on the menu and the length and previous index are unchanged |
| Menu.HandleMenuInput | crates/metalforge-bevy/src/ui/menu/mod.rs:162-192 | an event is sent exactly when neither Escape nor Enter but an arrow went down; ArrowDown gives Next and otherwise ArrowUp gives Prev |
| Menu.HighlightMenu | crates/metalforge-bevy/src/ui/menu/mod.rs:110-121 | with no selection change nothing changes. Otherwise the item carrying the selected index is highlighted and all others turn white, and the previous index catches up when such an item exists |
| Menu.HighlightFromSpec | crates/metalforge-bevy/src/ui/menu/mod.rs:111-119 | the highlighting loop recolours each remaining item by whether it carries the selected index, and moves the previous index to it exactly when one does |
| Library.Empty | crates/metalforge-lib/src/library.rs:12-16 | an empty library holds no songs |
| Library.AddSong | crates/metalforge-lib/src/library.rs:18-20 | adding a song appends it at the end and keeps every earlier song at its index |
| Library.Song | crates/metalforge-lib/src/library.rs:22-24 | `song(idx)` finds a song exactly when idx is below the length, and then it is the idx-th |
| Library.FromSeq | crates/metalforge-lib/src/library.rs:31-37 | a library built from a list yields each song at its own index, and as many as given |
| Library.AddSongsInOrder | crates/metalforge-lib/src/library.rs:18-28 | songs added one by one come back from `iter` in the order added, each at its position |
| Text.AsciiLower | crates/metalforge-lib/src/loader/psarc.rs:18 | ASCII lowercasing keeps the length, maps A-Z to a-z and leaves other characters alone |
| Text.KeepAlphanumeric | crates/metalforge-lib/src/song/mod.rs:30 | the result holds only letters and digits and is no longer than the input. A string of letters and digits is kept whole, and a single other character is dropped. With KeepAlphanumericAppend this fixes the filter to keep exactly the letters and digits, in order |
| Text.KeepAlphanumericAppend | crates/metalforge-lib/src/song/mod.rs:30 | filtering a concatenation is concatenating the filtered parts |
| Text.AsciiLowerAppend | crates/metalforge-lib/src/song/mod.rs:28 | lowercasing a concatenation is concatenating the lowercased parts |
| Text.Decimal | crates/metalforge-lib/src/song/mod.rs:25-27 | the decimal text of a year is non-empty and digits only, and starts with `0` only when it is `0` itself |
| Text.DecimalRoundTrip | crates/metalforge-lib/src/song/mod.rs:25-27 | reading back the decimal text of a number gives the number |
| Text.StrLessTransitive | crates/metalforge-lib/src/asset.rs:4 | the derived string order is transitive |
| Text.StrLessTotal | crates/metalforge-lib/src/asset.rs:4 | any two distinct strings are ordered one way |
| Text.StrLessIrreflexive | crates/metalforge-lib/src/asset.rs:4 | no string is below itself |
| SongIds.IdOf | crates/metalforge-lib/src/song/mod.rs:24-32 | the identifier holds only letters and digits, none upper case |
| SongIds.IdOfConcatenation | crates/metalforge-lib/src/song/mod.rs:24-32 | the dashes contribute nothing: the id is the lowercased title, artist, album and year, filtered, and the year's digits survive whole |
| SongIds.DigitsSurvive | crates/metalforge-lib/src/song/mod.rs:28-30 | a string of digits passes lowercasing and the filter unchanged |
| SongIds.KeepAlphanumericFrom | crates/metalforge-lib/src/song/mod.rs:30 | every character the filter keeps comes from its input |
| Songs.Id | crates/metalforge-lib/src/song/mod.rs:24-32 | a song's id depends only on title, artist, album and year, holds only lowercase letters and digits, and is their lowercased concatenation filtered |
| Songs.AddArrangement | crates/metalforge-lib/src/song/mod.rs:34-37 | one arrangement more, at the end; every other field and the id are unchanged |
| Songs.InstrumentPart | crates/metalforge-lib/src/song/mod.rs:39-51 | only PSARC songs load a part, via the PSARC loader; unpacked and packed songs panic |
| LegacySongs.Id | crates/metalforge-lib/src/song.rs:11-19 | the older id has the same normalisation: letters and digits, none upper case, from the four identifying fields only |
| LegacySongs.AddArrangement | crates/metalforge-lib/src/song.rs:21-24 | one arrangement more, at the end; every other field and the id are unchanged |
| Asset.FromPaths | crates/metalforge-lib/src/asset.rs:11-13 | the parent id is the song path's text and the id is the asset path, verbatim |
| Asset.FromPathsInjective | crates/metalforge-lib/src/asset.rs:4-13 | two ids built from paths are equal exactly when both path pairs are |
| Asset.LessIsStrictTotalOrder | crates/metalforge-lib/src/asset.rs:4 | the derived order (id first, then parent) is irreflexive, transitive, total and asymmetric |
| Part.Display | crates/metalforge-lib/src/part.rs:92-117 | each variant displays as its note letter followed by its accidental |
| Part.SerdeName | crates/metalforge-lib/src/part.rs:47-90 | each variant's serde name is the lowercase of its display string |
| Part.DisplayRoundTrip | crates/metalforge-lib/src/part.rs:92-117 | `Display` loses nothing: its inverse `Parse` reads every display string back to its variant |
| Part.DisplayInjective | crates/metalforge-lib/src/part.rs:92-117 | the 21 display strings are pairwise distinct |
| Part.DisplayShape | crates/metalforge-lib/src/part.rs:95-115 | a display string is a letter A-G, then `#` for sharps, `b` for flats and nothing for naturals |
| Guitar.FromOffsets | crates/metalforge-lib/src/song/guitar.rs:9-15 | the offsets are stored unchanged |
| Guitar.ToTuning | crates/metalforge-lib/src/song/guitar.rs:17-35 | a common tuning, and `From` of one, has six strings |
| Guitar.EStandardShape | crates/metalforge-lib/src/song/guitar.rs:28-35 | E standard is exactly 0, 5, 10, 15, 19, 24: starting at 0 and strictly ascending |
| TestSongs.TestSong | crates/metalforge-lib/src/song/song.rs:14-56 | the fixture is playable: notes in time order, on strings the tuning has, each ending within the song |
| TestSongs.TestSongShape | crates/metalforge-lib/src/song/song.rs:14-56 | one lead guitar part in E standard without capo, notes at 0, 1 and 2 s, a three-minute song |
| SongFiles.AssetPath | crates/metalforge-lib/src/loader/songfile.rs:48-53 | an optional asset becomes the optional text of its id |
| SongFiles.ArrangementToDef | crates/metalforge-lib/src/loader/songfile.rs:54-59 | an arrangement definition copies id, name, instrument and tuning |
| SongFiles.FromSong | crates/metalforge-lib/src/loader/songfile.rs:36-62 | a definition copies the header's fields, the three asset ids' texts, and one definition per arrangement in order |
| SongFiles.LoadArrangement | crates/metalforge-lib/src/loader/songfile.rs:114-124 | the fields are copied and the asset is `arrangement_<id>.yaml` under the song path |
| SongFiles.AssetOf | crates/metalforge-lib/src/loader/songfile.rs:79-84 | an optional asset path becomes an asset of the song, and none stays none |
| SongFiles.LoadSongHeader | crates/metalforge-lib/src/loader/songfile.rs:98-111 | the nine scalar fields are copied and the arrangements are the given ones |
| SongFiles.ParseSong | crates/metalforge-lib/src/loader/songfile.rs:72-95 | an undecodable document is an `Other` error. Otherwise the song is unpacked, with one arrangement per definition in order and its assets under the song path |
| SongFiles.LoadSong | crates/metalforge-lib/src/loader/songfile.rs:65-69 | an open failure passes through unchanged; otherwise the contents are parsed |
| SongFiles.DefRoundTrip | crates/metalforge-lib/src/loader/songfile.rs:36-124 | definition → song → definition gives the definition back |
| SongFiles.SongRoundTrip | crates/metalforge-lib/src/loader/songfile.rs:36-124 | song → definition → song gives the song back exactly when the song is one parsing can build |
| LegacySongFiles.LoadSong | crates/metalforge-lib/src/songfile.rs:15-30 | an open failure passes through and an undecodable header is `Other`. Otherwise the header is kept, and the cover asset exists exactly when the cover path does, built from the song path |
| LegacySongFiles.LoadSongHeader | crates/metalforge-lib/src/songfile.rs:32-35 | a decoding failure is exactly an `Other` error |
| Fs.FileName | crates/metalforge-lib/src/loader/mod.rs:96 | a path has a file name exactly when its last component exists and is not `..`, and then it is that component |
| Fs.LastDot | crates/metalforge-lib/src/loader/mod.rs:104 | the last `.` of a name is found exactly when there is one, and none follows it |
| Fs.NameExtension | crates/metalforge-lib/src/loader/mod.rs:104 | an extension is what follows the last dot of a name with a non-empty stem |
| Fs.NameExtensionSpec | crates/metalforge-lib/src/loader/mod.rs:104 | `stem.ext` has extension `ext`; a name without a dot, or whose only dot leads it, has none |
| Fs.Push | crates/metalforge-loader/src/loader.rs:40 | pushing a rooted path replaces the path; pushing a relative one appends its components |
| Fs.Pop | crates/metalforge-loader/src/loader.rs:38 | popping drops the last component; an empty path stays as it is |
| Fs.JoinPop | crates/metalforge-loader/src/loader.rs:35-43 | popping undoes joining a name, and the name is then the file name |
| Fs.ParsePath | crates/metalforge-loader/src/loader.rs:40 | the text of a path parses to plain components, rooted exactly when it starts with `/` |
| Fs.ParseRender | crates/metalforge-loader/src/loader.rs:40-43 | parsing the text of a well-formed path gives the path back |
| Fs.LoadFileContents | crates/metalforge-loader/src/loader.rs:81-88 | only `file` URLs are read, and any other scheme is `InvalidInput` |
| Results.Map | crates/metalforge-lib/src/loader/mod.rs:56-57 | `map` transforms a success and keeps a failure |
| Ints.SaturatingU16 | crates/metalforge-lib/src/loader/psarc.rs:102 | the float-to-u16 cast truncates toward zero and saturates at both ends |
| PsarcLoader.LoadRawPsarc | crates/metalforge-lib/src/loader/psarc.rs:37-52 | a read failure passes through; an archive that does not parse is `InvalidData` |
| PsarcLoader.InstrumentOf | crates/metalforge-lib/src/loader/psarc.rs:64-68 | electric guitar exactly when path_lead or path_bass is positive, otherwise electric bass |
| PsarcLoader.TuningOf | crates/metalforge-lib/src/loader/psarc.rs:70-77 | a custom tuning of the six string offsets, in string order |
| PsarcLoader.ArrangementOf | crates/metalforge-lib/src/loader/psarc.rs:79-85 | the id and name are the arrangement name. The asset is the persistent id under the archive path. The instrument and tuning are those of the manifest |
| PsarcLoader.NewSong | crates/metalforge-lib/src/loader/psarc.rs:92-109 | a PSARC song whose one arrangement is the manifest's, with cover, song and preview assets under the archive path |
| PsarcLoader.IndexOfKey | crates/metalforge-lib/src/loader/psarc.rs:89 | the lookup finds an entry with the key exactly when one exists |
| PsarcLoader.ParseSong | crates/metalforge-lib/src/loader/psarc.rs:55-116 | `parse_song` always succeeds. It gives one song per distinct song key, for some order of the keys: the keys are distinct and are exactly the manifests' keys. Each song has the header and assets of its key's first manifest and the arrangements of all its manifests in order. The arrangements total the number of manifests |
| PsarcLoader.LoadPsarc | crates/metalforge-lib/src/loader/psarc.rs:32-35 | a load failure passes through; otherwise the archive's manifests are grouped |
| PsarcLoader.GroupKeysSpec | crates/metalforge-lib/src/loader/psarc.rs:87-111 | grouping keeps one entry per song key, and the keys are exactly the manifests' keys |
| PsarcLoader.UpsertKeys | crates/metalforge-lib/src/loader/psarc.rs:89-111 | one iteration keeps the keys distinct and adds the manifest's key |
| PsarcLoader.GroupSongsSpec | crates/metalforge-lib/src/loader/psarc.rs:87-111 | each entry holds the song its key stands for: the first manifest's header and assets with the arrangements of all its manifests in order |
| PsarcLoader.UpsertKnown | crates/metalforge-lib/src/loader/psarc.rs:89-90 | a known key's song gains the manifest's arrangement and stays the song its key stands for |
| PsarcLoader.UpsertNew | crates/metalforge-lib/src/loader/psarc.rs:91-111 | a new key's song is the new song of its first manifest |
| PsarcLoader.FirstWithKeyIsFirst | crates/metalforge-lib/src/loader/psarc.rs:89-111 | the reference lookup finds a manifest with the key exactly when there is one, and no earlier manifest has the key |
| PsarcLoader.GroupTotalIsManifestCount | crates/metalforge-lib/src/loader/psarc.rs:79-103 | every manifest contributes exactly one arrangement |
| PsarcLoader.DistinctKeysCount | crates/metalforge-lib/src/loader/psarc.rs:57 | entries with distinct keys are as many as their keys |
| PsarcLoader.GroupedSongs | crates/metalforge-lib/src/loader/psarc.rs:87-115 | the map's entries, in entry order, hold one song per distinct key, each the song its key stands for, with as many songs as distinct keys and as many arrangements as manifests |
| PsarcLoader.EntryKeysCover | crates/metalforge-lib/src/loader/psarc.rs:87-115 | the map's keys are among the manifests' keys, and every manifest's key is among them |
| PsarcLoader.ConvertNote | crates/metalforge-lib/src/loader/psarc.rs:124-133 | the time is scaled by four, a missing sustain reads as zero, and string and fret are copied |
| PsarcLoader.ConvertAll | crates/metalforge-lib/src/loader/psarc.rs:121-137 | one converted note per note, in order |
| PsarcLoader.ParseInstrumentPart | crates/metalforge-lib/src/loader/psarc.rs:118-140 | one note per note of every level, levels in order |
| PsarcLoader.FindEntity | crates/metalforge-lib/src/loader/psarc.rs:17-18 | the first entity whose id matches up to ASCII case, or none when no id matches |
| PsarcLoader.LoadInstrumentPart | crates/metalforge-lib/src/loader/psarc.rs:15-29 | an archive failure passes through. The part exists exactly when a case-insensitive match exists and parses as a song, and then holds its notes. Otherwise the result is `NotFound` |
| LoaderSongs.AddArrangement | crates/metalforge-loader/src/smither.rs:56 | one arrangement more, at the end; nothing else changes |
| Smither.ArrangementOf | crates/metalforge-loader/src/smither.rs:44-50 | always an electric guitar arrangement whose id and name are the arrangement name |
| Smither.NewSong | crates/metalforge-loader/src/smither.rs:60-77 | the new song carries the manifest's key and the file URL, and holds the manifest's arrangement alone |
| Smither.FindCandidate | crates/metalforge-loader/src/smither.rs:37-42 | the first song with the manifest's key, or none when no song has it |
| Smither.ParseSong | crates/metalforge-loader/src/smither.rs:30-82 | `parse_song` always succeeds. No two songs share (artist, album, title, year). The keys are exactly those of the non-vocal manifests, so a key with only vocals gives no song. Each song has the header of its key's first non-vocal manifest and all its non-vocal arrangements in order. The arrangements total the non-vocal manifests. Every song is at the file URL without vocals |
| Smither.LoadSongFromPsarc | crates/metalforge-loader/src/smither.rs:18-27 | an archive that does not parse is `InvalidData`; otherwise its manifests are grouped |
| Smither.LoadPsarc | crates/metalforge-loader/src/smither.rs:11-16 | a failure to open the file passes through; the bytes read are otherwise parsed. The library holds the archive's songs, or the parse failure is the result |
| Smither.NonVocal | crates/metalforge-loader/src/smither.rs:52-59 | the reference filter keeps only non-vocal manifests |
| Smither.NonVocalMembers | crates/metalforge-loader/src/smither.rs:52-59 | a manifest survives the filter exactly when it is present and not vocal |
| Smither.DedupSpec | crates/metalforge-loader/src/smither.rs:37-42 | the reference key list keeps each key once and only keys it was given |
| Smither.FirstWithKeyPresent | crates/metalforge-loader/src/smither.rs:37-42 | the reference lookup finds a manifest exactly when one has the key |
| Smither.StepKnown | crates/metalforge-loader/src/smither.rs:52-57 | a non-vocal manifest whose key a song already has appends its arrangement to that song, keeping the grouping invariant |
| Smither.StepNew | crates/metalforge-loader/src/smither.rs:58-78 | a non-vocal manifest with a new key appends a new song, keeping the grouping invariant |
| Smither.ParseSongsGrouped | crates/metalforge-loader/src/smither.rs:30-82 | one song per distinct non-vocal key, in order of the key's first non-vocal manifest, each with that manifest's header and every non-vocal arrangement of the key in order |
| Smither.ParseSongsTotal | crates/metalforge-loader/src/smither.rs:52-78 | the arrangements total the non-vocal manifests |
| Smither.ParseSongsWellFormed | crates/metalforge-loader/src/smither.rs:44-78 | every song is at the file URL, and holds only non-vocal electric guitar arrangements whose id is their name |
| Smither.GroupedKeys | crates/metalforge-loader/src/smither.rs:37-78 | grouped songs have distinct keys, exactly the keys of the non-vocal manifests |
| Smither.KeyOfNonVocal | crates/metalforge-loader/src/smither.rs:52-59 | a key occurs among the non-vocal manifests exactly when some present manifest that is not vocal has it |
| LibraryScan.ClassifyDescriptors | crates/metalforge-lib/src/loader/mod.rs:96-124 | `song.yaml` is a song descriptor; `library.yaml` is ignored |
| LibraryScan.ClassifyExtensions | crates/metalforge-lib/src/loader/mod.rs:104-119 | a file is classified by its extension whatever its stem: psarc, mflib or mfsong |
| LibraryScan.ScanEntry | crates/metalforge-lib/src/loader/mod.rs:93-125 | `song.yaml` gives its one song. `.psarc` gives the archive's songs. `.mflib` and `.mfsong` panic. Anything else gives nothing |
| LibraryScan.Concat | crates/metalforge-lib/src/loader/mod.rs:40-42 | appending results succeeds exactly when both do; the first failure is the result |
| LibraryScan.ConcatAssociative | crates/metalforge-lib/src/loader/mod.rs:40-42 | appending results is associative |
| LibraryScan.ScanLibraryDir | crates/metalforge-lib/src/loader/mod.rs:51-65 | a missing root fails with `NotFound`. A file root gives its entry's songs. A directory root is listed |
| LibraryScan.ScanOne | crates/metalforge-lib/src/loader/mod.rs:72-88 | an unreadable entry is skipped. A file gives its songs. A sub-directory is scanned. A failing `read_dir` is the error |
| LibraryScan.SubdirectoryInPlace | crates/metalforge-lib/src/loader/mod.rs:84-85 | a sub-directory contributes its own scan at its place in the listing |
| LibraryScan.ScanEntriesAppend | crates/metalforge-lib/src/loader/mod.rs:72-90 | scanning a + b is scanning a followed by b, and the first failure aborts |
| LibraryScan.UnreadableSkipped | crates/metalforge-lib/src/loader/mod.rs:75 | an unreadable entry anywhere changes nothing |
| LibraryScan.ScanLibraries | crates/metalforge-lib/src/loader/mod.rs:34-48 | the scan succeeds exactly when every root's scan does, and then holds every root's songs, in root order. Otherwise the result is the failure of the first failing root |
| LibraryScan.ConcatAll | crates/metalforge-lib/src/loader/mod.rs:37-43 | a run of scans appended in order succeeds exactly when each does, with all their songs in order; otherwise the first failing scan is the result |
| LibraryScan.ConcatAllAppend | crates/metalforge-lib/src/loader/mod.rs:37-43 | appending the scans of a + b is appending those of a to those of b |
| LibraryScan.ScanLibrariesAppend | crates/metalforge-lib/src/loader/mod.rs:37-43 | scanning roots a + b is scanning a then b, and the first error aborts |
| EarlyScan.ScanLibraryDir | crates/metalforge-lib/src/loader.rs:60-74 | a missing root fails with `NotFound`. A file root is scanned as in the recursive scanner. A directory root is listed |
| EarlyScan.FirstSubdirectoryWins | crates/metalforge-lib/src/loader.rs:81-99 | at the first sub-directory the result is that sub-directory's scan alone: earlier songs are dropped and later entries are never visited |
| EarlyScan.AgreesWithoutSubdirectories | crates/metalforge-lib/src/loader.rs:81-99 | without sub-directories the loop agrees with the recursive scanner |
| EarlyScan.StepWithoutSubdirectory | crates/metalforge-lib/src/loader.rs:84-92 | an entry that is not a sub-directory adds its songs, or its failure ends the loop |
| EarlyScan.ConcatShift | crates/metalforge-lib/src/loader.rs:90 | collecting a step's songs into the accumulator is appending them |
| EarlyScan.ScanLibraries | crates/metalforge-lib/src/loader.rs:26-40 | the scan succeeds exactly when every root's scan does, and then holds every root's songs, in root order. Otherwise the result is the failure of the first failing root |
| Engine.Default | crates/metalforge-lib/src/engine.rs:11-14 | a default builder has no library paths |
| Engine.WithLibraryPaths | crates/metalforge-lib/src/engine.rs:17-20 | the given paths are appended in order after the existing ones |
| Engine.WithLibraryPathsTwice | crates/metalforge-lib/src/engine.rs:17-20 | adding paths in two calls is adding them in one |
| Engine.Roots | crates/metalforge-lib/src/engine.rs:23 | each library path is a root, in order |
| Engine.Build | crates/metalforge-lib/src/engine.rs:22-30 | building never fails with an error. A successful scan gives its songs in scan order, and a scan error gives an empty library |
| Engine.BuildDefault | crates/metalforge-lib/src/engine.rs:11-30 | a builder with no paths builds an engine with no songs |
| Engine.MissingRootEmptiesLibrary | crates/metalforge-lib/src/engine.rs:22-25 | one missing root, after roots that do not panic, leaves the engine with no songs |
| Engine.ScanFailsAt | crates/metalforge-lib/src/loader/mod.rs:37-43 | an error at one root, after roots that do not panic, fails the whole scan |
| LoaderScan.ClassifyDescriptors | crates/metalforge-loader/src/lib.rs:130-137 | `library.yaml` and `song.yaml` are recognised by name before any extension |
| LoaderScan.ClassifyExtensions | crates/metalforge-loader/src/lib.rs:140-154 | a file is classified by its extension whatever its stem: psarc, mflib or mfsong |
| LoaderScan.ClassifyByExtension | crates/metalforge-loader/src/lib.rs:130-154 | a `stem.ext` name is neither descriptor and is dispatched by its extension |
| LoaderScan.LoadLibraryDef | crates/metalforge-loader/src/loader.rs:74-79 | a failure to open the descriptor passes through; a descriptor whose bytes do not decode is `Other` |
| LoaderScan.LoadSongHeader | crates/metalforge-loader/src/loader.rs:66-71 | a failure to open the descriptor passes through; a header whose bytes do not decode is `Other` |
| LoaderScan.LoadSong | crates/metalforge-loader/src/loader.rs:52-64 | the library holds exactly one song, the decoded header at the descriptor's URL, or the header's failure |
| LoaderScan.EntryUrl | crates/metalforge-loader/src/loader.rs:35-43 | an entry's URL keeps the descriptor's scheme |
| LoaderScan.EntryUrlResolves | crates/metalforge-loader/src/loader.rs:35-43 | an entry resolves against the descriptor's directory. A relative entry lands beneath it and an absolute entry stands for itself |
| LoaderScan.ScanLibraryUrl | crates/metalforge-loader/src/lib.rs:64-69 | a URL whose scheme is not `file` is an empty library |
| LoaderScan.ScanLibraryDir | crates/metalforge-loader/src/lib.rs:72-99 | a missing root is an empty library, not an error. A file root is dispatched as an entry. A failing `read_dir` is the error. A readable directory root is its entry loop, started from an empty library |
| LoaderScan.DirectoryRootMerged | crates/metalforge-loader/src/lib.rs:72-120 | a readable directory root succeeds exactly when each of its regular files scans. Their libraries are then merged into an empty library, in listing order. Otherwise the first failing file is the result |
| LoaderScan.ScanEntriesSpec | crates/metalforge-loader/src/lib.rs:98-120 | only the regular files of a listing count. The loop succeeds exactly when each of them scans, and then their libraries are merged into the library so far, in listing order. Otherwise the first failing file is the result |
| LoaderScan.FileEntryMerged | crates/metalforge-loader/src/lib.rs:104-113 | a regular file's scanned library is merged into the library so far, or its failure ends the loop |
| LoaderScan.MergesToConsOk | crates/metalforge-loader/src/lib.rs:104-113 | a successful scan in front of the others has its library merged first, and then the loop goes on over the rest |
| LoaderScan.MergesToConsFail | crates/metalforge-loader/src/lib.rs:104-113 | a failing scan in front of the others ends the loop with its own failure |
| LoaderScan.ScanLibraryDirEntry | crates/metalforge-loader/src/lib.rs:123-161 | `library.yaml` loads a library and `song.yaml` loads a song. `.psarc` loads an archive. `.mflib` and `.mfsong` panic. Anything else is an empty library |
| LoaderScan.LoadLibrary | crates/metalforge-loader/src/loader.rs:24-50 | a descriptor that fails to load is the result; otherwise its entries are scanned in declaration order |
| LoaderScan.LoadEntriesSpec | crates/metalforge-loader/src/loader.rs:33-47 | the descriptor's entries succeed exactly when every entry's location scans. Their libraries are then merged into the library so far, in declaration order. Otherwise the first failing entry is the result |
| LoaderScan.ScanRoots | crates/metalforge-loader/src/lib.rs:29-39 | the loop succeeds exactly when every root builds a URL and scans. Each root's library is then merged into the library so far, in root order. Otherwise the first failing root is the result |
| LoaderScan.ScanLibraries | crates/metalforge-loader/src/lib.rs:26-44 | the scan succeeds exactly when every root builds a URL and scans. The library is then every root's library merged into an empty one, in root order. Otherwise the result is the failure of the first failing root |
| LoaderScan.RootMerged | crates/metalforge-loader/src/lib.rs:29-39 | one root's scanned library is merged into the library so far, or its failure is the result |
| LoaderScan.SongEntryMerged | crates/metalforge-loader/src/loader.rs:33-47 | the library at one descriptor entry's location is merged into the library so far, or its failure is the result |
| LoaderScan.ScanRootsAppend | crates/metalforge-loader/src/lib.rs:29-39 | scanning roots a + b is scanning a, then b from where a left off, and a failure in a is the result |
| LoaderScan.RootFailureAborts | crates/metalforge-loader/src/lib.rs:32-36 | a failing root, after roots that succeeded, is the result of the whole scan whatever follows |
| LoaderScan.ScanEntriesAppend | crates/metalforge-loader/src/lib.rs:98-118 | scanning entries a + b is scanning a, then b from where a left off, and a failure in a is the result |
| LoaderScan.NonFileSkipped | crates/metalforge-loader/src/lib.rs:101-116 | sub-directories, unreadable entries and entries that are not regular files are skipped: removing one changes nothing |
| LoaderScan.LoadEntriesAppend | crates/metalforge-loader/src/loader.rs:33-47 | descriptor entries a + b are a, then b from where a left off, and a failure in a is the result |
| LoaderScan.EntryFailureAborts | crates/metalforge-loader/src/loader.rs:33-47 | a failing entry, after entries that succeeded, is the result of the whole descriptor, and later entries are never scanned |

## Left out

- Audio output, DSP and the demo routines of engine.rs (`run_dsp`, `run_dsp0`, `run_demo`, the input callbacks, `find_best_config`), and the cpal and cli crates: device I/O, FFT and sleeps.
- The engine thread and its command channel: the engine's receiving side is not part of this model. Commands appear only as an append-only log.
- Bevy rendering and app setup:
  - `setup_player`, `create_grid`, `create_cursor` and `create_camera` in ui/player/mod.rs;
  - `setup2d`, `scroll_camera`, `create_note`, `create_string_lines`, `move_camera`, `move_cursor` and `update_camera` in mod2.rs, and the drawing half of its `setup_player`;
  - the menu screens other than ui/menu/mod.rs;
  - ui/mod.rs, and the main.rs and config.rs of metalforge-bevy.
  They are drawing and layout.
- The `setup_player` of mod2.rs (lines 140-169) draws the test song's cursor, string lines and notes, and then sends two commands. Only the two commands are modelled, by LegacyPlayer.SetupPlayer: it queues `StartPlaying` and sends `PlaySong`, the only `PlaySong` in the program. The drawing is not modelled.
- The `handle_keyboard` of mod2.rs has an empty body, so it sends nothing. It is not modelled.
- info.rs time formatting: `f32` remainders and fractions.
- The commented-out code of ui/menu/mod.rs after line 228.
- `last_start: Instant` of both players: it only records the current time, and no modelled code reads it.
- `Duration` overflow: `+=` on a `Duration` panics past `u64::MAX` seconds. Positions here are unbounded naturals.
- `f32` rounding of `player_speed`, `as_secs_f32`, the camera vectors, note times and `song_length`. These are exact reals.
- `Duration::from_secs_f32` of a tick: the tick's song time is an input `advance`, a natural number.
- PlayerCamera.UpdatePosition: the tick length is a natural number, because `from_secs_f32` panics on a negative offset.
- Durations.Millis: the `u64` millisecond argument is not bounded.
- Text.AsciiLower, Text.KeepAlphanumeric: `to_lowercase` and `is_alphanumeric` are Unicode-aware in Rust. The model lowers only A-Z and keeps only ASCII letters and digits. Non-ASCII characters are dropped from an id.
- SongIds.IdOf, Songs.Id, LegacySongs.Id: stated for the ASCII model above, so an id of a title with non-ASCII letters differs from Rust's.
- Asset.FromPaths: `to_str().unwrap()` panics on a path that is not valid UTF-8. A Dafny string always is, so that panic is not modelled.
- `HashMap` iteration order in crates/metalforge-lib/src/loader/psarc.rs:115: Rust returns the songs in an unspecified order. PsarcLoader.ParseSong fixes first-occurrence order. PsarcLoader.ParseSong states the result without depending on that order, through a key sequence in some order.
- PSARC decoding (rockysmithereens_parser), YAML decoding (serde_yaml) and the filesystem are abstract. Decoders are functions returning `None` on failure. The filesystem is a finite tree of `Node`s looked up by path.
- Symbolic-link cycles cannot be expressed in that finite tree.
- Fs.LoadFileContents, LoaderScan.LoadLibraryDef, LoaderScan.LoadSongHeader, Smither.LoadPsarc: `load_file_from_fs` discards a `read_to_end` error and returns what was read. The model's `readFile` therefore fails only when opening fails, and its bytes are unconstrained. Which prefix of the file a failed read leaves is not modelled.
- `build_url`: URL parsing is the environment function `buildUrl`. The Windows drive-letter caveat in its comment is outside the model.
- `Url::to_file_path().expect(...)` and `to_str().expect(...)`: the conversions cannot fail in the model, because a URL is a scheme with a path.
- `SongLibrary::merge`: it is not defined in the library.rs of this model, so the metalforge-loader scan takes it as an opaque environment function.
- LoaderScan.LoadLibrary: `library.yaml` descriptors nest through `scan_library_url`. The model bounds the nesting depth by a `fuel` argument, and a descriptor nested deeper than the fuel gives `Panic`. Rust recurses without bound.
- LoaderSongs: metalforge-loader uses a song record (`path: Url`, arrangements without asset or tuning) from a version of the song module that is not part of this model. The record is rebuilt from its uses in smither.rs and loader.rs.
- crates/metalforge-lib has both loader.rs and loader/mod.rs. Both are modelled: the first as `EarlyScan`, the second as `LibraryScan`. `EngineBuilder::build` is stated over `LibraryScan`. It calls `crate::loader::scan_libraries`, but which file that path names is not resolved.
- `scan_libraries` returns `Vec<Song>` of both lib variants. Engine.Build turns it into a library with `From`.
- LegacyPlayer.StringOffset: it requires at least one string. With none, the `usize` subtraction underflows, and that case is not modelled.
- The key module: `Key` has only the one variant, `CMajor`, that the test song uses.
- `Instrument`'s `#[default]` is the constant `Songs.DefaultInstrument`, which is `ElectricGuitar`.
- crates/metalforge-lib/src/psarc.rs: a stub that always returns an empty list.
- crates/metalforge-lib/src/converter.rs: its body is commented out.
- crates/metalforge-loader/src/explorer.rs: directory I/O around a helper that is not part of this model.
- metadata.rs, instrument_part.rs and lib.rs: types only. They are the datatypes of `TestSongs`.

=== FILE: asset.dfy ===
/** Asset identifiers (crates/metalforge-lib/src/asset.rs): an asset path
    inside a song, together with the text of the song's own path.

    Rust's `Path::to_str().unwrap()` panics on a path that is not valid
    UTF-8; a Dafny `string` always is, so such paths do not arise here.
 */
module Asset {
  import opened Text

  datatype AssetId = AssetId(id: string, parentId: string)

  function FromPaths(songPath: string, assetPath: string): (a: AssetId)
    ensures a.parentId == songPath
    ensures a.id == assetPath
  {
    AssetId(assetPath, songPath)
  }

  /** Two identifiers built by `from_paths` are equal exactly when they were
      built from the same pair of paths. */
  lemma FromPathsInjective(s1: string, a1: string, s2: string, a2: string)
    ensures FromPaths(s1, a1) == FromPaths(s2, a2) <==> s1 == s2 && a1 == a2
  {
  }

  /** The derived `Ord`: fields compared in declaration order, `id` first. */
  predicate Less(a: AssetId, b: AssetId) {
    StrLess(a.id, b.id) || (a.id == b.id && StrLess(a.parentId, b.parentId))
  }

  /** The derived order is a strict total order. */
  lemma LessIsStrictTotalOrder(a: AssetId, b: AssetId, c: AssetId)
    ensures !Less(a, a)
    ensures Less(a, b) && Less(b, c) ==> Less(a, c)
    ensures a == b || Less(a, b) || Less(b, a)
    ensures !(Less(a, b) && Less(b, a))
  {
    StrLessIrreflexive(a.id);
    StrLessIrreflexive(a.parentId);
    if StrLess(a.id, b.id) && StrLess(b.id, c.id) {
      StrLessTransitive(a.id, b.id, c.id);
    }
    if StrLess(a.parentId, b.parentId) && StrLess(b.parentId, c.parentId) {
      StrLessTransitive(a.parentId, b.parentId, c.parentId);
    }
    if StrLess(a.id, b.id) && StrLess(b.id, a.id) {
      StrLessTransitive(a.id, b.id, a.id);
    }
    if StrLess(a.parentId, b.parentId) && StrLess(b.parentId, a.parentId) {
      StrLessTransitive(a.parentId, b.parentId, a.parentId);
    }
    StrLessTotal(a.id, b.id);
    StrLessTotal(a.parentId, b.parentId);
  }
}

=== FILE: early_scan.dfy ===
/** Library scanning of crates/metalforge-lib/src/loader.rs.  Files are
    recognised exactly as in `LibraryScan`, but the directory loop returns
    as soon as it meets a sub-directory: the result is that
    sub-directory's scan alone, and the songs collected so far and the
    entries after it are dropped.
 */
module EarlyScan {
  import opened Results
  import opened Fs
  import opened LibraryScan

  /** `scan_library_dir`, with this file's directory loop. */
  function ScanLibraryDir<S>(env: Env<S>, path: Path): (r: Outcome<seq<S>>)
    ensures env.lookup(path).Missing? || env.lookup(path).Special? ==> r == Err(NotFound)
    ensures env.lookup(path).File? ==> r == LibraryScan.ScanLibraryDir(env, path)
    ensures env.lookup(path).Dir? ==> r == ScanListing(env, path, env.lookup(path).listing)
  {
    match env.lookup(path)
    case File =>
      var found :- ScanEntry(env, path);
      Ok(found.UnwrapOr([]))
    case Dir(listing) => ScanListing(env, path, listing)
    case Missing => Err(NotFound)
    case Special => Err(NotFound)
  }

  function ListingSize(l: Listing): nat {
    match l
    case Listed(es) => EntriesSize(es)
    case ListFailed(_) => 0
  }

  /** `scan_library_dir_entries` on an opened (or failed) directory. */
  function ScanListing<S>(env: Env<S>, dir: Path, listing: Listing): Outcome<seq<S>>
    decreases ListingSize(listing), 2
  {
    match listing
    case ListFailed(k) => Err(k)
    case Listed(entries) => ScanEntriesFrom(env, dir, entries, [])
  }

  /** The directory loop, over the remaining entries, with the songs
      collected so far in `acc`. */
  function ScanEntriesFrom<S>(env: Env<S>, dir: Path, entries: seq<DirEntry>, acc: seq<S>): Outcome<seq<S>>
    decreases EntriesSize(entries), 1
  {
    if |entries| == 0 then Ok(acc)
    else
      assert EntriesSize(entries) == EntrySize(entries[0]) + EntriesSize(entries[1..]);
      match entries[0]
      case Unreadable(_) => ScanEntriesFrom(env, dir, entries[1..], acc)
      case Entry(name, node) =>
        match node
        case File =>
          var found :- ScanEntry(env, Join(dir, name));
          ScanEntriesFrom(env, dir, entries[1..], acc + found.UnwrapOr([]))
        case Dir(listing) =>
          assert EntrySize(entries[0]) == 2 + ListingSize(listing);
          ScanListing(env, Join(dir, name), listing)
        case Missing => ScanEntriesFrom(env, dir, entries[1..], acc)
        case Special => ScanEntriesFrom(env, dir, entries[1..], acc)
  }

  predicate IsSubdir(e: DirEntry) {
    e.Entry? && e.node.Dir?
  }

  /** Whether every file among the entries is recognised without failing. */
  predicate FilesLoad<S>(env: Env<S>, dir: Path, entries: seq<DirEntry>) {
    forall i :: 0 <= i < |entries| && entries[i].Entry? && entries[i].node.File? ==>
      ScanEntry(env, Join(dir, entries[i].name)).Ok?
  }

  /** On the first sub-directory, the result is exactly that
      sub-directory's scan, whatever was collected before it and whatever
      follows it. */
  lemma {:induction false} FirstSubdirectoryWins<S>(
    env: Env<S>, dir: Path, pre: seq<DirEntry>, name: string, listing: Listing,
    post: seq<DirEntry>, acc: seq<S>)
    requires forall i :: 0 <= i < |pre| ==> !IsSubdir(pre[i])
    requires FilesLoad(env, dir, pre)
    ensures ScanEntriesFrom(env, dir, pre + [Entry(name, Dir(listing))] + post, acc)
            == ScanListing(env, Join(dir, name), listing)
    decreases |pre|
  {
    var es := pre + [Entry(name, Dir(listing))] + post;
    if |pre| == 0 {
      assert es[0] == Entry(name, Dir(listing));
    } else {
      assert es[0] == pre[0];
      assert es[1..] == pre[1..] + [Entry(name, Dir(listing))] + post;
      assert FilesLoad(env, dir, pre[1..]) by {
        forall i | 0 <= i < |pre[1..]| && pre[1..][i].Entry? && pre[1..][i].node.File?
          ensures ScanEntry(env, Join(dir, pre[1..][i].name)).Ok?
        {
          assert pre[1..][i] == pre[i + 1];
        }
      }
      if pre[0].Entry? && pre[0].node.File? {
        var found := ScanEntry(env, Join(dir, pre[0].name)).value;
        FirstSubdirectoryWins(env, dir, pre[1..], name, listing, post, acc + found.UnwrapOr([]));
      } else {
        FirstSubdirectoryWins(env, dir, pre[1..], name, listing, post, acc);
      }
    }
  }

  /** Without sub-directories the two loops agree: the songs collected so
      far followed by the recursive scanner's result. */
  lemma {:induction false} AgreesWithoutSubdirectories<S>(
    env: Env<S>, dir: Path, entries: seq<DirEntry>, acc: seq<S>)
    requires forall i :: 0 <= i < |entries| ==> !IsSubdir(entries[i])
    ensures ScanEntriesFrom(env, dir, entries, acc) == Concat(Ok(acc), LibraryScan.ScanEntries(env, dir, entries))
    decreases |entries|
  {
    if |entries| == 0 {
      assert acc + [] == acc;
    } else {
      var rest := entries[1..];
      assert forall i :: 0 <= i < |rest| ==> !IsSubdir(rest[i]) by {
        forall i | 0 <= i < |rest| ensures !IsSubdir(rest[i]) {
          assert rest[i] == entries[i + 1];
        }
      }
      var here := ScanOne(env, dir, entries[0]);
      var tail := LibraryScan.ScanEntries(env, dir, rest);
      assert LibraryScan.ScanEntries(env, dir, entries) == Concat(here, tail);
      StepWithoutSubdirectory(env, dir, entries, acc);
      if here.Ok? {
        AgreesWithoutSubdirectories(env, dir, rest, acc + here.value);
      }
      ConcatShift(acc, here, tail);
    }
  }

  /** Collecting a step's songs into the accumulator is concatenating
      after it. */
  lemma ConcatShift<S>(acc: seq<S>, here: Outcome<seq<S>>, tail: Outcome<seq<S>>)
    ensures here.Ok? ==> Concat(Ok(acc + here.value), tail) == Concat(Ok(acc), Concat(here, tail))
    ensures !here.Ok? ==> Concat(Ok(acc), Concat(here, tail)) == here
  {
    if here.Ok? && tail.Ok? {
      assert acc + here.value + tail.value == acc + (here.value + tail.value);
    }
  }

  /** One step of the loop at an entry that is not a sub-directory: the
      entry's songs are collected, or its failure is the result. */
  lemma StepWithoutSubdirectory<S>(env: Env<S>, dir: Path, entries: seq<DirEntry>, acc: seq<S>)
    requires |entries| > 0 && !IsSubdir(entries[0])
    ensures var here := ScanOne(env, dir, entries[0]);
      ScanEntriesFrom(env, dir, entries, acc)
      == if here.Ok? then ScanEntriesFrom(env, dir, entries[1..], acc + here.value) else here
  {
    assert acc + [] == acc;
  }

  /** `scan_libraries`, over this file's directory scan: the roots in
      order, the songs of each appended; the first root that fails aborts
      the whole scan. */
  function ScanLibraries<S>(env: Env<S>, roots: seq<Path>): (r: Outcome<seq<S>>)
    ensures r.Ok? <==> forall i :: 0 <= i < |roots| ==> ScanLibraryDir(env, roots[i]).Ok?
    ensures r.Ok? ==>
              r.value == Flatten(seq(|roots|, i requires 0 <= i < |roots| => SongsOf(ScanLibraryDir(env, roots[i]))))
    ensures !r.Ok? ==>
              exists i :: 0 <= i < |roots| && r == ScanLibraryDir(env, roots[i])
                          && forall j :: 0 <= j < i ==> ScanLibraryDir(env, roots[j]).Ok?
  {
    var outs := seq(|roots|, i requires 0 <= i < |roots| => ScanLibraryDir(env, roots[i]));
    assert forall i :: 0 <= i < |roots| ==> outs[i] == ScanLibraryDir(env, roots[i]);
    assert seq(|outs|, i requires 0 <= i < |outs| => SongsOf(outs[i]))
        == seq(|roots|, i requires 0 <= i < |roots| => SongsOf(ScanLibraryDir(env, roots[i])));
    ConcatAll(outs)
  }
}

=== FILE: engine.dfy ===
/** `EngineBuilder` (crates/metalforge-lib/src/engine.rs): library paths
    collected in order, and an engine built over whatever the library
    scan of crates/metalforge-lib/src/loader/mod.rs finds there.
 */
module Engine {
  import opened Results
  import opened Fs
  import Library
  import LibraryScan

  datatype EngineBuilder = EngineBuilder(libraryPaths: seq<string>)

  datatype Engine<S> = Engine(songLibrary: Library.SongLibrary<S>)

  /** The derived `Default`. */
  function Default(): (b: EngineBuilder)
    ensures |b.libraryPaths| == 0
  {
    EngineBuilder([])
  }

  /** `with_library_paths`: the given paths, in order, after those already
      there. */
  function WithLibraryPaths(b: EngineBuilder, paths: seq<string>): (r: EngineBuilder)
    ensures |r.libraryPaths| == |b.libraryPaths| + |paths|
    ensures r.libraryPaths[..|b.libraryPaths|] == b.libraryPaths
    ensures r.libraryPaths[|b.libraryPaths|..] == paths
  {
    EngineBuilder(b.libraryPaths + paths)
  }

  /** Adding paths in two calls is adding them in one. */
  lemma WithLibraryPathsTwice(b: EngineBuilder, p: seq<string>, q: seq<string>)
    ensures WithLibraryPaths(WithLibraryPaths(b, p), q) == WithLibraryPaths(b, p + q)
  {
    assert (b.libraryPaths + p) + q == b.libraryPaths + (p + q);
  }

  function Roots(b: EngineBuilder): (roots: seq<Path>)
    ensures |roots| == |b.libraryPaths|
    ensures forall i :: 0 <= i < |roots| ==> roots[i] == ParsePath(b.libraryPaths[i])
  {
    seq(|b.libraryPaths|, i requires 0 <= i < |b.libraryPaths| => ParsePath(b.libraryPaths[i]))
  }

  /** `build`: the scanned songs, in scan order, or an empty library when
      the scan fails with an error.  It never fails itself; only a panic
      inside the scan escapes it. */
  function Build<S>(b: EngineBuilder, env: LibraryScan.Env<S>): (r: Outcome<Engine<S>>)
    ensures !r.Err?
    ensures LibraryScan.ScanLibraries(env, Roots(b)).Ok? ==>
              r == Ok(Engine(Library.FromSeq(LibraryScan.ScanLibraries(env, Roots(b)).value)))
    ensures LibraryScan.ScanLibraries(env, Roots(b)).Err? ==> r == Ok(Engine(Library.Empty()))
    ensures LibraryScan.ScanLibraries(env, Roots(b)).Panic? <==> r.Panic?
  {
    match LibraryScan.ScanLibraries(env, Roots(b))
    case Ok(songs) => Ok(Engine(Library.FromSeq(songs)))
    case Err(_) => Ok(Engine(Library.Empty()))
    case Panic(why) => Panic(why)
  }

  /** A builder with no paths builds an engine with no songs. */
  lemma BuildDefault<S>(env: LibraryScan.Env<S>)
    ensures Build(Default(), env) == Ok(Engine(Library.Empty()))
  {
  }

  /** A root that does not exist costs the whole library: the engine
      starts with no songs. */
  lemma MissingRootEmptiesLibrary<S>(b: EngineBuilder, env: LibraryScan.Env<S>, i: nat)
    requires i < |b.libraryPaths|
    requires env.lookup(ParsePath(b.libraryPaths[i])).Missing?
    requires forall j :: 0 <= j < i ==> !LibraryScan.ScanLibraryDir(env, ParsePath(b.libraryPaths[j])).Panic?
    ensures Build(b, env) == Ok(Engine(Library.Empty()))
  {
    var roots := Roots(b);
    ScanFailsAt(env, roots, i);
  }

  /** When root `i` fails with an error and no earlier root panics, the
      scan fails with an error. */
  lemma ScanFailsAt<S>(env: LibraryScan.Env<S>, roots: seq<Path>, i: nat)
    requires i < |roots|
    requires LibraryScan.ScanLibraryDir(env, roots[i]).Err?
    requires forall j :: 0 <= j < i ==> !LibraryScan.ScanLibraryDir(env, roots[j]).Panic?
    ensures LibraryScan.ScanLibraries(env, roots).Err?
  {
    var r := LibraryScan.ScanLibraries(env, roots);
    assert !r.Ok?;
    var k :| 0 <= k < |roots| && r == LibraryScan.ScanLibraryDir(env, roots[k])
             && forall j :: 0 <= j < k ==> LibraryScan.ScanLibraryDir(env, roots[j]).Ok?;
    assert k <= i;
  }
}

=== FILE: fs.dfy ===
/** Filesystem paths, URLs and an abstract directory tree.

    `Path` follows the component view of Rust's `std::path::Path`: whether
    the path is rooted, then its normal components.  `.` components are
    dropped; `Path::components` drops them too except a leading one, which
    it keeps as `CurDir`, and lookups treat both alike.  `..` is kept as a
    component.
    A `Url` is reduced to its scheme and the file path it denotes.
 */
module Fs {
  import opened Results
  import opened Ints

  datatype Path = Path(absolute: bool, parts: seq<string>)

  type Bytes = seq<u8>

  /** Whether every component is a plain name: non-empty, not `.`, and free
      of the separator. */
  predicate WellFormed(p: Path) {
    forall i :: 0 <= i < |p.parts| ==> ValidComponent(p.parts[i])
  }

  predicate ValidComponent(c: string) {
    c != "" && c != "." && '/' !in c
  }

  /** `Path::file_name`: the last component, unless the path ends in `..`
      or has no components. */
  function FileName(p: Path): (r: Option<string>)
    ensures r.Some? <==> |p.parts| > 0 && p.parts[|p.parts| - 1] != ".."
    ensures r.Some? ==> r.value == p.parts[|p.parts| - 1]
  {
    if |p.parts| == 0 || p.parts[|p.parts| - 1] == ".." then None else Some(p.parts[|p.parts| - 1])
  }

  /** The index of the last `.` in a name, if any. */
  function LastDot(s: string): (r: Option<nat>)
    ensures r.Some? ==> r.value < |s| && s[r.value] == '.'
    ensures r.Some? ==> forall j :: r.value < j < |s| ==> s[j] != '.'
    ensures r.None? <==> '.' !in s
  {
    if |s| == 0 then None
    else if s[|s| - 1] == '.' then Some(|s| - 1)
    else
      assert s == s[..|s| - 1] + [s[|s| - 1]];
      LastDot(s[..|s| - 1])
  }

  /** The extension of a file name: what follows its last `.`, unless the
      name has no `.` or its only `.` starts the name. */
  function NameExtension(name: string): (r: Option<string>)
    ensures r.Some? ==> exists stem :: stem != "" && name == stem + "." + r.value && '.' !in r.value
  {
    var dot := LastDot(name);
    if dot.None? || dot.value == 0 then None
    else
      var ext := name[dot.value + 1..];
      assert name == name[..dot.value] + "." + ext;
      assert forall j :: 0 <= j < |ext| ==> ext[j] == name[dot.value + 1 + j];
      Some(ext)
  }

  /** `Path::extension`. */
  function Extension(p: Path): Option<string> {
    match FileName(p)
    case None => None
    case Some(name) => NameExtension(name)
  }

  /** `stem.ext` has extension `ext` whenever the stem is non-empty and the
      extension has no dot of its own; a name without a dot, or whose only
      dot comes first, has none. */
  lemma NameExtensionSpec(stem: string, ext: string, plain: string)
    requires stem != "" && '.' !in ext
    requires '.' !in plain
    ensures NameExtension(stem + "." + ext) == Some(ext)
    ensures NameExtension(plain) == None
    ensures NameExtension("." + plain) == None
  {
    var name := stem + "." + ext;
    assert name[|stem| + 1..] == ext;
    LastDotAt(name, |stem|);
    assert ("." + plain)[1..] == plain;
    LastDotAt("." + plain, 0);
  }

  /** A dot with no dot after it is the last dot. */
  lemma LastDotAt(s: string, k: nat)
    requires k < |s| && s[k] == '.' && '.' !in s[k + 1..]
    ensures LastDot(s) == Some(k)
  {
    assert s[k] in s;
    assert forall j :: k < j < |s| ==> s[j] == s[k + 1..][j - k - 1];
  }

  /** `PathBuf::push`: a rooted path replaces the whole path; a relative one
      is appended. */
  function Push(p: Path, q: Path): (r: Path)
    ensures q.absolute ==> r == q
    ensures !q.absolute ==> r.absolute == p.absolute && r.parts == p.parts + q.parts
    ensures WellFormed(p) && WellFormed(q) ==> WellFormed(r)
  {
    if q.absolute then q else Path(p.absolute, p.parts + q.parts)
  }

  /** `PathBuf::pop`: drop the last component; the root (or the empty path)
      stays as it is. */
  function Pop(p: Path): (r: Path)
    ensures r.absolute == p.absolute
    ensures |p.parts| > 0 ==> r.parts == p.parts[..|p.parts| - 1]
    ensures |p.parts| == 0 ==> r == p
  {
    if |p.parts| == 0 then p else Path(p.absolute, p.parts[..|p.parts| - 1])
  }

  /** The path of a directory entry: the directory's path with the entry's
      name pushed. */
  function Join(dir: Path, name: string): Path {
    Push(dir, Path(false, [name]))
  }

  /** Popping undoes joining a name, and the joined name is the file name
      of the result. */
  lemma JoinPop(dir: Path, name: string)
    ensures Pop(Join(dir, name)) == dir
    ensures name != ".." ==> FileName(Join(dir, name)) == Some(name)
  {
    assert (dir.parts + [name])[..|dir.parts|] == dir.parts;
  }

  /** A path written as text: split at `/`, empty and `.` components
      dropped, rooted when it starts with `/`. */
  function ParsePath(s: string): (p: Path)
    ensures WellFormed(p)
    ensures p.absolute <==> |s| > 0 && s[0] == '/'
  {
    Path(|s| > 0 && s[0] == '/', Components(Segments(s)))
  }

  /** The text between separators, empty segments included. */
  function Segments(s: string): (r: seq<string>)
    ensures |r| >= 1
    ensures forall i :: 0 <= i < |r| ==> '/' !in r[i]
  {
    if |s| == 0 then [""]
    else
      var rest := Segments(s[1..]);
      if s[0] == '/' then [""] + rest else [[s[0]] + rest[0]] + rest[1..]
  }

  function Components(segs: seq<string>): (r: seq<string>)
    requires forall i :: 0 <= i < |segs| ==> '/' !in segs[i]
    ensures forall i :: 0 <= i < |r| ==> ValidComponent(r[i])
    ensures |r| <= |segs|
  {
    if |segs| == 0 then []
    else if segs[0] == "" || segs[0] == "." then Components(segs[1..])
    else [segs[0]] + Components(segs[1..])
  }

  /** The text of a path: components joined by `/`, after a leading `/` if
      rooted. */
  function Render(p: Path): string {
    (if p.absolute then "/" else "") + JoinParts(p.parts)
  }

  function JoinParts(parts: seq<string>): string {
    if |parts| == 0 then ""
    else if |parts| == 1 then parts[0]
    else parts[0] + "/" + JoinParts(parts[1..])
  }

  /** Reading back the text of a well-formed path gives the path. */
  lemma ParseRender(p: Path)
    requires WellFormed(p)
    ensures ParsePath(Render(p)) == p
  {
    JoinPartsSegments(p.parts);
    if !p.absolute {
      assert Render(p) == JoinParts(p.parts);
    }
    if p.absolute {
      var t := JoinParts(p.parts);
      assert Render(p) == "/" + t;
      assert ("/" + t)[1..] == t;
      assert Segments("/" + t) == [""] + Segments(t);
    }
    if |p.parts| > 0 && !p.absolute {
      JoinPartsHead(p.parts);
      assert Render(p) == JoinParts(p.parts);
      assert p.parts[0][0] in p.parts[0];
      assert Render(p)[0] != '/';
    }
  }

  lemma {:induction false} JoinPartsHead(parts: seq<string>)
    requires |parts| > 0 && parts[0] != ""
    ensures |JoinParts(parts)| > 0 && JoinParts(parts)[0] == parts[0][0]
  {
  }

  lemma {:induction false} JoinPartsSegments(parts: seq<string>)
    requires forall i :: 0 <= i < |parts| ==> ValidComponent(parts[i])
    ensures Components(Segments(JoinParts(parts))) == parts
    decreases |parts|
  {
    if |parts| == 0 {
    } else if |parts| == 1 {
      SegmentsPlain(parts[0]);
    } else {
      var rest := JoinParts(parts[1..]);
      JoinPartsSegments(parts[1..]);
      SegmentsConcat(parts[0], rest);
    }
  }

  /** Text without a separator is one segment. */
  lemma {:induction false} SegmentsPlain(s: string)
    requires '/' !in s
    ensures Segments(s) == [s]
    decreases |s|
  {
    if |s| > 0 {
      SegmentsPlain(s[1..]);
      assert [s[0]] + s[1..] == s;
    }
  }

  /** A component, a separator and the rest split as the component followed
      by the rest's segments. */
  lemma {:induction false} SegmentsConcat(c: string, rest: string)
    requires '/' !in c
    ensures Segments(c + "/" + rest) == [c] + Segments(rest)
    decreases |c|
  {
    if |c| == 0 {
      assert c + "/" + rest == "/" + rest;
      assert ("/" + rest)[1..] == rest;
    } else {
      SegmentsConcat(c[1..], rest);
      assert (c + "/" + rest)[1..] == c[1..] + "/" + rest;
      assert [c[0]] + c[1..] == c;
    }
  }

  datatype Url = Url(scheme: string, path: Path)

  /** `load_file_contents`: only `file` URLs are read; any other scheme is
      rejected as invalid input.  `readFile` stands for `load_file_from_fs`:
      it fails only when opening the file fails, with that error; an error
      of the subsequent `read_to_end` is discarded, so its bytes are
      whatever was read, possibly a prefix of the file. */
  function LoadFileContents(url: Url, readFile: Path -> Outcome<Bytes>): (r: Outcome<Bytes>)
    ensures url.scheme != "file" ==> r == Err(InvalidInput)
    ensures url.scheme == "file" ==> r == readFile(url.path)
  {
    if url.scheme == "file" then readFile(url.path) else Err(InvalidInput)
  }

  /** What the filesystem holds at a path.  `Special` exists but is neither
      a regular file nor a directory. */
  datatype Node = Missing | File | Dir(listing: Listing) | Special

  /** The result of `read_dir`: the entries in iteration order, or the
      error opening the directory. */
  datatype Listing = Listed(entries: seq<DirEntry>) | ListFailed(kind: ErrorKind)

  /** One item of the `read_dir` iterator: an entry that could not be read,
      or a name and what it names. */
  datatype DirEntry = Unreadable(kind: ErrorKind) | Entry(name: string, node: Node)

  function NodeSize(n: Node): nat {
    match n
    case Dir(Listed(es)) => 1 + EntriesSize(es)
    case _ => 1
  }

  function EntrySize(e: DirEntry): nat {
    match e
    case Entry(_, n) => 1 + NodeSize(n)
    case Unreadable(_) => 1
  }

  function EntriesSize(es: seq<DirEntry>): nat {
    if |es| == 0 then 0 else EntrySize(es[0]) + EntriesSize(es[1..])
  }
}

=== FILE: guitar.dfy ===
/** Guitar parts and tunings (crates/metalforge-lib/src/song/guitar.rs). */
module Guitar {
  import opened Ints
  import opened Durations

  /** The strings a part was written for, each as semitones above E2. */
  datatype GuitarTuning = GuitarTuning(stringOffsets: seq<i8>)

  /** `From<Vec<i8>>`. */
  function FromOffsets(offsets: seq<i8>): (t: GuitarTuning)
    ensures t.stringOffsets == offsets
    ensures |t.stringOffsets| == |offsets|
  {
    GuitarTuning(offsets)
  }

  datatype CommonTunings = EStandard

  /** `CommonTunings::to_tuning`, which `From<CommonTunings>` calls unchanged. */
  function ToTuning(c: CommonTunings): (t: GuitarTuning)
    ensures |t.stringOffsets| == 6
  {
    match c
    case EStandard => FromOffsets([0, 5, 10, 15, 19, 24])
  }

  /** Whether each string is tuned strictly higher than the one below it. */
  predicate Ascending(t: GuitarTuning) {
    forall i, j :: 0 <= i < j < |t.stringOffsets| ==> t.stringOffsets[i] < t.stringOffsets[j]
  }

  /** E standard: six strings from low E (offset 0) upwards, E A D G B E. */
  lemma EStandardShape()
    ensures ToTuning(EStandard).stringOffsets == [0, 5, 10, 15, 19, 24]
    ensures ToTuning(EStandard).stringOffsets[0] == 0
    ensures Ascending(ToTuning(EStandard))
  {
  }

  datatype GuitarTechnique =
    | NoTechnique | HammerOn | PullOff | PalmMute | FretHandMute | Slide | Bend
    | Tremolo | Vibrato | Harmonic | PinchHarmonic | Tap | Chord | ChordNote
    | Continued | Arpeggio | Slap | Pop

  /** A note: string and fret indices, the finger, when it starts, how long
      it is held, how it is played and where it slides to. */
  datatype GuitarNote = GuitarNote(
    str: u8, fret: u8, finger: u8, time: Duration, length: Duration,
    technique: GuitarTechnique, slideTo: u8)

  datatype GuitarPart = GuitarPart(notes: seq<GuitarNote>, tuning: GuitarTuning, capo: u8)
}

/** The song record of crates/metalforge-lib/src/song/song.rs, with its
    built-in test fixture. */
module TestSongs {
  import opened Ints
  import opened Durations
  import opened Guitar

  /** The musical key; only the one variant the fixture uses is modelled
      (the key module is not part of this model). */
  datatype Key = CMajor

  datatype Metadata = Metadata(
    title: string, artist: string, album: string, year: u16, length: Duration, key: Key)

  datatype InstrumentPartType =
    | LeadGuitar(part: GuitarPart)
    | RhythmGuitar(part: GuitarPart)
    | BassGuitar(part: GuitarPart)

  datatype InstrumentPart = InstrumentPart(name: string, instrumentType: InstrumentPartType)

  /** `a440Offset` is an `f32` in the source. */
  datatype Song = Song(metadata: Metadata, instrumentParts: seq<InstrumentPart>, a440Offset: real)

  /** A guitar part is playable within a song of the given length: notes in
      time order, each on a string the tuning has, each ending before the
      song does. */
  predicate PlayablePart(p: GuitarPart, length: Duration) {
    && (forall i, j :: 0 <= i < j < |p.notes| ==> p.notes[i].time <= p.notes[j].time)
    && (forall i :: 0 <= i < |p.notes| ==> p.notes[i].str < |p.tuning.stringOffsets|)
    && (forall i :: 0 <= i < |p.notes| ==> p.notes[i].time + p.notes[i].length <= length)
  }

  predicate Playable(s: Song) {
    forall i :: 0 <= i < |s.instrumentParts| ==>
      PlayablePart(s.instrumentParts[i].instrumentType.part, s.metadata.length)
  }

  function Note(str: u8, fret: u8, timeMs: nat, lengthMs: nat): GuitarNote {
    GuitarNote(str, fret, 0, Millis(timeMs), Millis(lengthMs), NoTechnique, 0)
  }

  /** `Song::test_song`. */
  function TestSong(): (s: Song)
    ensures Playable(s)
    ensures |s.instrumentParts| == 1
  {
    var notes := [Note(0, 0, 0, 0), Note(3, 0, 1000, 1000), Note(5, 2, 2000, 500)];
    var part := GuitarPart(notes, ToTuning(EStandard), 0);
    Song(
      Metadata("Test Song", "Test Artist", "Test Album", 2025, 180 * NanosPerSec, CMajor),
      [InstrumentPart("Lead Guitar", LeadGuitar(part))],
      0.0)
  }

  /** The fixture's single part is a lead guitar part in E standard with no
      capo, whose notes fall at 0, 1 and 2 seconds on strings 0, 3 and 5. */
  lemma TestSongShape()
    ensures TestSong().instrumentParts[0].instrumentType.LeadGuitar?
    ensures TestSong().instrumentParts[0].instrumentType.part.tuning == ToTuning(EStandard)
    ensures TestSong().instrumentParts[0].instrumentType.part.capo == 0
    ensures |TestSong().instrumentParts[0].instrumentType.part.notes| == 3
    ensures forall i :: 0 <= i < 3 ==>
              TestSong().instrumentParts[0].instrumentType.part.notes[i].time == Millis(1000 * i)
    ensures TestSong().metadata.length == Millis(180_000)
  {
  }
}

=== FILE: legacy_player.dfy ===
/** The older player screen (crates/metalforge-bevy/src/ui/player/mod2.rs):
    a `Player` advanced by a fixed 35 ms per tick, event handling without
    engine commands, the start command of the screen's setup, and the
    vertical layout of the tab strings.

    `last_start: Instant` is dropped as in `SongPlayback`; `Player::resume`
    only writes it, so it leaves the modelled player unchanged.
 */
module LegacyPlayer {
  import opened Durations
  import opened Results
  import Cmd = EngineCommands

  datatype PlayerState = Playing | Paused

  datatype PlayerEvent =
    | StartPlaying
    | PausePlaying
    | ResumePlaying
    | JumpForwards(diff: Duration)
    | JumpBackwards(diff: Duration)

  datatype Player = Player(position: Duration)

  /** Song time added by every fixed tick while playing, in milliseconds. */
  const TickMillis: nat := 35

  /** Vertical distance between two tab strings. */
  const StringSpacing: int := 40

  /** `player_plugin2` starts in `Playing` with a default player. */
  function PluginInitial(): (r: (PlayerState, Player))
    ensures r.0 == Playing
    ensures r.1.position == 0
  {
    (Playing, Player(0))
  }

  function Rewind(p: Player): (r: Player)
    ensures r.position == 0
  {
    Player(0)
  }

  function Resume(p: Player): (r: Player)
    ensures r.position == p.position
  {
    p
  }

  function JumpForwards(p: Player, diff: Duration): (r: Player)
    ensures r.position - p.position == diff
  {
    Player(p.position + diff)
  }

  function JumpBackwards(p: Player, diff: Duration): (r: Player)
    ensures r.position == p.position - Min(p.position, diff)
    ensures r.position + diff >= p.position && r.position <= p.position
  {
    Player(p.position - Min(p.position, diff))
  }

  /** `update_player`: one fixed tick. */
  function UpdatePlayer(p: Player, state: PlayerState): (r: Player)
    ensures state == Playing ==> r.position - p.position == 35 * NanosPerMilli
    ensures state == Paused ==> r == p
  {
    if state == Playing then Player(p.position + Millis(TickMillis)) else p
  }

  /** `n` fixed ticks in one state add `n` times 35 ms while playing and
      nothing while paused. */
  lemma {:induction false} UpdatePlayerTicks(p: Player, state: PlayerState, n: nat)
    ensures RunTicks(p, state, n).position == p.position + (if state == Playing then n * Millis(TickMillis) else 0)
    decreases n
  {
    if n > 0 {
      UpdatePlayerTicks(UpdatePlayer(p, state), state, n - 1);
    }
  }

  function RunTicks(p: Player, state: PlayerState, n: nat): Player
    decreases n
  {
    if n == 0 then p else RunTicks(UpdatePlayer(p, state), state, n - 1)
  }

  /** One iteration of `handle_events`; `next` is the queued next state. */
  function HandleEvent(p: Player, next: Option<PlayerState>, e: PlayerEvent): (r: (Player, Option<PlayerState>))
    ensures e.StartPlaying? ==> r.0.position == 0 && r.1 == Some(Playing)
    ensures e.ResumePlaying? ==> r.0 == p && r.1 == Some(Playing)
    ensures e.PausePlaying? ==> r.0 == p && r.1 == Some(Paused)
    ensures e.JumpForwards? ==> r.0.position == p.position + e.diff && r.1 == next
    ensures e.JumpBackwards? ==>
              r.0.position == (if e.diff <= p.position then p.position - e.diff else 0) && r.1 == next
  {
    match e
    case StartPlaying => (Resume(Rewind(p)), Some(Playing))
    case ResumePlaying => (Resume(p), Some(Playing))
    case PausePlaying => (p, Some(Paused))
    case JumpForwards(d) => (JumpForwards(p, d), next)
    case JumpBackwards(d) => (JumpBackwards(p, d), next)
  }

  function HandleEvents(p: Player, next: Option<PlayerState>, events: seq<PlayerEvent>): (Player, Option<PlayerState>)
    decreases |events|
  {
    if |events| == 0 then (p, next)
    else
      var r := HandleEvent(p, next, events[0]);
      HandleEvents(r.0, r.1, events[1..])
  }

  /** Events that never change the position leave it where it was; the
      queued state is the one the last state-setting event asked for. */
  lemma {:induction false} HandleEventsPauseResume(p: Player, next: Option<PlayerState>, events: seq<PlayerEvent>)
    requires forall i :: 0 <= i < |events| ==> events[i].PausePlaying? || events[i].ResumePlaying?
    ensures HandleEvents(p, next, events).0 == p
    ensures |events| > 0 ==>
              HandleEvents(p, next, events).1 ==
                Some(if events[|events| - 1].PausePlaying? then Paused else Playing)
    ensures |events| == 0 ==> HandleEvents(p, next, events).1 == next
    decreases |events|
  {
    if |events| > 0 {
      var r := HandleEvent(p, next, events[0]);
      HandleEventsPauseResume(r.0, r.1, events[1..]);
    }
  }

  /** The commands of `setup_player` once the screen is drawn: it queues
      `StartPlaying` behind the pending events and sends `PlaySong` to the
      engine. */
  function SetupPlayer(events: seq<PlayerEvent>, log: seq<Cmd.EngineCommand>): (r: (seq<PlayerEvent>, seq<Cmd.EngineCommand>))
    ensures |r.0| == |events| + 1 && r.0[..|events|] == events && r.0[|events|].StartPlaying?
    ensures |r.1| == |log| + 1 && r.1[..|log|] == log && r.1[|log|] == Cmd.PlaySong
  {
    (events + [StartPlaying], log + [Cmd.PlaySong])
  }

  /** Handling events `a + b` is handling `a`, then `b` from where `a`
      left off. */
  lemma {:induction false} HandleEventsAppend(p: Player, next: Option<PlayerState>, a: seq<PlayerEvent>, b: seq<PlayerEvent>)
    ensures var m := HandleEvents(p, next, a);
      HandleEvents(p, next, a + b) == HandleEvents(m.0, m.1, b)
    decreases |a|
  {
    if |a| == 0 {
      assert a + b == b;
    } else {
      assert (a + b)[0] == a[0];
      assert (a + b)[1..] == a[1..] + b;
      var r := HandleEvent(p, next, a[0]);
      HandleEventsAppend(r.0, r.1, a[1..], b);
    }
  }

  /** Entering the screen starts the song from the beginning: whatever
      events were already pending, once the queue is handled the position
      is zero and `Playing` is queued. */
  lemma SetupStartsFromZero(p: Player, next: Option<PlayerState>, events: seq<PlayerEvent>, log: seq<Cmd.EngineCommand>)
    ensures var q := SetupPlayer(events, log).0;
      HandleEvents(p, next, q).0.position == 0 && HandleEvents(p, next, q).1 == Some(Playing)
  {
    HandleEventsAppend(p, next, events, [StartPlaying]);
  }

  /** `string_offset`: the vertical position of string `idx` of `strings`,
      centred on zero.  The source subtracts 1 from a `usize`, so at least one
      string is required; the `f32` values are exact multiples of 20. */
  function StringOffset(idx: nat, strings: nat): (y: int)
    requires strings >= 1
    ensures y == idx * StringSpacing - (strings - 1) * 20
  {
    var height := (strings - 1) * StringSpacing;
    idx * StringSpacing - height / 2
  }

  /** Adjacent strings are 40 apart, and the layout is symmetric about zero. */
  lemma StringOffsetLayout(idx: nat, strings: nat)
    requires strings >= 1 && idx < strings
    ensures StringOffset(idx + 1, strings) - StringOffset(idx, strings) == StringSpacing
    ensures StringOffset(idx, strings) == -StringOffset(strings - 1 - idx, strings)
    ensures -(strings - 1) * 20 <= StringOffset(idx, strings) <= (strings - 1) * 20
  {
  }
}

=== FILE: lib_scan.dfy ===
/** Library scanning of crates/metalforge-lib/src/loader/mod.rs: every root
    path is scanned, files are recognised by name or extension, and
    sub-directories are scanned recursively.  The song type and the two
    song loaders are parameters; the filesystem is an abstract tree.
 */
module LibraryScan {
  import opened Results
  import opened Fs

  /** The world scanning observes: what is at a root path, and what loading
      a song descriptor or a PSARC archive at a path yields. */
  datatype Env<S> = Env(
    lookup: Path -> Node,
    loadSong: Path -> Outcome<S>,
    loadPsarc: Path -> Outcome<seq<S>>)

  const SongDescriptor := "song.yaml"
  const LibraryDescriptor := "library.yaml"
  const ExtMfSong := "mfsong"
  const ExtMfLib := "mflib"
  const ExtPsarc := "psarc"

  /** How an entry is treated, by file name first and extension second. */
  datatype EntryKind = SongFile | MfLib | MfSong | PsarcArchive | Ignored

  function Classify(p: Path): EntryKind {
    match FileName(p)
    case None => Ignored
    case Some(name) =>
      if name == SongDescriptor then SongFile
      else
        match NameExtension(name)
        case Some(ext) => ExtensionKind(ext)
        case None => Ignored
  }

  function ExtensionKind(ext: string): EntryKind {
    if ext == ExtMfLib then MfLib
    else if ext == ExtMfSong then MfSong
    else if ext == ExtPsarc then PsarcArchive
    else Ignored
  }

  /** `song.yaml` is a song descriptor; `library.yaml` means nothing to this
      scanner. */
  lemma ClassifyDescriptors(dir: Path)
    ensures Classify(Join(dir, SongDescriptor)) == SongFile
    ensures Classify(Join(dir, LibraryDescriptor)) == Ignored
  {
    JoinPop(dir, SongDescriptor);
    JoinPop(dir, LibraryDescriptor);
    assert LibraryDescriptor == "library" + "." + "yaml";
    NameExtensionSpec("library", "yaml", "");
  }

  /** A file named `stem.ext` is classified by `ext` alone, whatever its
      stem. */
  lemma ClassifyExtensions(dir: Path, stem: string)
    requires stem != ""
    ensures Classify(Join(dir, stem + "." + ExtPsarc)) == PsarcArchive
    ensures Classify(Join(dir, stem + "." + ExtMfLib)) == MfLib
    ensures Classify(Join(dir, stem + "." + ExtMfSong)) == MfSong
  {
    ClassifyByExtension(dir, stem, ExtPsarc);
    ClassifyByExtension(dir, stem, ExtMfLib);
    ClassifyByExtension(dir, stem, ExtMfSong);
  }

  lemma ClassifyByExtension(dir: Path, stem: string, ext: string)
    requires stem != "" && ext in {ExtPsarc, ExtMfLib, ExtMfSong}
    ensures FileName(Join(dir, stem + "." + ext)) == Some(stem + "." + ext)
    ensures stem + "." + ext != SongDescriptor
    ensures NameExtension(stem + "." + ext) == Some(ext)
    ensures Classify(Join(dir, stem + "." + ext)) == ExtensionKind(ext)
  {
    var name := stem + "." + ext;
    assert |name| > 2 && name[|stem|] == '.';
    JoinPop(dir, name);
    assert name[|name| - 1] != SongDescriptor[|SongDescriptor| - 1];
    NameExtensionSpec(stem, ext, "");
  }

  /** `scan_library_dir_entry`: a song descriptor yields its one song, an
      archive all of its songs, the two native formats reach `todo!()`, and
      anything else is not a song (`None`).  Loader failures pass through. */
  function ScanEntry<S>(env: Env<S>, path: Path): (r: Outcome<Option<seq<S>>>)
    ensures Classify(path).SongFile? ==>
              SameFailure(r, env.loadSong(path)) && (r.Ok? ==> r.value == Some([env.loadSong(path).value]))
    ensures Classify(path).PsarcArchive? ==>
              SameFailure(r, env.loadPsarc(path)) && (r.Ok? ==> r.value == Some(env.loadPsarc(path).value))
    ensures Classify(path).MfLib? || Classify(path).MfSong? ==> r.Panic?
    ensures Classify(path).Ignored? ==> r == Ok(None)
  {
    match Classify(path)
    case SongFile =>
      var song :- env.loadSong(path);
      Ok(Some([song]))
    case PsarcArchive =>
      var songs :- env.loadPsarc(path);
      Ok(Some(songs))
    case MfLib => Panic("not yet implemented: mflib")
    case MfSong => Panic("not yet implemented: mfsong")
    case Ignored => Ok(None)
  }

  /** Two scans in sequence: the first failure wins, otherwise the songs of
      the first followed by those of the second. */
  function Concat<S>(a: Outcome<seq<S>>, b: Outcome<seq<S>>): (r: Outcome<seq<S>>)
    ensures a.Ok? && b.Ok? <==> r.Ok?
    ensures r.Ok? ==> r.value == a.value + b.value
    ensures !a.Ok? ==> r == a
    ensures a.Ok? && !b.Ok? ==> r == b
  {
    if !a.Ok? then a else if !b.Ok? then b else Ok(a.value + b.value)
  }

  lemma ConcatAssociative<S>(a: Outcome<seq<S>>, b: Outcome<seq<S>>, c: Outcome<seq<S>>)
    ensures Concat(Concat(a, b), c) == Concat(a, Concat(b, c))
  {
    if a.Ok? && b.Ok? && c.Ok? {
      assert (a.value + b.value) + c.value == a.value + (b.value + c.value);
    }
  }

  /** `scan_library_dir`: a missing root (or one that is neither file nor
      directory) is an error; a file root is scanned as an entry, with "not
      a song" becoming no songs; a directory root is listed. */
  function ScanLibraryDir<S>(env: Env<S>, path: Path): (r: Outcome<seq<S>>)
    ensures env.lookup(path).Missing? || env.lookup(path).Special? ==> r == Err(NotFound)
    ensures env.lookup(path).File? ==>
              SameFailure(r, ScanEntry(env, path))
              && (r.Ok? ==> r.value == ScanEntry(env, path).value.UnwrapOr([]))
    ensures env.lookup(path).Dir? ==> r == ScanListing(env, path, env.lookup(path).listing)
  {
    match env.lookup(path)
    case File =>
      var found :- ScanEntry(env, path);
      Ok(found.UnwrapOr([]))
    case Dir(listing) => ScanListing(env, path, listing)
    case Missing => Err(NotFound)
    case Special => Err(NotFound)
  }

  /** `scan_library_dir_entries` on an opened (or failed) directory. */
  function ScanListing<S>(env: Env<S>, dir: Path, listing: Listing): Outcome<seq<S>> {
    match listing
    case ListFailed(k) => Err(k)
    case Listed(entries) => ScanEntries(env, dir, entries)
  }

  /** The loop of `scan_library_dir_entries`, over the remaining entries. */
  function ScanEntries<S>(env: Env<S>, dir: Path, entries: seq<DirEntry>): Outcome<seq<S>>
    decreases EntriesSize(entries), 1
  {
    if |entries| == 0 then Ok([])
    else Concat(ScanOne(env, dir, entries[0]), ScanEntries(env, dir, entries[1..]))
  }

  /** One directory entry: unreadable entries and entries that are neither
      files nor directories add nothing; a file is scanned as an entry; a
      sub-directory is scanned recursively, a failure to list it aborting
      the scan. */
  function ScanOne<S>(env: Env<S>, dir: Path, e: DirEntry): (r: Outcome<seq<S>>)
    ensures e.Unreadable? ==> r == Ok([])
    ensures e.Entry? && (e.node.Missing? || e.node.Special?) ==> r == Ok([])
    ensures e.Entry? && e.node.File? ==>
              SameFailure(r, ScanEntry(env, Join(dir, e.name)))
              && (r.Ok? ==> r.value == ScanEntry(env, Join(dir, e.name)).value.UnwrapOr([]))
    ensures e.Entry? && e.node.Dir? && e.node.listing.ListFailed? ==> r == Err(e.node.listing.kind)
    decreases EntrySize(e), 0
  {
    match e
    case Unreadable(_) => Ok([])
    case Entry(name, node) =>
      match node
      case File =>
        var found :- ScanEntry(env, Join(dir, name));
        Ok(found.UnwrapOr([]))
      case Dir(listing) =>
        (match listing
         case ListFailed(k) => Err(k)
         case Listed(sub) =>
           assert EntrySize(e) == 2 + EntriesSize(sub);
           ScanEntries(env, Join(dir, name), sub))
      case Missing => Ok([])
      case Special => Ok([])
  }

  /** A sub-directory's songs take the sub-directory's place among its
      siblings' songs. */
  lemma SubdirectoryInPlace<S>(env: Env<S>, dir: Path, name: string, sub: seq<DirEntry>)
    ensures ScanOne(env, dir, Entry(name, Dir(Listed(sub)))) == ScanEntries(env, Join(dir, name), sub)
  {
  }

  /** Scanning a concatenation of entries is scanning the two parts in
      sequence. */
  lemma {:induction false} ScanEntriesAppend<S>(env: Env<S>, dir: Path, a: seq<DirEntry>, b: seq<DirEntry>)
    ensures ScanEntries(env, dir, a + b) == Concat(ScanEntries(env, dir, a), ScanEntries(env, dir, b))
    decreases |a|
  {
    if |a| == 0 {
      assert a + b == b;
      var sb := ScanEntries(env, dir, b);
      if sb.Ok? {
        assert [] + sb.value == sb.value;
      }
    } else {
      assert (a + b)[0] == a[0];
      assert (a + b)[1..] == a[1..] + b;
      ScanEntriesAppend(env, dir, a[1..], b);
      ConcatAssociative(ScanOne(env, dir, a[0]), ScanEntries(env, dir, a[1..]), ScanEntries(env, dir, b));
    }
  }

  /** Unreadable entries are skipped: removing one changes nothing. */
  lemma UnreadableSkipped<S>(env: Env<S>, dir: Path, a: seq<DirEntry>, k: ErrorKind, b: seq<DirEntry>)
    ensures ScanEntries(env, dir, a + [Unreadable(k)] + b) == ScanEntries(env, dir, a + b)
  {
    ScanEntriesAppend(env, dir, a + [Unreadable(k)], b);
    ScanEntriesAppend(env, dir, a, [Unreadable(k)]);
    ScanEntriesAppend(env, dir, a, b);
    var sa := ScanEntries(env, dir, a);
    assert ScanEntries(env, dir, [Unreadable(k)]) == Ok([]);
    if sa.Ok? {
      assert sa.value + [] == sa.value;
    }
  }

  /** The songs a scan found, or none when it failed. */
  function SongsOf<S>(o: Outcome<seq<S>>): seq<S> {
    if o.Ok? then o.value else []
  }

  /** The lists of songs, one after another. */
  function Flatten<S>(xss: seq<seq<S>>): seq<S> {
    if |xss| == 0 then [] else xss[0] + Flatten(xss[1..])
  }

  /** A run of scans, appended in order: it succeeds exactly when every scan
      does, with all their songs in order; otherwise the first failing scan
      is the result. */
  function ConcatAll<S>(outs: seq<Outcome<seq<S>>>): (r: Outcome<seq<S>>)
    ensures r.Ok? <==> forall i :: 0 <= i < |outs| ==> outs[i].Ok?
    ensures r.Ok? ==> r.value == Flatten(seq(|outs|, i requires 0 <= i < |outs| => SongsOf(outs[i])))
    ensures !r.Ok? ==> exists i :: 0 <= i < |outs| && r == outs[i] && forall j :: 0 <= j < i ==> outs[j].Ok?
  {
    if |outs| == 0 then Ok([])
    else
      var rest := ConcatAll(outs[1..]);
      assert seq(|outs|, i requires 0 <= i < |outs| => SongsOf(outs[i]))[1..]
          == seq(|outs| - 1, i requires 0 <= i < |outs| - 1 => SongsOf(outs[1..][i]));
      assert !rest.Ok? ==> exists i :: 1 <= i < |outs| && rest == outs[i] && forall j :: 1 <= j < i ==> outs[j].Ok?;
      Concat(outs[0], rest)
  }

  /** Appending the scans of `a + b` is appending those of `a` to those of
      `b`. */
  lemma {:induction false} ConcatAllAppend<S>(a: seq<Outcome<seq<S>>>, b: seq<Outcome<seq<S>>>)
    ensures ConcatAll(a + b) == Concat(ConcatAll(a), ConcatAll(b))
    decreases |a|
  {
    if |a| == 0 {
      assert a + b == b;
      var sb := ConcatAll(b);
      if sb.Ok? {
        assert [] + sb.value == sb.value;
      }
    } else {
      assert (a + b)[0] == a[0];
      assert (a + b)[1..] == a[1..] + b;
      ConcatAllAppend(a[1..], b);
      ConcatAssociative(a[0], ConcatAll(a[1..]), ConcatAll(b));
    }
  }

  /** The scan of each root, in root order. */
  function RootScans<S>(env: Env<S>, roots: seq<Path>): seq<Outcome<seq<S>>> {
    seq(|roots|, i requires 0 <= i < |roots| => ScanLibraryDir(env, roots[i]))
  }

  /** `scan_libraries`: the roots in order, the songs of each appended; the
      first root that fails aborts the whole scan. */
  function ScanLibraries<S>(env: Env<S>, roots: seq<Path>): (r: Outcome<seq<S>>)
    ensures r.Ok? <==> forall i :: 0 <= i < |roots| ==> ScanLibraryDir(env, roots[i]).Ok?
    ensures r.Ok? ==>
              r.value == Flatten(seq(|roots|, i requires 0 <= i < |roots| => SongsOf(ScanLibraryDir(env, roots[i]))))
    ensures !r.Ok? ==>
              exists i :: 0 <= i < |roots| && r == ScanLibraryDir(env, roots[i])
                          && forall j :: 0 <= j < i ==> ScanLibraryDir(env, roots[j]).Ok?
  {
    var outs := RootScans(env, roots);
    assert forall i :: 0 <= i < |roots| ==> outs[i] == ScanLibraryDir(env, roots[i]);
    assert seq(|outs|, i requires 0 <= i < |outs| => SongsOf(outs[i]))
        == seq(|roots|, i requires 0 <= i < |roots| => SongsOf(ScanLibraryDir(env, roots[i])));
    ConcatAll(outs)
  }

  /** Scanning a concatenation of roots is scanning the two lists in
      sequence. */
  lemma ScanLibrariesAppend<S>(env: Env<S>, a: seq<Path>, b: seq<Path>)
    ensures ScanLibraries(env, a + b) == Concat(ScanLibraries(env, a), ScanLibraries(env, b))
  {
    assert RootScans(env, a + b) == RootScans(env, a) + RootScans(env, b);
    ConcatAllAppend(RootScans(env, a), RootScans(env, b));
  }
}

=== FILE: library.dfy ===
/** `SongLibrary` (crates/metalforge-lib/src/library.rs): an ordered
    collection of songs.  The song type is a parameter so that the older
    and newer song records of the repository share one library model.
 */
module Library {
  import opened Results

  datatype SongLibrary<S> = SongLibrary(songs: seq<S>)

  function Empty<S>(): (l: SongLibrary<S>)
    ensures |l.songs| == 0
  {
    SongLibrary([])
  }

  function AddSong<S>(l: SongLibrary<S>, song: S): (r: SongLibrary<S>)
    ensures |r.songs| == |l.songs| + 1
    ensures r.songs[..|l.songs|] == l.songs
    ensures r.songs[|l.songs|] == song
  {
    SongLibrary(l.songs + [song])
  }

  /** `song(idx)`: `Vec::get`. */
  function Song<S>(l: SongLibrary<S>, idx: nat): (r: Option<S>)
    ensures r.Some? <==> idx < |l.songs|
    ensures r.Some? ==> r.value == l.songs[idx]
  {
    if idx < |l.songs| then Some(l.songs[idx]) else None
  }

  /** `iter`: the songs in insertion order. */
  function Iter<S>(l: SongLibrary<S>): seq<S> {
    l.songs
  }

  /** `From<Vec<Song>>`. */
  function FromSeq<S>(songs: seq<S>): (l: SongLibrary<S>)
    ensures |Iter(l)| == |songs|
    ensures forall i :: 0 <= i < |songs| ==> Song(l, i) == Some(songs[i])
  {
    SongLibrary(songs)
  }

  /** Adding songs one by one yields them back from `iter` in the order they
      were added, and each is found at its position by `song`. */
  lemma {:induction false} AddSongsInOrder<S>(songs: seq<S>)
    ensures Iter(AddAll(Empty(), songs)) == songs
    ensures forall i :: 0 <= i < |songs| ==> Song(AddAll(Empty(), songs), i) == Some(songs[i])
    decreases |songs|
  {
    if |songs| > 0 {
      var init := songs[..|songs| - 1];
      AddSongsInOrder(init);
      assert init + [songs[|songs| - 1]] == songs;
    }
  }

  function AddAll<S>(l: SongLibrary<S>, songs: seq<S>): SongLibrary<S>
    decreases |songs|
  {
    if |songs| == 0 then l else AddSong(AddAll(l, songs[..|songs| - 1]), songs[|songs| - 1])
  }
}

=== FILE: loader_scan.dfy ===
/** Library scanning of the metalforge-loader crate
    (crates/metalforge-loader/src/lib.rs and
    crates/metalforge-loader/src/loader.rs): roots are URLs; a missing root
    or an unsupported scheme is an empty library; files are recognised by
    name or extension; sub-directories are ignored; a `library.yaml`
    descriptor lists further locations, each scanned in turn.

    `SongLibrary::merge` is not part of this model and stays an opaque
    parameter.  A descriptor may name itself, which in the source recurses
    without end; here the nesting of descriptors is bounded by `fuel`, and
    running out of it is a panic.
 */
module LoaderScan {
  import opened Results
  import opened Fs
  import opened LoaderSongs
  import Library
  import PsarcLoader
  import Smither
  import LibraryScan

  type Lib = Library.SongLibrary<Song>

  /** A `library.yaml` descriptor: the locations of its songs, each an
      absolute path or one relative to the descriptor's directory. */
  datatype SongEntry = SongEntry(path: string)
  datatype LibraryDef = LibraryDef(songs: seq<SongEntry>)

  /** What scanning observes: the filesystem (`readFile` fails only when a
      file cannot be opened, as `Fs.LoadFileContents` describes), the YAML
      and PSARC decoders (`None` when the bytes do not decode),
      `build_url`, and `merge`. */
  datatype Env = Env(
    lookup: Path -> Node,
    readFile: Path -> Outcome<Bytes>,
    decodeLibraryDef: Bytes -> Option<LibraryDef>,
    decodeHeader: Bytes -> Option<SongHeader>,
    parsePsarc: Bytes -> Option<PsarcLoader.SongFile>,
    buildUrl: string -> Outcome<Url>,
    merge: (Lib, Lib) -> Lib)

  const LibraryDescriptor := "library.yaml"
  const SongDescriptor := "song.yaml"
  const ExtMfSong := "mfsong"
  const ExtMfLib := "mflib"
  const ExtPsarc := "psarc"

  /** How an entry is treated, by file name first and extension second. */
  datatype EntryKind = LibraryFile | SongFile | MfLib | MfSong | PsarcArchive | Ignored

  function Classify(p: Path): EntryKind {
    match FileName(p)
    case None => Ignored
    case Some(name) =>
      if name == LibraryDescriptor then LibraryFile
      else if name == SongDescriptor then SongFile
      else
        match NameExtension(name)
        case Some(ext) => ExtensionKind(ext)
        case None => Ignored
  }

  function ExtensionKind(ext: string): EntryKind {
    if ext == ExtMfLib then MfLib
    else if ext == ExtMfSong then MfSong
    else if ext == ExtPsarc then PsarcArchive
    else Ignored
  }

  /** The two descriptor names are recognised before any extension. */
  lemma ClassifyDescriptors(dir: Path)
    ensures Classify(Join(dir, LibraryDescriptor)) == LibraryFile
    ensures Classify(Join(dir, SongDescriptor)) == SongFile
  {
    JoinPop(dir, LibraryDescriptor);
    JoinPop(dir, SongDescriptor);
  }

  /** A file named `stem.ext` is classified by `ext` alone, whatever its
      stem. */
  lemma ClassifyExtensions(dir: Path, stem: string)
    requires stem != ""
    ensures Classify(Join(dir, stem + "." + ExtPsarc)) == PsarcArchive
    ensures Classify(Join(dir, stem + "." + ExtMfLib)) == MfLib
    ensures Classify(Join(dir, stem + "." + ExtMfSong)) == MfSong
  {
    ClassifyByExtension(dir, stem, ExtPsarc);
    ClassifyByExtension(dir, stem, ExtMfLib);
    ClassifyByExtension(dir, stem, ExtMfSong);
  }

  lemma ClassifyByExtension(dir: Path, stem: string, ext: string)
    requires stem != "" && ext in {ExtPsarc, ExtMfLib, ExtMfSong}
    ensures FileName(Join(dir, stem + "." + ext)) == Some(stem + "." + ext)
    ensures stem + "." + ext != LibraryDescriptor
    ensures stem + "." + ext != SongDescriptor
    ensures NameExtension(stem + "." + ext) == Some(ext)
    ensures Classify(Join(dir, stem + "." + ext)) == ExtensionKind(ext)
  {
    var name := stem + "." + ext;
    LibraryScan.ClassifyByExtension(dir, stem, ext);
    assert name[|name| - 1] != LibraryDescriptor[|LibraryDescriptor| - 1];
  }

  /** `load_library_def`: the descriptor's bytes, decoded; a decoding
      failure is `Other`. */
  function LoadLibraryDef(env: Env, url: Url): (r: Outcome<LibraryDef>)
    ensures !LoadFileContents(url, env.readFile).Ok? ==> SameFailure(r, LoadFileContents(url, env.readFile))
    ensures LoadFileContents(url, env.readFile).Ok? ==>
              match env.decodeLibraryDef(LoadFileContents(url, env.readFile).value)
              case None => r == Err(Other)
              case Some(def) => r == Ok(def)
  {
    var bytes :- LoadFileContents(url, env.readFile);
    match env.decodeLibraryDef(bytes)
    case None => Err(Other)
    case Some(def) => Ok(def)
  }

  /** `load_song_header`: the song descriptor's bytes, decoded; a decoding
      failure is `Other`. */
  function LoadSongHeader(env: Env, url: Url): (r: Outcome<SongHeader>)
    ensures !LoadFileContents(url, env.readFile).Ok? ==> SameFailure(r, LoadFileContents(url, env.readFile))
    ensures LoadFileContents(url, env.readFile).Ok? ==>
              match env.decodeHeader(LoadFileContents(url, env.readFile).value)
              case None => r == Err(Other)
              case Some(h) => r == Ok(h)
  {
    var bytes :- LoadFileContents(url, env.readFile);
    match env.decodeHeader(bytes)
    case None => Err(Other)
    case Some(h) => Ok(h)
  }

  /** `load_song`: a library of exactly one song, the decoded header found
      at the descriptor's URL. */
  function LoadSong(env: Env, url: Url): (r: Outcome<Lib>)
    ensures SameFailure(r, LoadSongHeader(env, url))
    ensures r.Ok? ==> r.value.songs == [Song(LoadSongHeader(env, url).value, url)]
  {
    var header :- LoadSongHeader(env, url);
    Ok(Library.AddSong(Library.Empty(), Song(header, url)))
  }

  /** The URL of a descriptor entry: the descriptor's directory with the
      entry's path pushed, so an absolute entry stands for itself. */
  function EntryUrl(url: Url, entry: SongEntry): (r: Url)
    ensures r.scheme == url.scheme
  {
    url.(path := Push(Pop(url.path), ParsePath(entry.path)))
  }

  /** Entries of a descriptor at `dir/library.yaml` resolve against `dir`:
      a relative entry lands beneath it, an absolute one replaces it. */
  lemma EntryUrlResolves(scheme: string, dir: Path, entry: SongEntry)
    ensures var p := ParsePath(entry.path);
      var r := EntryUrl(Url(scheme, Join(dir, LibraryDescriptor)), entry);
      && r.scheme == scheme
      && (p.absolute ==> r.path == p)
      && (!p.absolute ==> r.path == Path(dir.absolute, dir.parts + p.parts))
  {
    JoinPop(dir, LibraryDescriptor);
  }

  /** `scan_library_url`: only `file` URLs are scanned; anything else is an
      empty library. */
  function ScanLibraryUrl(env: Env, url: Url, fuel: nat): (r: Outcome<Lib>)
    ensures url.scheme != "file" ==> r == Ok(Library.Empty())
    ensures url.scheme == "file" ==> r == ScanLibraryDir(env, url, fuel)
    decreases fuel, 4, 0
  {
    if url.scheme == "file" then ScanLibraryDir(env, url, fuel) else Ok(Library.Empty())
  }

  /** `scan_library_dir`: a file root is an entry, a directory root is
      listed, and a root that does not exist (or is neither) is an empty
      library, not an error. */
  function ScanLibraryDir(env: Env, url: Url, fuel: nat): (r: Outcome<Lib>)
    ensures env.lookup(url.path).Missing? || env.lookup(url.path).Special? ==> r == Ok(Library.Empty())
    ensures env.lookup(url.path).File? ==> r == ScanLibraryDirEntry(env, url, fuel)
    ensures env.lookup(url.path).Dir? && env.lookup(url.path).listing.ListFailed? ==>
              r == Err(env.lookup(url.path).listing.kind)
    ensures env.lookup(url.path).Dir? && env.lookup(url.path).listing.Listed? ==>
              r == ScanEntries(env, url, env.lookup(url.path).listing.entries, Library.Empty(), fuel)
    decreases fuel, 3, 0
  {
    match env.lookup(url.path)
    case File => ScanLibraryDirEntry(env, url, fuel)
    case Dir(ListFailed(k)) => Err(k)
    case Dir(Listed(entries)) => ScanEntries(env, url, entries, Library.Empty(), fuel)
    case Missing => Ok(Library.Empty())
    case Special => Ok(Library.Empty())
  }

  /** The loop of `scan_library_dir_entries` over the remaining entries,
      with the library merged so far.  Only regular files are scanned; the
      first failing file aborts. */
  function ScanEntries(env: Env, url: Url, entries: seq<DirEntry>, acc: Lib, fuel: nat): (r: Outcome<Lib>)
    ensures |entries| == 0 ==> r == Ok(acc)
    decreases fuel, 2, |entries|
  {
    if |entries| == 0 then Ok(acc)
    else
      match entries[0]
      case Entry(name, File) =>
        var found :- ScanLibraryDirEntry(env, url.(path := Join(url.path, name)), fuel);
        ScanEntries(env, url, entries[1..], env.merge(acc, found), fuel)
      case _ => ScanEntries(env, url, entries[1..], acc, fuel)
  }

  /** `scan_library_dir_entry`: dispatch on the file name, then on the
      extension. */
  function ScanLibraryDirEntry(env: Env, url: Url, fuel: nat): (r: Outcome<Lib>)
    ensures Classify(url.path).LibraryFile? ==> r == LoadLibrary(env, url, fuel)
    ensures Classify(url.path).SongFile? ==> r == LoadSong(env, url)
    ensures Classify(url.path).PsarcArchive? ==> r == Smither.LoadPsarc(url, env.readFile, env.parsePsarc)
    ensures Classify(url.path).MfLib? || Classify(url.path).MfSong? ==> r.Panic?
    ensures Classify(url.path).Ignored? ==> r == Ok(Library.Empty())
    decreases fuel, 1, 0
  {
    match Classify(url.path)
    case LibraryFile => LoadLibrary(env, url, fuel)
    case SongFile => LoadSong(env, url)
    case MfLib => Panic("not yet implemented: mflib")
    case MfSong => Panic("not yet implemented: mfsong")
    case PsarcArchive => Smither.LoadPsarc(url, env.readFile, env.parsePsarc)
    case Ignored => Ok(Library.Empty())
  }

  /** `load_library`: the descriptor, then each of its entries scanned in
      declaration order. */
  function LoadLibrary(env: Env, url: Url, fuel: nat): (r: Outcome<Lib>)
    ensures fuel == 0 ==> r.Panic?
    ensures fuel > 0 && !LoadLibraryDef(env, url).Ok? ==> SameFailure(r, LoadLibraryDef(env, url))
    ensures fuel > 0 && LoadLibraryDef(env, url).Ok? ==>
              r == LoadEntries(env, url, LoadLibraryDef(env, url).value.songs, Library.Empty(), fuel - 1)
    decreases fuel, 0, 0
  {
    if fuel == 0 then Panic("library descriptors nested beyond the bound")
    else
      var def :- LoadLibraryDef(env, url);
      LoadEntries(env, url, def.songs, Library.Empty(), fuel - 1)
  }

  /** The loop of `load_library` over the remaining entries, with the
      library merged so far. */
  function LoadEntries(env: Env, url: Url, entries: seq<SongEntry>, acc: Lib, fuel: nat): (r: Outcome<Lib>)
    ensures |entries| == 0 ==> r == Ok(acc)
    decreases fuel, 5, |entries|
  {
    if |entries| == 0 then Ok(acc)
    else
      var found :- ScanLibraryUrl(env, EntryUrl(url, entries[0]), fuel);
      LoadEntries(env, url, entries[1..], env.merge(acc, found), fuel)
  }

  /** The scans of the locations of descriptor entries, in order. */
  function EntryScans(env: Env, url: Url, entries: seq<SongEntry>, fuel: nat): (outs: seq<Outcome<Lib>>)
    ensures |outs| == |entries|
    ensures forall i :: 0 <= i < |entries| ==> outs[i] == ScanLibraryUrl(env, EntryUrl(url, entries[i]), fuel)
  {
    seq(|entries|, i requires 0 <= i < |entries| => ScanLibraryUrl(env, EntryUrl(url, entries[i]), fuel))
  }

  /** What the entry loop of `load_library` computes: it succeeds exactly
      when every entry's location scans, and then each entry's library is
      merged in, in declaration order; otherwise the first failing entry is
      the result. */
  lemma {:induction false} LoadEntriesSpec(env: Env, url: Url, entries: seq<SongEntry>, acc: Lib, fuel: nat)
    ensures MergesTo(env.merge, acc, EntryScans(env, url, entries, fuel), LoadEntries(env, url, entries, acc, fuel))
    decreases |entries|
  {
    var outs := EntryScans(env, url, entries, fuel);
    if |entries| == 0 {
      assert outs == [];
    } else {
      var here := ScanLibraryUrl(env, EntryUrl(url, entries[0]), fuel);
      assert outs == [here] + EntryScans(env, url, entries[1..], fuel);
      if here.Ok? {
        LoadEntriesSpec(env, url, entries[1..], env.merge(acc, here.value), fuel);
        MergesToConsOk(env.merge, acc, here, EntryScans(env, url, entries[1..], fuel), LoadEntries(env, url, entries, acc, fuel));
      } else {
        MergesToConsFail(env.merge, acc, here, EntryScans(env, url, entries[1..], fuel));
      }
    }
  }

  /** The libraries `libs`, merged one after another into `acc`. */
  function MergeAll(merge: (Lib, Lib) -> Lib, acc: Lib, libs: seq<Lib>): Lib
    decreases |libs|
  {
    if |libs| == 0 then acc else MergeAll(merge, merge(acc, libs[0]), libs[1..])
  }

  /** The library a scan found, or an empty one when it failed. */
  function LibOf(o: Outcome<Lib>): Lib {
    if o.Ok? then o.value else Library.Empty()
  }

  /** The scans of roots, in order. */
  function RootScans(env: Env, paths: seq<string>, fuel: nat): (outs: seq<Outcome<Lib>>)
    ensures |outs| == |paths|
    ensures forall i :: 0 <= i < |paths| ==> outs[i] == ScanRoot(env, paths[i], fuel)
  {
    seq(|paths|, i requires 0 <= i < |paths| => ScanRoot(env, paths[i], fuel))
  }

  /** The loop of `scan_libraries` over the remaining roots: it succeeds
      exactly when every root scans, and then each root's library is merged
      in, in order; otherwise the first failing root is the result. */
  function ScanRoots(env: Env, paths: seq<string>, acc: Lib, fuel: nat): (r: Outcome<Lib>)
    ensures MergesTo(env.merge, acc, RootScans(env, paths, fuel), r)
    decreases |paths|
  {
    if |paths| == 0 then
      assert RootScans(env, paths, fuel) == [];
      Ok(acc)
    else
      var here := ScanRoot(env, paths[0], fuel);
      assert RootScans(env, paths, fuel) == [here] + RootScans(env, paths[1..], fuel);
      if !here.Ok? then
        MergesToConsFail(env.merge, acc, here, RootScans(env, paths[1..], fuel));
        here
      else
        var rest := ScanRoots(env, paths[1..], env.merge(acc, here.value), fuel);
        MergesToConsOk(env.merge, acc, here, RootScans(env, paths[1..], fuel), rest);
        rest
  }

  /** `scan_libraries`: every root's library merged into an empty one, in
      order, or the first root's failure. */
  function ScanLibraries(env: Env, paths: seq<string>, fuel: nat): (r: Outcome<Lib>)
    ensures MergesTo(env.merge, Library.Empty(), RootScans(env, paths, fuel), r)
  {
    ScanRoots(env, paths, Library.Empty(), fuel)
  }

  /** What one root contributes, or how it fails: `build_url`, then
      `scan_library_url`. */
  function ScanRoot(env: Env, path: string, fuel: nat): Outcome<Lib> {
    var url :- env.buildUrl(path);
    ScanLibraryUrl(env, url, fuel)
  }

  /** The names of the regular files among directory entries, in order. */
  function FileNames(entries: seq<DirEntry>): seq<string> {
    if |entries| == 0 then []
    else (if entries[0].Entry? && entries[0].node.File? then [entries[0].name] else []) + FileNames(entries[1..])
  }

  /** The scan of the file `name` in the directory at `url`. */
  function FileScan(env: Env, url: Url, name: string, fuel: nat): Outcome<Lib> {
    ScanLibraryDirEntry(env, url.(path := Join(url.path, name)), fuel)
  }

  /** The scans of the files `names` in the directory at `url`, in order. */
  function FileScans(env: Env, url: Url, names: seq<string>, fuel: nat): (outs: seq<Outcome<Lib>>)
    ensures |outs| == |names|
    ensures forall i :: 0 <= i < |names| ==> outs[i] == FileScan(env, url, names[i], fuel)
  {
    seq(|names|, i requires 0 <= i < |names| => FileScan(env, url, names[i], fuel))
  }

  /** Whether `r` is what a loop over the scans `outs` yields: success
      exactly when every scan succeeds, and then their libraries merged into
      `acc` in order; otherwise the first failing scan. */
  predicate MergesTo(merge: (Lib, Lib) -> Lib, acc: Lib, outs: seq<Outcome<Lib>>, r: Outcome<Lib>) {
    && (r.Ok? <==> forall i :: 0 <= i < |outs| ==> outs[i].Ok?)
    && (r.Ok? ==> r.value == MergeAll(merge, acc, seq(|outs|, i requires 0 <= i < |outs| => LibOf(outs[i]))))
    && (!r.Ok? ==> exists i :: 0 <= i < |outs| && r == outs[i] && forall j :: 0 <= j < i ==> outs[j].Ok?)
  }

  /** A successful scan in front of the others: its library is merged
      first, then the loop goes on. */
  lemma MergesToConsOk(merge: (Lib, Lib) -> Lib, acc: Lib, o: Outcome<Lib>, outs: seq<Outcome<Lib>>, r: Outcome<Lib>)
    requires o.Ok? && MergesTo(merge, merge(acc, o.value), outs, r)
    ensures MergesTo(merge, acc, [o] + outs, r)
  {
    var all := [o] + outs;
    assert forall i :: 0 <= i < |outs| ==> all[i + 1] == outs[i];
    assert r.Ok? <==> forall i :: 0 <= i < |all| ==> all[i].Ok? by {
      assert all[0] == o;
    }
    if r.Ok? {
      assert seq(|all|, i requires 0 <= i < |all| => LibOf(all[i]))
          == [o.value] + seq(|outs|, i requires 0 <= i < |outs| => LibOf(outs[i]));
    } else {
      var k :| 0 <= k < |outs| && r == outs[k] && forall j :: 0 <= j < k ==> outs[j].Ok?;
      assert r == all[k + 1] && forall j :: 0 <= j < k + 1 ==> all[j].Ok?;
    }
  }

  /** A failing scan in front of the others ends the loop with its failure. */
  lemma MergesToConsFail(merge: (Lib, Lib) -> Lib, acc: Lib, o: Outcome<Lib>, outs: seq<Outcome<Lib>>)
    requires !o.Ok?
    ensures MergesTo(merge, acc, [o] + outs, o)
  {
    assert ([o] + outs)[0] == o;
  }

  /** What the entry loop of `scan_library_dir_entries` computes: only the
      regular files count; it succeeds exactly when each of them scans, and
      then their libraries are merged in, in listing order; otherwise the
      first failing file is the result. */
  lemma {:induction false} ScanEntriesSpec(env: Env, url: Url, entries: seq<DirEntry>, acc: Lib, fuel: nat)
    ensures MergesTo(env.merge, acc, FileScans(env, url, FileNames(entries), fuel), ScanEntries(env, url, entries, acc, fuel))
    decreases |entries|
  {
    var names := FileNames(entries);
    if |entries| == 0 {
      assert FileScans(env, url, names, fuel) == [];
    } else {
      var tail := FileNames(entries[1..]);
      match entries[0]
      case Entry(name, File) =>
        assert names == [name] + tail;
        var here := FileScan(env, url, name, fuel);
        assert FileScans(env, url, names, fuel) == [here] + FileScans(env, url, tail, fuel);
        if here.Ok? {
          ScanEntriesSpec(env, url, entries[1..], env.merge(acc, here.value), fuel);
          MergesToConsOk(env.merge, acc, here, FileScans(env, url, tail, fuel), ScanEntries(env, url, entries, acc, fuel));
        } else {
          MergesToConsFail(env.merge, acc, here, FileScans(env, url, tail, fuel));
        }
      case _ =>
        assert names == tail;
        assert ScanEntries(env, url, entries, acc, fuel) == ScanEntries(env, url, entries[1..], acc, fuel);
        ScanEntriesSpec(env, url, entries[1..], acc, fuel);
    }
  }

  /** A regular file in a listing contributes its scanned library, merged
      into the library so far, or ends the loop with its failure. */
  lemma FileEntryMerged(env: Env, url: Url, name: string, acc: Lib, fuel: nat)
    ensures var found := ScanLibraryDirEntry(env, url.(path := Join(url.path, name)), fuel);
      ScanEntries(env, url, [Entry(name, File)], acc, fuel)
      == if found.Ok? then Ok(env.merge(acc, found.value)) else found
  {
    var found := ScanLibraryDirEntry(env, url.(path := Join(url.path, name)), fuel);
    if found.Ok? {
      assert [Entry(name, File)][1..] == [];
    }
  }

  /** A readable directory root: its regular files are scanned in listing
      order and their libraries merged into an empty one, or the first
      failing file is the result. */
  lemma DirectoryRootMerged(env: Env, url: Url, fuel: nat)
    requires env.lookup(url.path).Dir? && env.lookup(url.path).listing.Listed?
    ensures var entries := env.lookup(url.path).listing.entries;
      MergesTo(env.merge, Library.Empty(), FileScans(env, url, FileNames(entries), fuel), ScanLibraryDir(env, url, fuel))
  {
    ScanEntriesSpec(env, url, env.lookup(url.path).listing.entries, Library.Empty(), fuel);
  }

  /** One root: its library is merged into the library so far, or its
      failure is the result. */
  lemma RootMerged(env: Env, path: string, acc: Lib, fuel: nat)
    ensures var found := ScanRoot(env, path, fuel);
      ScanRoots(env, [path], acc, fuel) == if found.Ok? then Ok(env.merge(acc, found.value)) else found
  {
  }

  /** One descriptor entry: the library at its location is merged into the
      library so far, or its failure is the result. */
  lemma SongEntryMerged(env: Env, url: Url, entry: SongEntry, acc: Lib, fuel: nat)
    ensures var found := ScanLibraryUrl(env, EntryUrl(url, entry), fuel);
      LoadEntries(env, url, [entry], acc, fuel) == if found.Ok? then Ok(env.merge(acc, found.value)) else found
  {
  }

  /** Scanning roots `a + b` is scanning `a`, then `b` from where `a`
      left off; a failure in `a` is the result. */
  lemma {:induction false} ScanRootsAppend(env: Env, a: seq<string>, b: seq<string>, acc: Lib, fuel: nat)
    ensures var ra := ScanRoots(env, a, acc, fuel);
      ScanRoots(env, a + b, acc, fuel) == if ra.Ok? then ScanRoots(env, b, ra.value, fuel) else ra
    decreases |a|
  {
    if |a| == 0 {
      assert a + b == b;
    } else {
      assert (a + b)[0] == a[0];
      assert (a + b)[1..] == a[1..] + b;
      var root := ScanRoot(env, a[0], fuel);
      if root.Ok? {
        ScanRootsAppend(env, a[1..], b, env.merge(acc, root.value), fuel);
      }
    }
  }

  /** A root that fails, after roots that all succeeded, is the result of
      the whole scan, whatever roots follow it. */
  lemma RootFailureAborts(env: Env, pre: seq<string>, path: string, post: seq<string>, acc: Lib, fuel: nat)
    requires ScanRoots(env, pre, acc, fuel).Ok?
    requires !ScanRoot(env, path, fuel).Ok?
    ensures SameFailure(ScanRoots(env, pre + [path] + post, acc, fuel), ScanRoot(env, path, fuel))
  {
    ScanRootsAppend(env, pre, [path] + post, acc, fuel);
    assert pre + [path] + post == pre + ([path] + post);
    assert ([path] + post)[0] == path;
  }

  /** Scanning entries `a + b` is scanning `a`, then `b` from where `a`
      left off; a failure in `a` is the result. */
  lemma {:induction false} ScanEntriesAppend(env: Env, url: Url, a: seq<DirEntry>, b: seq<DirEntry>, acc: Lib, fuel: nat)
    ensures var ra := ScanEntries(env, url, a, acc, fuel);
      ScanEntries(env, url, a + b, acc, fuel) == if ra.Ok? then ScanEntries(env, url, b, ra.value, fuel) else ra
    decreases |a|
  {
    if |a| == 0 {
      assert a + b == b;
    } else {
      assert (a + b)[0] == a[0];
      assert (a + b)[1..] == a[1..] + b;
      match a[0]
      case Entry(name, File) =>
        var found := ScanLibraryDirEntry(env, url.(path := Join(url.path, name)), fuel);
        if found.Ok? {
          ScanEntriesAppend(env, url, a[1..], b, env.merge(acc, found.value), fuel);
        }
      case _ =>
        ScanEntriesAppend(env, url, a[1..], b, acc, fuel);
    }
  }

  /** Sub-directories, unreadable entries and entries that are neither
      files nor directories are skipped: removing one changes nothing. */
  lemma NonFileSkipped(env: Env, url: Url, a: seq<DirEntry>, e: DirEntry, b: seq<DirEntry>, acc: Lib, fuel: nat)
    requires !(e.Entry? && e.node.File?)
    ensures ScanEntries(env, url, a + [e] + b, acc, fuel) == ScanEntries(env, url, a + b, acc, fuel)
  {
    ScanEntriesAppend(env, url, a, [e] + b, acc, fuel);
    ScanEntriesAppend(env, url, a, b, acc, fuel);
    assert a + [e] + b == a + ([e] + b);
    assert ([e] + b)[1..] == b;
  }

  /** Descriptor entries `a + b` are `a`, then `b` from where `a` left off;
      the first failing entry is the result. */
  lemma {:induction false} LoadEntriesAppend(env: Env, url: Url, a: seq<SongEntry>, b: seq<SongEntry>, acc: Lib, fuel: nat)
    ensures var ra := LoadEntries(env, url, a, acc, fuel);
      LoadEntries(env, url, a + b, acc, fuel) == if ra.Ok? then LoadEntries(env, url, b, ra.value, fuel) else ra
    decreases |a|
  {
    if |a| == 0 {
      assert a + b == b;
    } else {
      assert (a + b)[0] == a[0];
      assert (a + b)[1..] == a[1..] + b;
      var found := ScanLibraryUrl(env, EntryUrl(url, a[0]), fuel);
      if found.Ok? {
        LoadEntriesAppend(env, url, a[1..], b, env.merge(acc, found.value), fuel);
      }
    }
  }

  /** An entry that fails, after entries that all succeeded, is the result
      of the whole descriptor, and later entries are not scanned. */
  lemma EntryFailureAborts(env: Env, url: Url, pre: seq<SongEntry>, e: SongEntry, post: seq<SongEntry>, acc: Lib, fuel: nat)
    requires LoadEntries(env, url, pre, acc, fuel).Ok?
    requires !ScanLibraryUrl(env, EntryUrl(url, e), fuel).Ok?
    ensures SameFailure(LoadEntries(env, url, pre + [e] + post, acc, fuel), ScanLibraryUrl(env, EntryUrl(url, e), fuel))
  {
    LoadEntriesAppend(env, url, pre, [e] + post, acc, fuel);
    assert pre + [e] + post == pre + ([e] + post);
    assert ([e] + post)[0] == e;
  }
}

=== FILE: loader_songs.dfy ===
/** The song record the metalforge-loader crate builds: a header with
    arrangements and the URL the song was found at.  It belongs to a version
    of the song module that is not part of this model; the fields here are
    the ones crates/metalforge-loader/src/smither.rs and
    crates/metalforge-loader/src/loader.rs construct and read.
 */
module LoaderSongs {
  import opened Ints
  import opened Fs

  datatype Instrument = Vocal | ElectricBass | AcousticGuitar | ElectricGuitar

  datatype Arrangement = Arrangement(id: string, name: string, instrument: Instrument)

  datatype SongHeader = SongHeader(
    title: string, titleSort: string, album: string, albumSort: string,
    artist: string, artistSort: string, year: u16, version: u16, lengthSec: u16,
    arrangements: seq<Arrangement>)

  datatype Song = Song(header: SongHeader, path: Url)

  /** `add_arrangement`: one more arrangement at the end, nothing else
      changes. */
  function AddArrangement(s: Song, a: Arrangement): (r: Song)
    ensures |r.header.arrangements| == |s.header.arrangements| + 1
    ensures r.header.arrangements[..|s.header.arrangements|] == s.header.arrangements
    ensures r.header.arrangements[|s.header.arrangements|] == a
    ensures r.(header := s.header) == s
    ensures r.header.(arrangements := s.header.arrangements) == s.header
  {
    s.(header := s.header.(arrangements := s.header.arrangements + [a]))
  }
}

=== FILE: menu.dfy ===
/** The main menu cursor (crates/metalforge-bevy/src/ui/menu/mod.rs): a
    selected index moved by Prev/Next events, the keyboard mapping that
    produces them, and the highlighting of the selected item.
 */
module Menu {
  import opened Results
  import opened Keys

  datatype MenuEvent = PrevMenuItem | NextMenuItem | Play | Settings | Quit

  /** `MenuState`; every field is a `usize`. */
  datatype MenuState = MenuState(previousIdx: nat, selectedIdx: nat, menuLen: nat)

  /** Whether the cursor points at an item of the menu. */
  predicate InRange(s: MenuState) {
    s.selectedIdx < s.menuLen
  }

  function Default(): (s: MenuState)
    ensures s.previousIdx == 0 && s.selectedIdx == 0 && s.menuLen == 0
  {
    MenuState(0, 0, 0)
  }

  datatype Color = Highlight | White

  /** A spawned menu entry: its `MenuIdx`, title, event and text colour. */
  datatype MenuItem = MenuItem(idx: nat, title: string, event: MenuEvent, color: Color)

  /** The entries `setup_test_menu` builds, each coloured by whether it is
      the selected one. */
  function TestMenuItems(selected: nat): seq<MenuItem> {
    [ MenuItem(0, "Play", Play, if selected == 0 then Highlight else White),
      MenuItem(1, "Settings", Settings, if selected == 1 then Highlight else White),
      MenuItem(2, "Quit", Quit, if selected == 2 then Highlight else White) ]
  }

  /** `setup_test_menu`: three entries; the menu length becomes 3. */
  function SetupTestMenu(s: MenuState): (r: (MenuState, seq<MenuItem>))
    ensures r.0 == s.(menuLen := 3)
    ensures |r.1| == r.0.menuLen
    ensures forall i :: 0 <= i < |r.1| ==> r.1[i].idx == i
    ensures forall i :: 0 <= i < |r.1| ==> (r.1[i].color == Highlight <==> i == s.selectedIdx)
  {
    var items := TestMenuItems(s.selectedIdx);
    (s.(menuLen := |items|), items)
  }

  /** One iteration of `handle_menu_events`. */
  function HandleMenuEvent(s: MenuState, e: MenuEvent): (r: MenuState)
    ensures e.PrevMenuItem? ==>
              r == s.(selectedIdx := if s.selectedIdx > 0 then s.selectedIdx - 1 else 0)
    ensures e.NextMenuItem? && s.menuLen > 0 && s.selectedIdx < s.menuLen - 1 ==>
              r == s.(selectedIdx := s.selectedIdx + 1)
    ensures e.NextMenuItem? && !(s.menuLen > 0 && s.selectedIdx < s.menuLen - 1) ==> r == s
    ensures e.Play? || e.Settings? || e.Quit? ==> r == s
    ensures InRange(s) ==> InRange(r)
  {
    match e
    case PrevMenuItem =>
      if s.selectedIdx > 0 then s.(selectedIdx := s.selectedIdx - 1) else s
    case NextMenuItem =>
      if s.menuLen > 0 && s.selectedIdx < s.menuLen - 1 then s.(selectedIdx := s.selectedIdx + 1) else s
    case Play => s
    case Settings => s
    case Quit => s
  }

  /** `handle_menu_events` over the events of one frame, in read order. */
  function HandleMenuEvents(s: MenuState, events: seq<MenuEvent>): MenuState
    decreases |events|
  {
    if |events| == 0 then s else HandleMenuEvents(HandleMenuEvent(s, events[0]), events[1..])
  }

  /** The cursor stays on the menu through any run of events, and only the
      selected index ever changes. */
  lemma {:induction false} HandleMenuEventsInRange(s: MenuState, events: seq<MenuEvent>)
    ensures InRange(s) ==> InRange(HandleMenuEvents(s, events))
    ensures HandleMenuEvents(s, events).menuLen == s.menuLen
    ensures HandleMenuEvents(s, events).previousIdx == s.previousIdx
    decreases |events|
  {
    if |events| > 0 {
      HandleMenuEventsInRange(HandleMenuEvent(s, events[0]), events[1..]);
    }
  }

  /** `handle_menu_input`: Escape and Enter are recognised first and send
      nothing; then ArrowDown and ArrowUp. */
  function HandleMenuInput(input: KeyInput): (e: Option<MenuEvent>)
    ensures e.Some? <==>
              Escape !in input.justPressed && Enter !in input.justPressed
              && (ArrowDown in input.justPressed || ArrowUp in input.justPressed)
    ensures e.Some? && ArrowDown in input.justPressed ==> e.value == NextMenuItem
    ensures e.Some? && ArrowDown !in input.justPressed ==> e.value == PrevMenuItem
  {
    if Escape in input.justPressed then None
    else if Enter in input.justPressed then None
    else if ArrowDown in input.justPressed then Some(NextMenuItem)
    else if ArrowUp in input.justPressed then Some(PrevMenuItem)
    else None
  }

  /** The loop body of `highlight_menu`, over the queried items from `i` on. */
  function HighlightFrom(s: MenuState, items: seq<MenuItem>, i: nat): (r: (MenuState, seq<MenuItem>))
    requires i <= |items|
    ensures |r.1| == |items| - i
    decreases |items| - i
  {
    if i == |items| then (s, [])
    else
      var it := items[i];
      var here := if it.idx == s.selectedIdx then (s.(previousIdx := it.idx), it.(color := Highlight))
                  else (s, it.(color := White));
      var rest := HighlightFrom(here.0, items, i + 1);
      (rest.0, [here.1] + rest.1)
  }

  predicate Carries(items: seq<MenuItem>, idx: nat) {
    exists k :: 0 <= k < |items| && items[k].idx == idx
  }

  /** `highlight_menu`.  When the selection moved, the item carrying the
      selected index is highlighted, every other item turns white, and the
      previous index catches up if such an item exists.  Otherwise nothing
      changes. */
  function HighlightMenu(s: MenuState, items: seq<MenuItem>): (r: (MenuState, seq<MenuItem>))
    ensures s.selectedIdx == s.previousIdx ==> r == (s, items)
    ensures |r.1| == |items|
    ensures s.selectedIdx != s.previousIdx ==>
              forall k :: 0 <= k < |items| ==>
                r.1[k] == items[k].(color := if items[k].idx == s.selectedIdx then Highlight else White)
    ensures s.selectedIdx != s.previousIdx && Carries(items, s.selectedIdx) ==>
              r.0 == s.(previousIdx := s.selectedIdx)
    ensures !Carries(items, s.selectedIdx) ==> r.0 == s
  {
    if s.selectedIdx != s.previousIdx then
      HighlightFromSpec(s, items, 0);
      HighlightFrom(s, items, 0)
    else (s, items)
  }

  lemma {:induction false} HighlightFromSpec(s: MenuState, items: seq<MenuItem>, i: nat)
    requires i <= |items|
    ensures HighlightFrom(s, items, i).0.selectedIdx == s.selectedIdx
    ensures HighlightFrom(s, items, i).0.menuLen == s.menuLen
    ensures forall k :: 0 <= k < |items| - i ==>
              HighlightFrom(s, items, i).1[k] ==
                items[i + k].(color := if items[i + k].idx == s.selectedIdx then Highlight else White)
    ensures (exists k :: i <= k < |items| && items[k].idx == s.selectedIdx) ==>
              HighlightFrom(s, items, i).0 == s.(previousIdx := s.selectedIdx)
    ensures !(exists k :: i <= k < |items| && items[k].idx == s.selectedIdx) ==>
              HighlightFrom(s, items, i).0 == s
    decreases |items| - i
  {
    if i < |items| {
      var it := items[i];
      var s' := if it.idx == s.selectedIdx then s.(previousIdx := it.idx) else s;
      HighlightFromSpec(s', items, i + 1);
      var r := HighlightFrom(s, items, i);
      var rest := HighlightFrom(s', items, i + 1);
      assert r.1 == [r.1[0]] + rest.1;
      forall k | 0 <= k < |items| - i
        ensures r.1[k] == items[i + k].(color := if items[i + k].idx == s.selectedIdx then Highlight else White)
      {
        if k > 0 {
          assert r.1[k] == rest.1[k - 1];
        }
      }
    }
  }
}

=== FILE: part.dfy ===
/** Instrument parts and pitch classes (crates/metalforge-lib/src/part.rs). */
module Part {
  import opened Results
  import opened Text

  datatype PitchClass =
    | C | CSharp | CFlat
    | D | DSharp | DFlat
    | E | ESharp | EFlat
    | F | FSharp | FFlat
    | G | GSharp | GFlat
    | A | ASharp | AFlat
    | B | BSharp | BFlat

  /** Note values, written `Duration` in the source. */
  datatype Duration = Whole | Half | Quarter | Eighth | Sixteenth

  /** A note of an instrument part.  `time` and `sustain` are `f32` seconds
      in the source and reals here. */
  datatype Note = Note(
    pitch: PitchClass, octave: nat, time: real, sustain: real,
    duration: Duration, velocity: nat, str: nat, fret: nat)

  datatype InstrumentPart = InstrumentPart(id: string, name: string, notes: seq<Note>)

  /** The `Display` table, written out as in the source. */
  function Display(p: PitchClass): (s: string)
    ensures s == [Letter(p)] + AccidentalSuffix(p)
  {
    match p
    case C => "C"      case CSharp => "C#"   case CFlat => "Cb"
    case D => "D"      case DSharp => "D#"   case DFlat => "Db"
    case E => "E"      case ESharp => "E#"   case EFlat => "Eb"
    case F => "F"      case FSharp => "F#"   case FFlat => "Fb"
    case G => "G"      case GSharp => "G#"   case GFlat => "Gb"
    case A => "A"      case ASharp => "A#"   case AFlat => "Ab"
    case B => "B"      case BSharp => "B#"   case BFlat => "Bb"
  }

  /** The `#[serde(rename = ...)]` name of each variant, written out as in
      the source. */
  function SerdeName(p: PitchClass): (s: string)
    ensures s == AsciiLower(Display(p))
  {
    match p
    case C => "c"      case CSharp => "c#"   case CFlat => "cb"
    case D => "d"      case DSharp => "d#"   case DFlat => "db"
    case E => "e"      case ESharp => "e#"   case EFlat => "eb"
    case F => "f"      case FSharp => "f#"   case FFlat => "fb"
    case G => "g"      case GSharp => "g#"   case GFlat => "gb"
    case A => "a"      case ASharp => "a#"   case AFlat => "ab"
    case B => "b"      case BSharp => "b#"   case BFlat => "bb"
  }

  /** The note letter a variant is named after. */
  function Letter(p: PitchClass): char {
    if p.C? || p.CSharp? || p.CFlat? then 'C'
    else if p.D? || p.DSharp? || p.DFlat? then 'D'
    else if p.E? || p.ESharp? || p.EFlat? then 'E'
    else if p.F? || p.FSharp? || p.FFlat? then 'F'
    else if p.G? || p.GSharp? || p.GFlat? then 'G'
    else if p.A? || p.ASharp? || p.AFlat? then 'A'
    else 'B'
  }

  predicate IsSharp(p: PitchClass) {
    p.CSharp? || p.DSharp? || p.ESharp? || p.FSharp? || p.GSharp? || p.ASharp? || p.BSharp?
  }

  predicate IsFlat(p: PitchClass) {
    p.CFlat? || p.DFlat? || p.EFlat? || p.FFlat? || p.GFlat? || p.AFlat? || p.BFlat?
  }

  function AccidentalSuffix(p: PitchClass): string {
    if IsSharp(p) then "#" else if IsFlat(p) then "b" else ""
  }

  /** Reads a display string back: the inverse of `Display`, which the
      source does not have; it serves to show the display strings distinct. */
  function Parse(s: string): (r: Option<PitchClass>)
    ensures r.Some? ==> Display(r.value) == s
  {
    if |s| == 0 || |s| > 2 then None
    else
      var natural :=
        match s[0]
        case 'C' => Some(C) case 'D' => Some(D) case 'E' => Some(E) case 'F' => Some(F)
        case 'G' => Some(G) case 'A' => Some(A) case 'B' => Some(B)
        case _ => None;
      if natural.None? then None
      else if |s| == 1 then natural
      else if s[1] == '#' then Some(Sharpen(natural.value))
      else if s[1] == 'b' then Some(Flatten(natural.value))
      else None
  }

  function Sharpen(p: PitchClass): PitchClass {
    match p
    case C => CSharp case D => DSharp case E => ESharp case F => FSharp
    case G => GSharp case A => ASharp case B => BSharp
    case _ => p
  }

  function Flatten(p: PitchClass): PitchClass {
    match p
    case C => CFlat case D => DFlat case E => EFlat case F => FFlat
    case G => GFlat case A => AFlat case B => BFlat
    case _ => p
  }

  /** Every display string reads back as its variant, so the 21 strings are
      pairwise distinct. */
  lemma DisplayRoundTrip(p: PitchClass)
    ensures Parse(Display(p)) == Some(p)
  {
  }

  lemma DisplayInjective(p: PitchClass, q: PitchClass)
    ensures Display(p) == Display(q) ==> p == q
  {
    DisplayRoundTrip(p);
    DisplayRoundTrip(q);
  }

  /** Every display string is an upper-case letter A to G, followed by `#`
      for the sharp variants, `b` for the flat ones and nothing for the
      naturals. */
  lemma DisplayShape(p: PitchClass)
    ensures 'A' <= Display(p)[0] <= 'G'
    ensures IsSharp(p) ==> Display(p) == [Display(p)[0], '#']
    ensures IsFlat(p) ==> Display(p) == [Display(p)[0], 'b']
    ensures !IsSharp(p) && !IsFlat(p) ==> |Display(p)| == 1
  {
  }
}

=== FILE: player_camera.dfy ===
/** The fixed-tick position update and the per-frame camera interpolation of
    the song player (crates/metalforge-bevy/src/ui/player/mod.rs).

    Vectors are `Vec3` of reals: the `f32` rounding of Bevy's math is not
    modelled.  The scaled tick length `Duration::from_secs_f32(delta_secs *
    player_speed)` is an input `advance` of the tick.
 */
module PlayerCamera {
  import opened Durations
  import opened SongPlayback

  datatype Vec3 = Vec3(x: real, y: real, z: real)

  const Zero: Vec3 := Vec3(0.0, 0.0, 0.0)

  /** Camera translation per second of song time. */
  const ScrollSpeed: real := 100.0

  /** `CameraPosition`: the positions at the last two fixed ticks and the
      scroll velocity. */
  datatype CameraPosition = CameraPosition(current: Vec3, previous: Vec3, velocity: Vec3)

  /** The resources `player_plugin` installs: the player state, the player
      and the camera position. */
  datatype PlayerScreen = PlayerScreen(state: PlayerState, player: SongPlayer, camera: CameraPosition)

  function PluginInitial(): (s: PlayerScreen)
    ensures s.state == Paused
    ensures s.player == SongPlayback.Default()
    ensures s.camera.current == Zero && s.camera.previous == Zero && s.camera.velocity == Zero
  {
    PlayerScreen(Paused, SongPlayback.Default(), CameraPosition(Zero, Zero, Zero))
  }

  /** `update_position`: one fixed tick.  `advance` is the song time the tick
      covers at the player's speed. */
  function UpdatePosition(cam: CameraPosition, p: SongPlayer, advance: Duration): (r: (CameraPosition, SongPlayer))
    ensures r.0.previous == cam.current
    ensures !p.playing ==> r.1 == p
    ensures p.playing ==> r.1.position == p.position + advance
    ensures r.1.position >= p.position
    ensures r.1.playing == p.playing && r.1.speed == p.speed
    ensures r.0.velocity == cam.velocity.(x := p.speed)
    ensures r.0.current == cam.current.(x := AsSecs(r.1.position))
  {
    var p' := if p.playing then p.(position := p.position + advance) else p;
    var cam' := CameraPosition(
      cam.current.(x := AsSecs(p'.position)),
      cam.current,
      cam.velocity.(x := p'.speed));
    (cam', p')
  }

  /** Runs one fixed tick per entry of `advances`. */
  function Ticks(cam: CameraPosition, p: SongPlayer, advances: seq<Duration>): (CameraPosition, SongPlayer)
    decreases |advances|
  {
    if |advances| == 0 then (cam, p)
    else
      var r := UpdatePosition(cam, p, advances[0]);
      Ticks(r.0, r.1, advances[1..])
  }

  function Sum(ds: seq<Duration>): nat
    decreases |ds|
  {
    if |ds| == 0 then 0 else ds[0] + Sum(ds[1..])
  }

  /** Over any number of ticks a paused player keeps its position, and a
      playing one advances by exactly the sum of the tick lengths; the camera
      ends on the final position either way. */
  lemma {:induction false} TicksAdvance(cam: CameraPosition, p: SongPlayer, advances: seq<Duration>)
    ensures Ticks(cam, p, advances).1.playing == p.playing
    ensures !p.playing ==> Ticks(cam, p, advances).1 == p
    ensures p.playing ==> Ticks(cam, p, advances).1.position == p.position + Sum(advances)
    ensures |advances| > 0 ==>
              Ticks(cam, p, advances).0.current.x == AsSecs(Ticks(cam, p, advances).1.position)
    decreases |advances|
  {
    if |advances| > 0 {
      var r := UpdatePosition(cam, p, advances[0]);
      TicksAdvance(r.0, r.1, advances[1..]);
    }
  }

  function Lerp(a: real, b: real, f: real): real {
    a + (b - a) * f
  }

  function LerpVec(a: Vec3, b: Vec3, f: real): Vec3 {
    Vec3(Lerp(a.x, b.x, f), Lerp(a.y, b.y, f), Lerp(a.z, b.z, f))
  }

  function Scale(k: real, v: Vec3): Vec3 {
    Vec3(k * v.x, k * v.y, k * v.z)
  }

  /** `update_camera`: the camera translation for a frame drawn at overstep
      fraction `f` between the last two ticks.  For `f` in [0, 1] every
      coordinate lies between the scaled coordinates of the two ticks; it is
      the previous tick at 0 and the current one at 1. */
  function UpdateCamera(cam: CameraPosition, f: real): (t: Vec3)
    ensures 0.0 <= f <= 1.0 ==> Between(t.x, ScrollSpeed * cam.previous.x, ScrollSpeed * cam.current.x)
    ensures 0.0 <= f <= 1.0 ==> Between(t.y, ScrollSpeed * cam.previous.y, ScrollSpeed * cam.current.y)
    ensures 0.0 <= f <= 1.0 ==> Between(t.z, ScrollSpeed * cam.previous.z, ScrollSpeed * cam.current.z)
    ensures f == 0.0 ==> t == Scale(ScrollSpeed, cam.previous)
    ensures f == 1.0 ==> t == Scale(ScrollSpeed, cam.current)
  {
    LerpBetween(cam.previous.x, cam.current.x, f);
    LerpBetween(cam.previous.y, cam.current.y, f);
    LerpBetween(cam.previous.z, cam.current.z, f);
    Scale(ScrollSpeed, LerpVec(cam.previous, cam.current, f))
  }

  predicate Between(v: real, a: real, b: real) {
    (a <= v <= b) || (b <= v <= a)
  }

  lemma LerpBetween(a: real, b: real, f: real)
    ensures 0.0 <= f <= 1.0 ==> Between(ScrollSpeed * Lerp(a, b, f), ScrollSpeed * a, ScrollSpeed * b)
  {
    if 0.0 <= f <= 1.0 {
      var d := b - a;
      if a <= b {
        MulNonneg(d, f);
        MulNonneg(d, 1.0 - f);
        assert d * (1.0 - f) == d - d * f;
      } else {
        MulNonneg(-d, f);
        MulNonneg(-d, 1.0 - f);
        assert (-d) * (1.0 - f) == -d + d * f;
      }
    }
  }

  lemma MulNonneg(x: real, y: real)
    requires x >= 0.0 && y >= 0.0
    ensures x * y >= 0.0
  {
  }

  /** While the player is playing, the camera never scrolls backwards from
      one tick to the next. */
  lemma PlayingNeverRegresses(cam: CameraPosition, p: SongPlayer, advance: Duration)
    requires cam.current.x == AsSecs(p.position)
    ensures UpdatePosition(cam, p, advance).0.current.x >= UpdatePosition(cam, p, advance).0.previous.x
  {
    var r := UpdatePosition(cam, p, advance);
    AsSecsMonotone(p.position, r.1.position);
  }

  lemma AsSecsMonotone(a: Duration, b: Duration)
    requires a <= b
    ensures AsSecs(a) <= AsSecs(b)
  {
    assert a as real <= b as real;
  }
}

=== FILE: player_event.dfy ===
/** Keyboard handling and player events of the song player
    (crates/metalforge-bevy/src/ui/player/event.rs).

    Commands sent to the audio engine are appended to a log; the engine's
    receiving side is not part of this model.
 */
module EngineCommands {
  import opened Durations

  /** The engine commands the player and its setup code send. */
  datatype EngineCommand = PlaySong | Pause | Resume | Seek(position: Duration) | Quit
}

module Keys {
  /** The keyboard keys the player and the menu react to; every other key is `Unbound`. */
  datatype Key =
    | Space | KeyR | ArrowLeft | ArrowRight | ArrowUp | ArrowDown
    | ShiftLeft | ShiftRight | Escape | Enter | Unbound

  /** One frame of `ButtonInput<KeyCode>`: the keys that went down this frame
      and the keys held down. */
  datatype KeyInput = KeyInput(justPressed: set<Key>, pressed: set<Key>)
}

module PlayerEvents {
  import opened Durations
  import opened Results
  import opened Keys
  import Cmd = EngineCommands
  import opened SongPlayback

  datatype PlayerEvent =
    | StartPlaying
    | PausePlaying
    | ResumePlaying
    | JumpForwards(diff: Duration)
    | JumpBackwards(diff: Duration)

  /** Arrow jump length without Shift, in milliseconds. */
  const ScrollDistance: nat := 50
  /** Arrow jump length with either Shift key held, in milliseconds. */
  const JumpDistance: nat := 500

  function ArrowJump(input: KeyInput): Duration {
    if ShiftLeft in input.pressed || ShiftRight in input.pressed
    then Millis(JumpDistance) else Millis(ScrollDistance)
  }

  /** `handle_keyboard`: at most one event per frame, Space first, then R,
      then the left and the right arrow. */
  function HandleKeyboard(input: KeyInput, state: PlayerState): (e: Option<PlayerEvent>)
    ensures Space in input.justPressed ==>
              e == Some(if state == Playing then PausePlaying else ResumePlaying)
    ensures Space !in input.justPressed && KeyR in input.pressed ==> e == Some(StartPlaying)
    ensures Space !in input.justPressed && KeyR !in input.pressed && ArrowLeft in input.pressed ==>
              e.Some? && e.value.JumpBackwards?
    ensures Space !in input.justPressed && KeyR !in input.pressed && ArrowLeft !in input.pressed
            && ArrowRight in input.pressed ==>
              e.Some? && e.value.JumpForwards?
    ensures e == None <==>
              Space !in input.justPressed && KeyR !in input.pressed
              && ArrowLeft !in input.pressed && ArrowRight !in input.pressed
    ensures e.Some? && (e.value.JumpForwards? || e.value.JumpBackwards?) ==>
              e.value.diff == (if ShiftLeft in input.pressed || ShiftRight in input.pressed
                               then 500 * NanosPerMilli else 50 * NanosPerMilli)
  {
    if Space in input.justPressed then
      (if state == Playing then Some(PausePlaying) else Some(ResumePlaying))
    else if KeyR in input.pressed then Some(StartPlaying)
    else if ArrowLeft in input.pressed then Some(JumpBackwards(ArrowJump(input)))
    else if ArrowRight in input.pressed then Some(JumpForwards(ArrowJump(input)))
    else None
  }

  /** What `handle_events` works on: the player resource, the pending next
      player state (`NextState<PlayerState>`, `None` while nothing is queued)
      and the log of commands sent to the engine. */
  datatype EventState = EventState(player: SongPlayer, next: Option<PlayerState>, log: seq<Cmd.EngineCommand>)

  /** The commands one event sends, given the player before the event. */
  function CommandsFor(p: SongPlayer, e: PlayerEvent): seq<Cmd.EngineCommand> {
    match e
    case StartPlaying => [Cmd.Resume]
    case ResumePlaying => [Cmd.Resume]
    case PausePlaying => [Cmd.Pause]
    case JumpForwards(d) => [Cmd.Seek(SongPlayback.JumpForwards(p, d).position)]
    case JumpBackwards(d) => [Cmd.Seek(SongPlayback.JumpBackwards(p, d).position)]
  }

  /** One iteration of the loop in `handle_events`, with `rewind_player`,
      `resume_play`, `pause_play`, `jump_forwards` and `jump_backwards`
      inlined. */
  function HandleEvent(s: EventState, e: PlayerEvent): (r: EventState)
    ensures r.log == s.log + CommandsFor(s.player, e)
    ensures |CommandsFor(s.player, e)| == 1
    ensures e.StartPlaying? ==>
              r.player.position == 0 && r.player.playing && r.next == Some(Playing)
              && CommandsFor(s.player, e) == [Cmd.Resume]
    ensures e.ResumePlaying? ==>
              r.player.position == s.player.position && r.player.playing && r.next == Some(Playing)
              && CommandsFor(s.player, e) == [Cmd.Resume]
    ensures e.PausePlaying? ==>
              r.player.position == s.player.position && !r.player.playing && r.next == Some(Paused)
              && CommandsFor(s.player, e) == [Cmd.Pause]
    ensures e.JumpForwards? || e.JumpBackwards? ==>
              r.next == s.next && r.player.playing == s.player.playing
              && CommandsFor(s.player, e) == [Cmd.Seek(r.player.position)]
    ensures e.JumpForwards? ==> r.player.position == s.player.position + e.diff
    ensures e.JumpBackwards? ==>
              r.player.position == (if e.diff <= s.player.position then s.player.position - e.diff else 0)
    ensures r.player.speed == s.player.speed
  {
    match e
    case StartPlaying =>
      var rewound := Rewind(s.player);
      EventState(Resume(rewound), Some(Playing), s.log + [Cmd.Resume])
    case ResumePlaying =>
      EventState(Resume(s.player), Some(Playing), s.log + [Cmd.Resume])
    case PausePlaying =>
      EventState(SongPlayback.Pause(s.player), Some(Paused), s.log + [Cmd.Pause])
    case JumpForwards(d) =>
      var p := SongPlayback.JumpForwards(s.player, d);
      s.(player := p, log := s.log + [Cmd.Seek(p.position)])
    case JumpBackwards(d) =>
      var p := SongPlayback.JumpBackwards(s.player, d);
      s.(player := p, log := s.log + [Cmd.Seek(p.position)])
  }

  /** `handle_events`: the events in the order they are read. */
  function HandleEvents(s: EventState, events: seq<PlayerEvent>): EventState
    decreases |events|
  {
    if |events| == 0 then s
    else HandleEvents(HandleEvent(s, events[0]), events[1..])
  }

  /** The commands a run of events sends, each event seeing the player left
      by the events before it. */
  function CommandsOf(p: SongPlayer, events: seq<PlayerEvent>): seq<Cmd.EngineCommand>
    decreases |events|
  {
    if |events| == 0 then []
    else
      var s := HandleEvent(EventState(p, None, []), events[0]);
      CommandsFor(p, events[0]) + CommandsOf(s.player, events[1..])
  }

  /** The command log only grows, by the commands of each event in read
      order, one command per event; the player the log is based on does not
      depend on the log or the queued state. */
  lemma {:induction false} HandleEventsLog(s: EventState, events: seq<PlayerEvent>)
    ensures HandleEvents(s, events).log == s.log + CommandsOf(s.player, events)
    ensures |CommandsOf(s.player, events)| == |events|
    decreases |events|
  {
    if |events| > 0 {
      var s1 := HandleEvent(s, events[0]);
      var t := HandleEvent(EventState(s.player, None, []), events[0]);
      assert s1.player == t.player;
      HandleEventsLog(s1, events[1..]);
    }
  }

  /** `handle_window_events`: one `Quit` per window-close request, appended
      to the log. */
  function HandleWindowEvents(log: seq<Cmd.EngineCommand>, closeRequests: nat): (r: seq<Cmd.EngineCommand>)
    ensures |r| == |log| + closeRequests
    ensures r[..|log|] == log
    ensures forall i :: |log| <= i < |r| ==> r[i] == Cmd.Quit
    decreases closeRequests
  {
    if closeRequests == 0 then log else HandleWindowEvents(log + [Cmd.Quit], closeRequests - 1)
  }
}

=== FILE: psarc.dfy ===
/** PSARC archives as the newer song loader reads them
    (crates/metalforge-lib/src/loader/psarc.rs).

    The archive parser is abstracted: an archive is its manifests (one per
    arrangement) and its entities (one per asset, each with the parsed
    song of notes when it has one).  Grouping arrangements into songs goes
    through a `HashMap` keyed by song key in the source; the model keeps
    the songs in the order their keys first occur, and every property
    below except that order is independent of it.
 */
module PsarcLoader {
  import opened Results
  import opened Ints
  import opened Text
  import opened Asset
  import opened Songs
  import opened Fs
  import Part

  datatype StringTuning = StringTuning(s0: i8, s1: i8, s2: i8, s3: i8, s4: i8, s5: i8)

  /** The arrangement properties the loader looks at. */
  datatype ArrangementProperties = ArrangementProperties(pathLead: int, pathBass: int)

  /** A manifest's attributes.  `songLength` is an `f32` in the source. */
  datatype Attributes = Attributes(
    arrangementName: string, persistentId: string, songKey: string,
    songName: string, songNameSort: string, albumName: string, albumNameSort: string,
    artistName: string, artistNameSort: string, songYear: u16, songLength: real,
    albumArt: string, songBank: string, previewBankPath: string,
    properties: ArrangementProperties, tuning: StringTuning)

  datatype Manifest = Manifest(attributes: Attributes, iterationVersion: u16)

  datatype PsarcNote = PsarcNote(time: real, sustain: Option<real>, str: nat, fret: nat)

  datatype Level = Level(notes: seq<PsarcNote>)

  datatype ParsedSong = ParsedSong(levels: seq<Level>)

  /** An asset of the archive; `info` is what parsing it as a song gives,
      `None` when that fails. */
  datatype Entity = Entity(id: string, info: Option<ParsedSong>)

  datatype SongFile = SongFile(manifests: seq<Manifest>, entities: seq<Entity>)

  /** `load_raw_psarc`: the file's contents (or the error reading them),
      then the archive parser, whose failure is invalid data. */
  function LoadRawPsarc(contents: Outcome<Bytes>, parse: Bytes -> Option<SongFile>): (r: Outcome<SongFile>)
    ensures !contents.Ok? ==> SameFailure(r, contents)
    ensures contents.Ok? && parse(contents.value).None? ==> r == Err(InvalidData)
    ensures contents.Ok? && parse(contents.value).Some? ==> r == Ok(parse(contents.value).value)
  {
    var bytes :- contents;
    match parse(bytes)
    case Some(file) => Ok(file)
    case None => Err(InvalidData)
  }

  function InstrumentOf(a: Attributes): (i: Instrument)
    ensures i == ElectricGuitar <==> a.properties.pathLead > 0 || a.properties.pathBass > 0
    ensures i == ElectricGuitar || i == ElectricBass
  {
    if a.properties.pathLead > 0 || a.properties.pathBass > 0 then ElectricGuitar else ElectricBass
  }

  function TuningOf(t: StringTuning): (r: Tuning)
    ensures r.Custom? && |r.offsets| == 6
    ensures r.offsets[0] == t.s0 && r.offsets[1] == t.s1 && r.offsets[2] == t.s2
    ensures r.offsets[3] == t.s3 && r.offsets[4] == t.s4 && r.offsets[5] == t.s5
  {
    Custom([t.s0, t.s1, t.s2, t.s3, t.s4, t.s5])
  }

  /** The arrangement one manifest contributes. */
  function ArrangementOf(m: Manifest, path: string): (a: Arrangement)
    ensures a.id == m.attributes.arrangementName && a.name == m.attributes.arrangementName
    ensures a.assetId == FromPaths(path, m.attributes.persistentId)
    ensures a.instrument == InstrumentOf(m.attributes)
    ensures a.tuning == Some(TuningOf(m.attributes.tuning))
  {
    var at := m.attributes;
    Arrangement(at.arrangementName, FromPaths(path, at.persistentId), at.arrangementName,
                InstrumentOf(at), Some(TuningOf(at.tuning)))
  }

  /** The song the first manifest of a song key creates. */
  function NewSong(m: Manifest, path: string): (s: Song)
    ensures s.songType == Psarc
    ensures s.header.arrangements == [ArrangementOf(m, path)]
    ensures s.coverArt == Some(FromPaths(path, m.attributes.albumArt))
    ensures s.song == Some(FromPaths(path, m.attributes.songBank))
    ensures s.preview == Some(FromPaths(path, m.attributes.previewBankPath))
  {
    var at := m.attributes;
    Song(
      SongHeader(at.songName, at.songNameSort, at.albumName, at.albumNameSort,
                 at.artistName, at.artistNameSort, at.songYear, m.iterationVersion,
                 SaturatingU16(at.songLength), [ArrangementOf(m, path)]),
      Psarc,
      Some(FromPaths(path, at.albumArt)),
      Some(FromPaths(path, at.songBank)),
      Some(FromPaths(path, at.previewBankPath)))
  }

  /** The position of a song key among the grouped songs, if present. */
  function IndexOfKey(groups: seq<(string, Song)>, key: string): (r: Option<nat>)
    ensures r.Some? ==> r.value < |groups| && groups[r.value].0 == key
    ensures r.None? ==> forall i :: 0 <= i < |groups| ==> groups[i].0 != key
  {
    if |groups| == 0 then None
    else if groups[|groups| - 1].0 == key then Some(|groups| - 1)
    else IndexOfKey(groups[..|groups| - 1], key)
  }

  /** One iteration of the manifest loop: a known song key gets one more
      arrangement, an unknown one a new song. */
  function Upsert(groups: seq<(string, Song)>, m: Manifest, path: string): seq<(string, Song)> {
    var key := m.attributes.songKey;
    match IndexOfKey(groups, key)
    case Some(i) => groups[i := (key, AddArrangement(groups[i].1, ArrangementOf(m, path)))]
    case None => groups + [(key, NewSong(m, path))]
  }

  /** The manifest loop, keyed by song key. */
  function Group(ms: seq<Manifest>, path: string): seq<(string, Song)>
    decreases |ms|
  {
    if |ms| == 0 then [] else Upsert(Group(ms[..|ms| - 1], path), ms[|ms| - 1], path)
  }

  /** `parse_song`: one song per distinct song key (the entries of the
      map); every manifest's arrangement lands in exactly one song, so the
      arrangements total the manifests; each song is the one its key stands
      for (header and assets from the key's first manifest, the
      arrangements of all the key's manifests in manifest order).  The map's
      iteration order is not part of the promise: the keys appear in some
      order `keys`. */
  function ParseSong(file: SongFile, path: string): (r: Outcome<seq<Song>>)
    ensures r.Ok?
    ensures |r.value| == |KeysOf(file.manifests)|
    ensures TotalArrangements(r.value) == |file.manifests|
    ensures exists keys: seq<string> :: OneSongPerKey(file.manifests, keys, r.value, path)
  {
    GroupedSongs(file.manifests, path);
    Ok(Values(Group(file.manifests, path)))
  }

  /** The songs of the grouped entries, in entry order. */
  function Values(groups: seq<(string, Song)>): (songs: seq<Song>)
    ensures |songs| == |groups|
    ensures forall i :: 0 <= i < |groups| ==> songs[i] == groups[i].1
  {
    seq(|groups|, i requires 0 <= i < |groups| => groups[i].1)
  }

  /** `load_psarc`: read and parse the archive, then group its manifests. */
  function LoadPsarc(path: string, raw: Outcome<SongFile>): (r: Outcome<seq<Song>>)
    ensures !raw.Ok? ==> SameFailure(r, raw)
    ensures raw.Ok? ==> r == ParseSong(raw.value, path)
  {
    var file :- raw;
    ParseSong(file, path)
  }

  // Reference definitions for the grouping.

  function KeysOf(ms: seq<Manifest>): set<string> {
    set i | 0 <= i < |ms| :: ms[i].attributes.songKey
  }

  function GroupKeys(groups: seq<(string, Song)>): set<string> {
    set i | 0 <= i < |groups| :: groups[i].0
  }

  predicate DistinctKeys(groups: seq<(string, Song)>) {
    forall i, j :: 0 <= i < j < |groups| ==> groups[i].0 != groups[j].0
  }

  /** The first manifest carrying a song key. */
  function FirstWithKey(ms: seq<Manifest>, key: string): Option<Manifest>
    decreases |ms|
  {
    if |ms| == 0 then None
    else
      var earlier := FirstWithKey(ms[..|ms| - 1], key);
      if earlier.Some? then earlier
      else if ms[|ms| - 1].attributes.songKey == key then Some(ms[|ms| - 1])
      else None
  }

  /** `FirstWithKey` finds a manifest with the key exactly when there is
      one, and no earlier manifest has the key. */
  lemma {:induction false} FirstWithKeyIsFirst(ms: seq<Manifest>, key: string)
    ensures FirstWithKey(ms, key).Some? <==> key in KeysOf(ms)
    ensures FirstWithKey(ms, key).Some? ==>
              exists j :: 0 <= j < |ms| && ms[j] == FirstWithKey(ms, key).value
                          && ms[j].attributes.songKey == key
                          && forall j' :: 0 <= j' < j ==> ms[j'].attributes.songKey != key
    decreases |ms|
  {
    if |ms| > 0 {
      var init := ms[..|ms| - 1];
      FirstWithKeyIsFirst(init, key);
      KeysOfSnoc(init, ms[|ms| - 1]);
      assert init + [ms[|ms| - 1]] == ms;
      if FirstWithKey(init, key).Some? {
        var j :| 0 <= j < |init| && init[j] == FirstWithKey(init, key).value
                 && init[j].attributes.songKey == key
                 && forall j' :: 0 <= j' < j ==> init[j'].attributes.songKey != key;
        assert ms[j] == init[j];
      } else if ms[|ms| - 1].attributes.songKey == key {
        assert forall j' :: 0 <= j' < |ms| - 1 ==> ms[j'].attributes.songKey != key by {
          forall j' | 0 <= j' < |ms| - 1 ensures ms[j'].attributes.songKey != key {
            assert ms[j'] == init[j'];
            assert ms[j'].attributes.songKey in KeysOf(init);
          }
        }
      }
    }
  }

  lemma KeysOfSnoc(ms: seq<Manifest>, m: Manifest)
    ensures KeysOf(ms + [m]) == KeysOf(ms) + {m.attributes.songKey}
  {
    var ms' := ms + [m];
    assert ms'[|ms|] == m;
    forall k | k in KeysOf(ms') ensures k in KeysOf(ms) + {m.attributes.songKey} {
      var i :| 0 <= i < |ms'| && ms'[i].attributes.songKey == k;
      if i < |ms| {
        assert ms'[i] == ms[i];
      }
    }
    forall k | k in KeysOf(ms) ensures k in KeysOf(ms') {
      var i :| 0 <= i < |ms| && ms[i].attributes.songKey == k;
      assert ms'[i] == ms[i];
    }
  }

  /** The arrangements of every manifest with the key, in manifest order. */
  function ArrangementsFor(ms: seq<Manifest>, key: string, path: string): seq<Arrangement>
    decreases |ms|
  {
    if |ms| == 0 then []
    else
      ArrangementsFor(ms[..|ms| - 1], key, path)
      + (if ms[|ms| - 1].attributes.songKey == key then [ArrangementOf(ms[|ms| - 1], path)] else [])
  }

  /** The song a key stands for: its first manifest's header and assets,
      with the arrangements of all its manifests. */
  function SongFor(ms: seq<Manifest>, key: string, path: string): Song
    requires FirstWithKey(ms, key).Some?
  {
    var s := NewSong(FirstWithKey(ms, key).value, path);
    s.(header := s.header.(arrangements := ArrangementsFor(ms, key, path)))
  }

  lemma FirstWithKeySnoc(init: seq<Manifest>, m: Manifest, key: string)
    ensures FirstWithKey(init + [m], key) ==
              if FirstWithKey(init, key).Some? then FirstWithKey(init, key)
              else if m.attributes.songKey == key then Some(m) else None
  {
    assert (init + [m])[..|init|] == init;
  }

  lemma ArrangementsForSnoc(init: seq<Manifest>, m: Manifest, key: string, path: string)
    ensures ArrangementsFor(init + [m], key, path) == ArrangementsFor(init, key, path)
              + (if m.attributes.songKey == key then [ArrangementOf(m, path)] else [])
  {
    assert (init + [m])[..|init|] == init;
  }

  /** A further manifest leaves the song of a known key as it was, or adds
      its arrangement when it has that key. */
  lemma SongForSnoc(init: seq<Manifest>, m: Manifest, key: string, path: string)
    requires FirstWithKey(init, key).Some?
    ensures FirstWithKey(init + [m], key) == FirstWithKey(init, key)
    ensures SongFor(init + [m], key, path) ==
              if m.attributes.songKey == key then AddArrangement(SongFor(init, key, path), ArrangementOf(m, path))
              else SongFor(init, key, path)
  {
    FirstWithKeySnoc(init, m, key);
    ArrangementsForSnoc(init, m, key, path);
  }

  /** The first manifest of a key makes its song a new song. */
  lemma SongForNew(init: seq<Manifest>, m: Manifest, path: string)
    requires FirstWithKey(init, m.attributes.songKey).None?
    ensures FirstWithKey(init + [m], m.attributes.songKey) == Some(m)
    ensures SongFor(init + [m], m.attributes.songKey, path) == NewSong(m, path)
  {
    FirstWithKeySnoc(init, m, m.attributes.songKey);
    ArrangementsForSnoc(init, m, m.attributes.songKey, path);
    ArrangementsForAbsent(init, m.attributes.songKey, path);
  }

  /** Grouping keeps one entry per distinct song key. */
  lemma {:induction false} GroupKeysSpec(ms: seq<Manifest>, path: string)
    ensures DistinctKeys(Group(ms, path))
    ensures GroupKeys(Group(ms, path)) == KeysOf(ms)
    decreases |ms|
  {
    if |ms| > 0 {
      var init := ms[..|ms| - 1];
      var m := ms[|ms| - 1];
      GroupKeysSpec(init, path);
      assert init + [m] == ms;
      KeysOfSnoc(init, m);
      UpsertKeys(Group(init, path), m, path);
    }
  }

  /** One iteration keeps the keys distinct and adds the manifest's key. */
  lemma UpsertKeys(g: seq<(string, Song)>, m: Manifest, path: string)
    requires DistinctKeys(g)
    ensures DistinctKeys(Upsert(g, m, path))
    ensures GroupKeys(Upsert(g, m, path)) == GroupKeys(g) + {m.attributes.songKey}
  {
    var key := m.attributes.songKey;
    match IndexOfKey(g, key)
    case Some(idx) =>
      GroupKeysUpdate(g, idx, (key, AddArrangement(g[idx].1, ArrangementOf(m, path))));
      assert key in GroupKeys(g);
    case None =>
      GroupKeysSnoc(g, (key, NewSong(m, path)));
  }

  /** Whether each entry holds the song its key stands for. */
  predicate Matches(ms: seq<Manifest>, g: seq<(string, Song)>, path: string) {
    forall i :: 0 <= i < |g| ==> FirstWithKey(ms, g[i].0).Some? && g[i].1 == SongFor(ms, g[i].0, path)
  }

  /** Each grouped entry holds the song its key stands for. */
  lemma {:induction false} GroupSongsSpec(ms: seq<Manifest>, path: string)
    ensures Matches(ms, Group(ms, path), path)
    decreases |ms|
  {
    if |ms| > 0 {
      var init := ms[..|ms| - 1];
      var m := ms[|ms| - 1];
      GroupSongsSpec(init, path);
      assert init + [m] == ms;
      var g := Group(init, path);
      match IndexOfKey(g, m.attributes.songKey)
      case Some(idx) =>
        GroupKeysSpec(init, path);
        UpsertKnown(init, m, g, idx, path);
      case None =>
        GroupKeysSpec(init, path);
        FirstWithKeyIsFirst(init, m.attributes.songKey);
        assert m.attributes.songKey !in GroupKeys(g);
        UpsertNew(init, m, g, path);
    }
  }

  lemma UpsertKnown(init: seq<Manifest>, m: Manifest, g: seq<(string, Song)>, idx: nat, path: string)
    requires Matches(init, g, path)
    requires DistinctKeys(g)
    requires idx < |g| && g[idx].0 == m.attributes.songKey
    ensures Matches(init + [m], g[idx := (m.attributes.songKey, AddArrangement(g[idx].1, ArrangementOf(m, path)))], path)
  {
    var g' := g[idx := (m.attributes.songKey, AddArrangement(g[idx].1, ArrangementOf(m, path)))];
    forall i | 0 <= i < |g'|
      ensures FirstWithKey(init + [m], g'[i].0).Some? && g'[i].1 == SongFor(init + [m], g'[i].0, path)
    {
      SongForSnoc(init, m, g[i].0, path);
      if i != idx {
        assert g'[i] == g[i];
        assert g[i].0 != g[idx].0;
      }
    }
  }

  lemma UpsertNew(init: seq<Manifest>, m: Manifest, g: seq<(string, Song)>, path: string)
    requires Matches(init, g, path)
    requires FirstWithKey(init, m.attributes.songKey).None?
    ensures Matches(init + [m], g + [(m.attributes.songKey, NewSong(m, path))], path)
  {
    var g' := g + [(m.attributes.songKey, NewSong(m, path))];
    forall i | 0 <= i < |g'|
      ensures FirstWithKey(init + [m], g'[i].0).Some? && g'[i].1 == SongFor(init + [m], g'[i].0, path)
    {
      if i < |g| {
        assert g'[i] == g[i];
        SongForSnoc(init, m, g[i].0, path);
      } else {
        SongForNew(init, m, path);
      }
    }
  }

  lemma {:induction false} ArrangementsForAbsent(ms: seq<Manifest>, key: string, path: string)
    requires FirstWithKey(ms, key).None?
    ensures ArrangementsFor(ms, key, path) == []
    decreases |ms|
  {
    if |ms| > 0 {
      ArrangementsForAbsent(ms[..|ms| - 1], key, path);
    }
  }

  lemma GroupKeysUpdate(g: seq<(string, Song)>, i: nat, e: (string, Song))
    requires i < |g| && e.0 == g[i].0
    ensures GroupKeys(g[i := e]) == GroupKeys(g)
  {
    var g' := g[i := e];
    forall k | k in GroupKeys(g) ensures k in GroupKeys(g') {
      var j :| 0 <= j < |g| && g[j].0 == k;
      assert g'[j].0 == k;
    }
  }

  lemma GroupKeysSnoc(g: seq<(string, Song)>, e: (string, Song))
    ensures GroupKeys(g + [e]) == GroupKeys(g) + {e.0}
  {
    var g' := g + [e];
    assert g'[|g|] == e;
    forall k | k in GroupKeys(g') ensures k in GroupKeys(g) + {e.0} {
      var j :| 0 <= j < |g'| && g'[j].0 == k;
      if j < |g| {
        assert g'[j] == g[j];
      }
    }
    forall k | k in GroupKeys(g) ensures k in GroupKeys(g') {
      var j :| 0 <= j < |g| && g[j].0 == k;
      assert g'[j] == g[j];
    }
  }

  function TotalArrangements(songs: seq<Song>): nat {
    if |songs| == 0 then 0
    else TotalArrangements(songs[..|songs| - 1]) + |songs[|songs| - 1].header.arrangements|
  }

  function GroupTotal(groups: seq<(string, Song)>): nat {
    if |groups| == 0 then 0
    else GroupTotal(groups[..|groups| - 1]) + |groups[|groups| - 1].1.header.arrangements|
  }

  lemma {:induction false} GroupTotalUpdate(g: seq<(string, Song)>, i: nat, e: (string, Song))
    requires i < |g|
    ensures GroupTotal(g[i := e]) + |g[i].1.header.arrangements| == GroupTotal(g) + |e.1.header.arrangements|
    decreases |g|
  {
    var g' := g[i := e];
    if i < |g| - 1 {
      assert g'[..|g| - 1] == g[..|g| - 1][i := e];
      GroupTotalUpdate(g[..|g| - 1], i, e);
    } else {
      assert g'[..|g| - 1] == g[..|g| - 1];
    }
  }

  lemma {:induction false} GroupTotalSongs(g: seq<(string, Song)>, songs: seq<Song>)
    requires |songs| == |g|
    requires forall i :: 0 <= i < |g| ==> songs[i] == g[i].1
    ensures TotalArrangements(songs) == GroupTotal(g)
    decreases |g|
  {
    if |g| > 0 {
      GroupTotalSongs(g[..|g| - 1], songs[..|songs| - 1]);
    }
  }

  /** Every manifest contributes exactly one arrangement. */
  lemma {:induction false} GroupTotalIsManifestCount(ms: seq<Manifest>, path: string)
    ensures GroupTotal(Group(ms, path)) == |ms|
    decreases |ms|
  {
    if |ms| > 0 {
      var init := ms[..|ms| - 1];
      var m := ms[|ms| - 1];
      var g := Group(init, path);
      GroupTotalIsManifestCount(init, path);
      match IndexOfKey(g, m.attributes.songKey)
      case Some(idx) =>
        GroupTotalUpdate(g, idx, (m.attributes.songKey, AddArrangement(g[idx].1, ArrangementOf(m, path))));
      case None =>
        var e := (m.attributes.songKey, NewSong(m, path));
        assert (g + [e])[..|g|] == g;
    }
  }

  lemma {:induction false} DistinctKeysCount(g: seq<(string, Song)>)
    requires DistinctKeys(g)
    ensures |GroupKeys(g)| == |g|
    decreases |g|
  {
    if |g| > 0 {
      var init := g[..|g| - 1];
      assert DistinctKeys(init);
      DistinctKeysCount(init);
      assert init + [g[|g| - 1]] == g;
      GroupKeysSnoc(init, g[|g| - 1]);
      assert g[|g| - 1].0 !in GroupKeys(init);
    }
  }

  /** Whether `songs` holds, position by position, the songs of the
      distinct keys `keys`, and these are exactly the manifests' keys. */
  predicate OneSongPerKey(ms: seq<Manifest>, keys: seq<string>, songs: seq<Song>, path: string) {
    && |keys| == |songs|
    && (forall i, j :: 0 <= i < j < |keys| ==> keys[i] != keys[j])
    && (forall i :: 0 <= i < |keys| ==> keys[i] in KeysOf(ms))
    && (forall k :: k in KeysOf(ms) ==> k in keys)
    && (forall i :: 0 <= i < |keys| ==> FirstWithKey(ms, keys[i]).Some? && songs[i] == SongFor(ms, keys[i], path))
  }

  /** The keys of the grouped entries, in entry order. */
  function EntryKeys(g: seq<(string, Song)>): (keys: seq<string>)
    ensures |keys| == |g|
    ensures forall i :: 0 <= i < |g| ==> keys[i] == g[i].0
  {
    seq(|g|, i requires 0 <= i < |g| => g[i].0)
  }

  /** The grouped songs, stated without reference to the grouping: one
      song per distinct key, as many arrangements as manifests. */
  lemma GroupedSongs(ms: seq<Manifest>, path: string)
    ensures |Values(Group(ms, path))| == |KeysOf(ms)|
    ensures TotalArrangements(Values(Group(ms, path))) == |ms|
    ensures OneSongPerKey(ms, EntryKeys(Group(ms, path)), Values(Group(ms, path)), path)
  {
    var g := Group(ms, path);
    GroupKeysSpec(ms, path);
    DistinctKeysCount(g);
    GroupTotalIsManifestCount(ms, path);
    GroupTotalSongs(g, Values(g));
    GroupSongsSpec(ms, path);
    EntryKeysCover(ms, g);
  }

  lemma EntryKeysCover(ms: seq<Manifest>, g: seq<(string, Song)>)
    requires GroupKeys(g) == KeysOf(ms)
    ensures forall i :: 0 <= i < |g| ==> EntryKeys(g)[i] in KeysOf(ms)
    ensures forall k :: k in KeysOf(ms) ==> k in EntryKeys(g)
  {
    var keys := EntryKeys(g);
    forall i | 0 <= i < |g| ensures keys[i] in KeysOf(ms) {
      assert g[i].0 in GroupKeys(g);
    }
    forall k | k in KeysOf(ms) ensures k in keys {
      assert k in GroupKeys(g);
      var i :| 0 <= i < |g| && g[i].0 == k;
      assert keys[i] == k;
    }
  }

  /** A parsed note: the time scaled by four, a missing sustain read as
      zero, string and fret copied, and fixed placeholders for the rest. */
  function ConvertNote(n: PsarcNote): (r: Part.Note)
    ensures r.time == n.time * 4.0
    ensures r.sustain == n.sustain.UnwrapOr(0.0)
    ensures r.str == n.str && r.fret == n.fret
  {
    Part.Note(Part.C, 0, n.time * 4.0, n.sustain.UnwrapOr(0.0), Part.Whole, 0, n.str, n.fret)
  }

  /** The notes of all levels, level by level. */
  function Flatten(levels: seq<Level>): seq<PsarcNote> {
    if |levels| == 0 then [] else levels[0].notes + Flatten(levels[1..])
  }

  function ConvertAll(notes: seq<PsarcNote>): (r: seq<Part.Note>)
    ensures |r| == |notes|
    ensures forall i :: 0 <= i < |r| ==> r[i] == ConvertNote(notes[i])
  {
    seq(|notes|, i requires 0 <= i < |notes| => ConvertNote(notes[i]))
  }

  /** `parse_instrument_part`: one note per note of every level, levels in
      order. */
  function ParseInstrumentPart(levels: seq<Level>): (r: seq<Part.Note>)
    ensures |r| == |Flatten(levels)|
    ensures forall i :: 0 <= i < |r| ==> r[i] == ConvertNote(Flatten(levels)[i])
  {
    if |levels| == 0 then []
    else
      var here := ConvertAll(levels[0].notes);
      var rest := ParseInstrumentPart(levels[1..]);
      assert forall i :: |here| <= i < |here| + |rest| ==> (here + rest)[i] == rest[i - |here|];
      here + rest
  }

  /** The first entity whose id equals `id` up to ASCII case. */
  function FindEntity(es: seq<Entity>, id: string): (r: Option<nat>)
    ensures r.Some? ==> r.value < |es| && AsciiLower(es[r.value].id) == AsciiLower(id)
    ensures r.Some? ==> forall j :: 0 <= j < r.value ==> AsciiLower(es[j].id) != AsciiLower(id)
    ensures r.None? ==> forall j :: 0 <= j < |es| ==> AsciiLower(es[j].id) != AsciiLower(id)
    decreases |es|
  {
    if |es| == 0 then None
    else if AsciiLower(es[0].id) == AsciiLower(id) then Some(0)
    else
      var r := FindEntity(es[1..], id);
      if r.Some? then
        assert forall j :: 1 <= j < r.value + 1 ==> es[j] == es[1..][j - 1];
        Some(r.value + 1)
      else
        assert forall j :: 1 <= j < |es| ==> es[j] == es[1..][j - 1];
        None
  }

  /** `load_instrument_part`: open the archive named by the asset's parent,
      take the first entity matching the asset's id up to ASCII case, and
      convert its notes; no match, or a match that does not parse as a
      song, is `NotFound`.  `loadRaw` stands for `load_raw_psarc`. */
  function LoadInstrumentPart(assetId: AssetId, loadRaw: string -> Outcome<SongFile>): (r: Outcome<Part.InstrumentPart>)
    ensures !loadRaw(assetId.parentId).Ok? ==> SameFailure(r, loadRaw(assetId.parentId))
    ensures loadRaw(assetId.parentId).Ok? ==>
              var es := loadRaw(assetId.parentId).value.entities;
              var found := FindEntity(es, assetId.id);
              && (r.Ok? <==> found.Some? && es[found.value].info.Some?)
              && (!r.Ok? ==> r == Err(NotFound))
              && (r.Ok? ==> r.value == Part.InstrumentPart(assetId.id, "",
                                          ParseInstrumentPart(es[found.value].info.value.levels)))
  {
    var file :- loadRaw(assetId.parentId);
    match FindEntity(file.entities, assetId.id)
    case None => Err(NotFound)
    case Some(i) =>
      match file.entities[i].info
      case None => Err(NotFound)
      case Some(song) => Ok(Part.InstrumentPart(assetId.id, "", ParseInstrumentPart(song.levels)))
  }
}

=== FILE: results.dfy ===
/** Option and the outcome of a fallible Rust call.

    `Outcome<T>` stands for `std::io::Result<T>` extended with the one thing
    an `io::Result` cannot express: a panic (`todo!()`, `unimplemented!()`,
    a failed `expect`).  A panic is not an error value the caller can match
    on; it aborts every enclosing call, which is what `:-` does here too.
 */
module Results {

  datatype Option<+T> = None | Some(value: T) {
    function UnwrapOr(default: T): T {
      match this
      case Some(v) => v
      case None => default
    }
  }

  /** The `std::io::ErrorKind` values the modelled code produces or forwards. */
  datatype ErrorKind = NotFound | PermissionDenied | InvalidInput | InvalidData | Other

  datatype Outcome<+T> = Ok(value: T) | Err(kind: ErrorKind) | Panic(reason: string) {

    predicate IsFailure() {
      !Ok?
    }

    function PropagateFailure<U>(): Outcome<U>
      requires !Ok?
    {
      match this
      case Err(k) => Err(k)
      case Panic(why) => Panic(why)
    }

    function Extract(): T
      requires Ok?
    {
      value
    }

    /** `Result::map`: transforms a success, keeps a failure as it is. */
    function Map<U>(f: T -> U): (r: Outcome<U>)
      ensures Ok? <==> r.Ok?
      ensures Ok? ==> r.value == f(value)
      ensures Err? <==> r.Err?
      ensures Err? ==> r.kind == kind
      ensures Panic? <==> r.Panic?
    {
      match this
      case Ok(v) => Ok(f(v))
      case Err(k) => Err(k)
      case Panic(why) => Panic(why)
    }
  }

  /** Whether two outcomes, possibly of different types, succeed together
      and otherwise fail in the same way. */
  predicate SameFailure<A, B>(r: Outcome<A>, o: Outcome<B>) {
    && (r.Ok? <==> o.Ok?)
    && (r.Err? <==> o.Err?)
    && (r.Err? ==> r.kind == o.kind)
    && (r.Panic? <==> o.Panic?)
    && (r.Panic? ==> r.reason == o.reason)
  }
}

/** Rust's fixed-width integers, as ranges of `int`. */
module Ints {
  type u8 = x: int | 0 <= x < 0x100
  type u16 = x: int | 0 <= x < 0x1_0000
  type i8 = x: int | -0x80 <= x < 0x80

  /** A float-to-`u16` `as` cast: truncation toward zero, saturating at both
      ends (NaN, which a `real` cannot be, is not modelled). */
  function SaturatingU16(r: real): (n: u16)
    ensures 0.0 <= r < 65535.0 ==> n == r.Floor
    ensures r < 0.0 ==> n == 0
    ensures r >= 65535.0 ==> n == 65535
  {
    if r < 0.0 then 0 else if r >= 65535.0 then 65535 else r.Floor
  }
}

=== FILE: smither.dfy ===
/** PSARC archives as the metalforge-loader crate reads them
    (crates/metalforge-loader/src/smither.rs): manifests grouped into songs
    by (artist, album, title, year), vocal arrangements dropped, songs in
    the order their first non-vocal manifest appears.  The archive records
    are those of `PsarcLoader`.
 */
module Smither {
  import opened Results
  import opened Ints
  import opened Fs
  import opened LoaderSongs
  import Library
  import PsarcLoader

  type Manifest = PsarcLoader.Manifest

  const ArrangementVocals := "Vocals"

  /** What identifies a song: artist, album, title and year. */
  datatype SongKey = SongKey(artist: string, album: string, title: string, year: u16)

  function ManifestKey(m: Manifest): SongKey {
    SongKey(m.attributes.artistName, m.attributes.albumName, m.attributes.songName, m.attributes.songYear)
  }

  function KeyOf(s: Song): SongKey {
    SongKey(s.header.artist, s.header.album, s.header.title, s.header.year)
  }

  predicate IsVocals(m: Manifest) {
    m.attributes.arrangementName == ArrangementVocals
  }

  /** The arrangement a manifest contributes: always an electric guitar
      part, its id and name the arrangement name. */
  function ArrangementOf(m: Manifest): (a: Arrangement)
    ensures a.id == m.attributes.arrangementName && a.name == m.attributes.arrangementName
    ensures a.instrument == ElectricGuitar
  {
    Arrangement(m.attributes.arrangementName, m.attributes.arrangementName, ElectricGuitar)
  }

  function NewSong(m: Manifest, url: Url): (s: Song)
    ensures KeyOf(s) == ManifestKey(m)
    ensures s.path == url
    ensures s.header.arrangements == [ArrangementOf(m)]
  {
    var at := m.attributes;
    Song(
      SongHeader(at.songName, at.songNameSort, at.albumName, at.albumNameSort,
                 at.artistName, at.artistNameSort, at.songYear, m.iterationVersion,
                 SaturatingU16(at.songLength), [ArrangementOf(m)]),
      url)
  }

  /** The first song already holding the manifest's key. */
  function FindCandidate(songs: seq<Song>, key: SongKey): (r: Option<nat>)
    ensures r.Some? ==> r.value < |songs| && KeyOf(songs[r.value]) == key
    ensures r.None? ==> forall i :: 0 <= i < |songs| ==> KeyOf(songs[i]) != key
    decreases |songs|
  {
    if |songs| == 0 then None
    else if KeyOf(songs[0]) == key then Some(0)
    else
      var r := FindCandidate(songs[1..], key);
      if r.Some? then Some(r.value + 1)
      else
        assert forall i :: 1 <= i < |songs| ==> songs[i] == songs[1..][i - 1];
        None
  }

  /** One iteration of the manifest loop. */
  function Step(songs: seq<Song>, m: Manifest, url: Url): seq<Song> {
    match FindCandidate(songs, ManifestKey(m))
    case Some(i) =>
      if IsVocals(m) then songs else songs[i := AddArrangement(songs[i], ArrangementOf(m))]
    case None =>
      if IsVocals(m) then songs else songs + [NewSong(m, url)]
  }

  /** The manifest loop. */
  function ParseSongs(ms: seq<Manifest>, url: Url): seq<Song>
    decreases |ms|
  {
    if |ms| == 0 then [] else Step(ParseSongs(ms[..|ms| - 1], url), ms[|ms| - 1], url)
  }

  /** `parse_song`: no two songs share a key; the keys are exactly those of
      the non-vocal manifests; each song holds the header of its key's first
      non-vocal manifest and the arrangements of all of them, in order, so
      every non-vocal manifest gives one arrangement; every song is at the
      archive's URL and holds no vocal arrangement. */
  function ParseSong(file: PsarcLoader.SongFile, url: Url): (r: Outcome<seq<Song>>)
    ensures r.Ok?
    ensures forall i, j :: 0 <= i < j < |r.value| ==> KeyOf(r.value[i]) != KeyOf(r.value[j])
    ensures forall k :: k in SongKeys(r.value) <==>
              exists m :: m in file.manifests && !IsVocals(m) && ManifestKey(m) == k
    ensures Grouped(NonVocal(file.manifests), r.value, url)
    ensures TotalArrangements(r.value) == |NonVocal(file.manifests)|
    ensures WellFormed(r.value, url)
  {
    var ms := file.manifests;
    ParseSongsGrouped(ms, url);
    ParseSongsTotal(ms, url);
    ParseSongsWellFormed(ms, url);
    GroupedKeys(ms, ParseSongs(ms, url), url);
    Ok(ParseSongs(ms, url))
  }

  /** `load_song_from_psarc`: an archive that does not parse is invalid
      data. */
  function LoadSongFromPsarc(bytes: Bytes, url: Url, parse: Bytes -> Option<PsarcLoader.SongFile>)
    : (r: Outcome<seq<Song>>)
    ensures parse(bytes).None? ==> r == Err(InvalidData)
    ensures parse(bytes).Some? ==> r == Ok(ParseSongs(parse(bytes).value.manifests, url))
  {
    match parse(bytes)
    case None => Err(InvalidData)
    case Some(file) => ParseSong(file, url)
  }

  /** `load_psarc`: read the URL's contents, parse the archive, and make
      a library of its songs. */
  function LoadPsarc(url: Url, readFile: Path -> Outcome<Bytes>, parse: Bytes -> Option<PsarcLoader.SongFile>)
    : (r: Outcome<Library.SongLibrary<Song>>)
    ensures !LoadFileContents(url, readFile).Ok? ==> SameFailure(r, LoadFileContents(url, readFile))
    ensures LoadFileContents(url, readFile).Ok? ==>
              SameFailure(r, LoadSongFromPsarc(LoadFileContents(url, readFile).value, url, parse))
              && (r.Ok? ==> r.value.songs == LoadSongFromPsarc(LoadFileContents(url, readFile).value, url, parse).value)
  {
    var bytes :- LoadFileContents(url, readFile);
    var songs :- LoadSongFromPsarc(bytes, url, parse);
    Ok(Library.FromSeq(songs))
  }

  // Reference definitions.

  /** The manifests that are not vocal arrangements, in order. */
  function NonVocal(ms: seq<Manifest>): (r: seq<Manifest>)
    ensures forall i :: 0 <= i < |r| ==> !IsVocals(r[i])
    decreases |ms|
  {
    if |ms| == 0 then []
    else NonVocal(ms[..|ms| - 1]) + (if IsVocals(ms[|ms| - 1]) then [] else [ms[|ms| - 1]])
  }

  /** The distinct keys, in order of first occurrence. */
  function Dedup(ks: seq<SongKey>): seq<SongKey>
    decreases |ks|
  {
    if |ks| == 0 then []
    else
      var earlier := Dedup(ks[..|ks| - 1]);
      if ks[|ks| - 1] in earlier then earlier else earlier + [ks[|ks| - 1]]
  }

  function Keys(ms: seq<Manifest>): (r: seq<SongKey>)
    ensures |r| == |ms|
    ensures forall i :: 0 <= i < |ms| ==> r[i] == ManifestKey(ms[i])
  {
    seq(|ms|, i requires 0 <= i < |ms| => ManifestKey(ms[i]))
  }

  function SongKeys(songs: seq<Song>): (r: seq<SongKey>)
    ensures |r| == |songs|
    ensures forall i :: 0 <= i < |songs| ==> r[i] == KeyOf(songs[i])
  {
    seq(|songs|, i requires 0 <= i < |songs| => KeyOf(songs[i]))
  }

  /** `Dedup` keeps every key once and only the keys it was given. */
  lemma {:induction false} DedupSpec(ks: seq<SongKey>)
    ensures forall k :: k in Dedup(ks) <==> k in ks
    ensures forall i, j :: 0 <= i < j < |Dedup(ks)| ==> Dedup(ks)[i] != Dedup(ks)[j]
    decreases |ks|
  {
    if |ks| > 0 {
      var init := ks[..|ks| - 1];
      DedupSpec(init);
      assert ks == init + [ks[|ks| - 1]];
    }
  }

  /** The first manifest with a key. */
  function FirstWithKey(ms: seq<Manifest>, key: SongKey): Option<Manifest>
    decreases |ms|
  {
    if |ms| == 0 then None
    else
      var earlier := FirstWithKey(ms[..|ms| - 1], key);
      if earlier.Some? then earlier
      else if ManifestKey(ms[|ms| - 1]) == key then Some(ms[|ms| - 1])
      else None
  }

  lemma {:induction false} FirstWithKeyPresent(ms: seq<Manifest>, key: SongKey)
    ensures FirstWithKey(ms, key).Some? <==> key in Keys(ms)
    ensures FirstWithKey(ms, key).Some? ==> ManifestKey(FirstWithKey(ms, key).value) == key
    decreases |ms|
  {
    if |ms| > 0 {
      var init := ms[..|ms| - 1];
      FirstWithKeyPresent(init, key);
      assert Keys(ms) == Keys(init) + [ManifestKey(ms[|ms| - 1])];
    }
  }

  function ArrangementsFor(ms: seq<Manifest>, key: SongKey): seq<Arrangement>
    decreases |ms|
  {
    if |ms| == 0 then []
    else
      ArrangementsFor(ms[..|ms| - 1], key)
      + (if ManifestKey(ms[|ms| - 1]) == key then [ArrangementOf(ms[|ms| - 1])] else [])
  }

  lemma {:induction false} ArrangementsForAbsent(ms: seq<Manifest>, key: SongKey)
    requires FirstWithKey(ms, key).None?
    ensures ArrangementsFor(ms, key) == []
    decreases |ms|
  {
    if |ms| > 0 {
      ArrangementsForAbsent(ms[..|ms| - 1], key);
    }
  }

  /** The song a key stands for among non-vocal manifests: its first
      manifest's header, with every arrangement of the key in order. */
  function SongFor(ms: seq<Manifest>, key: SongKey, url: Url): Song
    requires FirstWithKey(ms, key).Some?
  {
    var s := NewSong(FirstWithKey(ms, key).value, url);
    s.(header := s.header.(arrangements := ArrangementsFor(ms, key)))
  }

  lemma SongForSnoc(init: seq<Manifest>, m: Manifest, key: SongKey, url: Url)
    requires FirstWithKey(init, key).Some?
    ensures FirstWithKey(init + [m], key) == FirstWithKey(init, key)
    ensures SongFor(init + [m], key, url) ==
              if ManifestKey(m) == key then AddArrangement(SongFor(init, key, url), ArrangementOf(m))
              else SongFor(init, key, url)
  {
    assert (init + [m])[..|init|] == init;
  }

  lemma SongForNew(init: seq<Manifest>, m: Manifest, url: Url)
    requires FirstWithKey(init, ManifestKey(m)).None?
    ensures FirstWithKey(init + [m], ManifestKey(m)) == Some(m)
    ensures SongFor(init + [m], ManifestKey(m), url) == NewSong(m, url)
  {
    assert (init + [m])[..|init|] == init;
    ArrangementsForAbsent(init, ManifestKey(m));
  }

  /** The grouping invariant over the non-vocal manifests seen so far. */
  predicate Grouped(nv: seq<Manifest>, songs: seq<Song>, url: Url) {
    && SongKeys(songs) == Dedup(Keys(nv))
    && forall i :: 0 <= i < |songs| ==>
         FirstWithKey(nv, KeyOf(songs[i])).Some? && songs[i] == SongFor(nv, KeyOf(songs[i]), url)
  }

  lemma StepKnown(nv: seq<Manifest>, songs: seq<Song>, m: Manifest, idx: nat, url: Url)
    requires Grouped(nv, songs, url) && !IsVocals(m)
    requires idx < |songs| && KeyOf(songs[idx]) == ManifestKey(m)
    ensures Grouped(nv + [m], songs[idx := AddArrangement(songs[idx], ArrangementOf(m))], url)
  {
    var songs' := songs[idx := AddArrangement(songs[idx], ArrangementOf(m))];
    DedupSpec(Keys(nv));
    assert Keys(nv + [m]) == Keys(nv) + [ManifestKey(m)];
    assert ManifestKey(m) in Dedup(Keys(nv)) by {
      assert SongKeys(songs)[idx] == ManifestKey(m);
    }
    assert SongKeys(songs') == SongKeys(songs);
    forall i | 0 <= i < |songs'|
      ensures FirstWithKey(nv + [m], KeyOf(songs'[i])).Some?
              && songs'[i] == SongFor(nv + [m], KeyOf(songs'[i]), url)
    {
      SongForSnoc(nv, m, KeyOf(songs[i]), url);
      if i != idx {
        assert SongKeys(songs)[i] != SongKeys(songs)[idx];
      }
    }
  }

  lemma StepNew(nv: seq<Manifest>, songs: seq<Song>, m: Manifest, url: Url)
    requires Grouped(nv, songs, url) && !IsVocals(m)
    requires forall i :: 0 <= i < |songs| ==> KeyOf(songs[i]) != ManifestKey(m)
    ensures Grouped(nv + [m], songs + [NewSong(m, url)], url)
  {
    var songs' := songs + [NewSong(m, url)];
    DedupSpec(Keys(nv));
    assert Keys(nv + [m]) == Keys(nv) + [ManifestKey(m)];
    assert (Keys(nv) + [ManifestKey(m)])[..|nv|] == Keys(nv);
    assert ManifestKey(m) !in Dedup(Keys(nv)) by {
      assert forall i :: 0 <= i < |songs| ==> SongKeys(songs)[i] != ManifestKey(m);
    }
    FirstWithKeyPresent(nv, ManifestKey(m));
    assert SongKeys(songs') == SongKeys(songs) + [ManifestKey(m)];
    forall i | 0 <= i < |songs'|
      ensures FirstWithKey(nv + [m], KeyOf(songs'[i])).Some?
              && songs'[i] == SongFor(nv + [m], KeyOf(songs'[i]), url)
    {
      if i < |songs| {
        assert songs'[i] == songs[i];
        SongForSnoc(nv, m, KeyOf(songs[i]), url);
      } else {
        SongForNew(nv, m, url);
      }
    }
  }

  /** The manifest loop groups the non-vocal manifests: one song per
      distinct key, in order of the key's first non-vocal manifest, each
      the song its key stands for. */
  lemma {:induction false} ParseSongsGrouped(ms: seq<Manifest>, url: Url)
    ensures Grouped(NonVocal(ms), ParseSongs(ms, url), url)
    decreases |ms|
  {
    if |ms| > 0 {
      var init := ms[..|ms| - 1];
      var m := ms[|ms| - 1];
      var songs := ParseSongs(init, url);
      ParseSongsGrouped(init, url);
      if IsVocals(m) {
        assert ParseSongs(ms, url) == songs;
        assert NonVocal(ms) == NonVocal(init);
      } else {
        assert NonVocal(ms) == NonVocal(init) + [m];
        match FindCandidate(songs, ManifestKey(m))
        case Some(idx) => StepKnown(NonVocal(init), songs, m, idx, url);
        case None => StepNew(NonVocal(init), songs, m, url);
      }
    }
  }

  function TotalArrangements(songs: seq<Song>): nat {
    if |songs| == 0 then 0
    else TotalArrangements(songs[..|songs| - 1]) + |songs[|songs| - 1].header.arrangements|
  }

  lemma {:induction false} TotalUpdate(songs: seq<Song>, i: nat, s: Song)
    requires i < |songs|
    ensures TotalArrangements(songs[i := s]) + |songs[i].header.arrangements|
            == TotalArrangements(songs) + |s.header.arrangements|
    decreases |songs|
  {
    var songs' := songs[i := s];
    if i < |songs| - 1 {
      assert songs'[..|songs| - 1] == songs[..|songs| - 1][i := s];
      TotalUpdate(songs[..|songs| - 1], i, s);
    } else {
      assert songs'[..|songs| - 1] == songs[..|songs| - 1];
    }
  }

  /** Every non-vocal manifest contributes exactly one arrangement, and
      vocal ones none. */
  lemma {:induction false} ParseSongsTotal(ms: seq<Manifest>, url: Url)
    ensures TotalArrangements(ParseSongs(ms, url)) == |NonVocal(ms)|
    decreases |ms|
  {
    if |ms| > 0 {
      var init := ms[..|ms| - 1];
      var m := ms[|ms| - 1];
      var songs := ParseSongs(init, url);
      ParseSongsTotal(init, url);
      if !IsVocals(m) {
        match FindCandidate(songs, ManifestKey(m))
        case Some(idx) => TotalUpdate(songs, idx, AddArrangement(songs[idx], ArrangementOf(m)));
        case None => assert (songs + [NewSong(m, url)])[..|songs|] == songs;
      }
    }
  }

  /** Whether every song was found at the URL and holds only non-vocal
      electric guitar arrangements whose id is their name. */
  predicate WellFormed(songs: seq<Song>, url: Url) {
    forall i :: 0 <= i < |songs| ==>
      && songs[i].path == url
      && forall j :: 0 <= j < |songs[i].header.arrangements| ==>
           var a := songs[i].header.arrangements[j];
           a.name != ArrangementVocals && a.instrument == ElectricGuitar && a.id == a.name
  }

  lemma {:induction false} ParseSongsWellFormed(ms: seq<Manifest>, url: Url)
    ensures WellFormed(ParseSongs(ms, url), url)
    decreases |ms|
  {
    if |ms| > 0 {
      var init := ms[..|ms| - 1];
      var m := ms[|ms| - 1];
      var songs := ParseSongs(init, url);
      ParseSongsWellFormed(init, url);
      if !IsVocals(m) {
        match FindCandidate(songs, ManifestKey(m))
        case Some(idx) =>
          var s' := AddArrangement(songs[idx], ArrangementOf(m));
          assert forall j :: 0 <= j < |s'.header.arrangements| ==>
                   s'.header.arrangements[j] == (songs[idx].header.arrangements + [ArrangementOf(m)])[j];
        case None =>
      }
    }
  }

  lemma {:induction false} NonVocalMembers(ms: seq<Manifest>)
    ensures forall m :: m in NonVocal(ms) <==> m in ms && !IsVocals(m)
    decreases |ms|
  {
    if |ms| > 0 {
      NonVocalMembers(ms[..|ms| - 1]);
      assert ms == ms[..|ms| - 1] + [ms[|ms| - 1]];
    }
  }

  /** The keys of songs grouped from the manifests are distinct, and are
      the keys of the non-vocal manifests. */
  lemma GroupedKeys(ms: seq<Manifest>, songs: seq<Song>, url: Url)
    requires Grouped(NonVocal(ms), songs, url)
    ensures forall i, j :: 0 <= i < j < |songs| ==> KeyOf(songs[i]) != KeyOf(songs[j])
    ensures forall k :: k in SongKeys(songs) <==>
              exists m :: m in ms && !IsVocals(m) && ManifestKey(m) == k
  {
    var nv := NonVocal(ms);
    DedupSpec(Keys(nv));
    forall i, j | 0 <= i < j < |songs| ensures KeyOf(songs[i]) != KeyOf(songs[j]) {
      assert SongKeys(songs)[i] == KeyOf(songs[i]) && SongKeys(songs)[j] == KeyOf(songs[j]);
    }
    forall k
      ensures k in SongKeys(songs) <==> exists m :: m in ms && !IsVocals(m) && ManifestKey(m) == k
    {
      KeyOfNonVocal(ms, k);
    }
  }

  lemma KeyOfNonVocal(ms: seq<Manifest>, k: SongKey)
    ensures k in Keys(NonVocal(ms)) <==> exists m :: m in ms && !IsVocals(m) && ManifestKey(m) == k
  {
    var nv := NonVocal(ms);
    NonVocalMembers(ms);
    if k in Keys(nv) {
      var i :| 0 <= i < |nv| && Keys(nv)[i] == k;
      assert nv[i] in nv;
    }
    if exists m :: m in ms && !IsVocals(m) && ManifestKey(m) == k {
      var m :| m in ms && !IsVocals(m) && ManifestKey(m) == k;
      assert m in nv;
      var i :| 0 <= i < |nv| && nv[i] == m;
      assert Keys(nv)[i] == k;
    }
  }
}

=== FILE: song_id.dfy ===
/** The song identifier shared by both song records
    (`Song::id` in crates/metalforge-lib/src/song/mod.rs and
    crates/metalforge-lib/src/song.rs): title, artist, album and year joined
    with `-`, lower-cased, with everything but letters and digits removed.
 */
module SongIds {
  import opened Text

  function IdOf(title: string, artist: string, album: string, year: nat): (id: string)
    ensures forall i :: 0 <= i < |id| ==> IsAlphanumeric(id[i]) && !IsAsciiUpper(id[i])
  {
    var joined := title + "-" + artist + "-" + album + "-" + Decimal(year);
    var id := KeepAlphanumeric(AsciiLower(joined));
    KeepAlphanumericFrom(AsciiLower(joined));
    id
  }

  /** Every character `KeepAlphanumeric` keeps comes from its input. */
  lemma {:induction false} KeepAlphanumericFrom(s: string)
    ensures forall i :: 0 <= i < |KeepAlphanumeric(s)| ==> KeepAlphanumeric(s)[i] in s
    decreases |s|
  {
    if |s| > 0 {
      KeepAlphanumericFrom(s[1..]);
      var rest := KeepAlphanumeric(s[1..]);
      assert forall c :: c in rest ==> c in s by {
        forall c | c in rest ensures c in s {
          assert c in s[1..];
        }
      }
    }
  }

  /** The separators contribute nothing: the identifier is the lower-cased
      concatenation of the four fields, letters and digits only.  The
      decimal year survives the filter whole. */
  lemma IdOfConcatenation(title: string, artist: string, album: string, year: nat)
    ensures IdOf(title, artist, album, year) ==
              KeepAlphanumeric(AsciiLower(title + artist + album + Decimal(year)))
    ensures KeepAlphanumeric(AsciiLower(Decimal(year))) == Decimal(year)
  {
    var t, a, b, y := AsciiLower(title), AsciiLower(artist), AsciiLower(album), AsciiLower(Decimal(year));
    LowerDashed(title, artist, album, Decimal(year));
    KeepDashed(t, a, b, y);
    LowerPlain(title, artist, album, Decimal(year));
    KeepPlain(t, a, b, y);
    DigitsSurvive(Decimal(year));
  }

  lemma LowerDashed(w: string, x: string, y: string, z: string)
    ensures AsciiLower(w + "-" + x + "-" + y + "-" + z) ==
              AsciiLower(w) + "-" + AsciiLower(x) + "-" + AsciiLower(y) + "-" + AsciiLower(z)
  {
    assert AsciiLower("-") == "-";
    AsciiLowerAppend(w + "-" + x + "-" + y + "-", z);
    AsciiLowerAppend(w + "-" + x + "-" + y, "-");
    AsciiLowerAppend(w + "-" + x + "-", y);
    AsciiLowerAppend(w + "-" + x, "-");
    AsciiLowerAppend(w + "-", x);
    AsciiLowerAppend(w, "-");
  }

  lemma LowerPlain(w: string, x: string, y: string, z: string)
    ensures AsciiLower(w + x + y + z) == AsciiLower(w) + AsciiLower(x) + AsciiLower(y) + AsciiLower(z)
  {
    AsciiLowerAppend(w + x + y, z);
    AsciiLowerAppend(w + x, y);
    AsciiLowerAppend(w, x);
  }

  lemma KeepDashed(w: string, x: string, y: string, z: string)
    ensures KeepAlphanumeric(w + "-" + x + "-" + y + "-" + z) ==
              KeepAlphanumeric(w) + KeepAlphanumeric(x) + KeepAlphanumeric(y) + KeepAlphanumeric(z)
  {
    var wx := w + "-" + x;
    var wxy := wx + "-" + y;
    KeepDash(w, x);
    KeepDash(wx, y);
    KeepDash(wxy, z);
  }

  lemma KeepDash(u: string, v: string)
    ensures KeepAlphanumeric(u + "-" + v) == KeepAlphanumeric(u) + KeepAlphanumeric(v)
  {
    assert KeepAlphanumeric("-") == "";
    KeepAlphanumericAppend(u + "-", v);
    KeepAlphanumericAppend(u, "-");
    assert KeepAlphanumeric(u) + "" == KeepAlphanumeric(u);
  }

  lemma KeepPlain(w: string, x: string, y: string, z: string)
    ensures KeepAlphanumeric(w + x + y + z) ==
              KeepAlphanumeric(w) + KeepAlphanumeric(x) + KeepAlphanumeric(y) + KeepAlphanumeric(z)
  {
    KeepAlphanumericAppend(w + x + y, z);
    KeepAlphanumericAppend(w + x, y);
    KeepAlphanumericAppend(w, x);
  }

  lemma {:induction false} DigitsSurvive(s: string)
    requires forall i :: 0 <= i < |s| ==> IsDigit(s[i])
    ensures AsciiLower(s) == s
    ensures KeepAlphanumeric(s) == s
    decreases |s|
  {
    if |s| > 0 {
      DigitsSurvive(s[1..]);
      assert s == [s[0]] + s[1..];
    }
  }
}

=== FILE: song_player.dfy ===
/** Durations, and the transport state of the song player
    (crates/metalforge-bevy/src/ui/player/song_player.rs).

    A `std::time::Duration` is a natural number of nanoseconds here.  The
    player's `last_start: Instant` only ever records "now" and nothing in the
    modelled code reads it, so the model drops it.  `player_speed` is an `f32`
    in the source and a `real` here.
 */
module Durations {

  type Duration = nat

  const NanosPerMilli: nat := 1_000_000
  const NanosPerSec: nat := 1_000_000_000

  /** `Duration::from_millis`. */
  function Millis(ms: nat): (d: Duration)
    ensures d == ms * NanosPerMilli
  {
    ms * NanosPerMilli
  }

  /** `Duration::as_secs_f32`, without the rounding of `f32`. */
  function AsSecs(d: Duration): (s: real)
    ensures s >= 0.0
  {
    d as real / NanosPerSec as real
  }

  /** `Duration::min`. */
  function Min(a: Duration, b: Duration): (m: Duration)
    ensures m <= a && m <= b
    ensures m == a || m == b
  {
    if a <= b then a else b
  }
}

module SongPlayback {
  import opened Durations

  /** The Bevy state that drives the player screen. */
  datatype PlayerState = Playing | Paused

  datatype SongPlayer = SongPlayer(position: Duration, speed: real, playing: bool)

  /** `SongPlayer::default`. */
  function Default(): (p: SongPlayer)
    ensures p.position == 0
    ensures !p.playing
    ensures p.speed == 1.0
  {
    SongPlayer(0, 1.0, false)
  }

  /** `SongPlayer::playing`: reports the stored flag. */
  function IsPlaying(p: SongPlayer): (b: bool)
    ensures b <==> p.playing
  {
    p.playing
  }

  /** Moves the position back to the start of the song; playing flag and
      speed are kept. */
  function Rewind(p: SongPlayer): (r: SongPlayer)
    ensures r.position == 0
    ensures r.playing == p.playing && r.speed == p.speed
  {
    p.(position := 0)
  }

  function Pause(p: SongPlayer): (r: SongPlayer)
    ensures !r.playing
    ensures r.position == p.position && r.speed == p.speed
  {
    p.(playing := false)
  }

  function Resume(p: SongPlayer): (r: SongPlayer)
    ensures r.playing
    ensures r.position == p.position && r.speed == p.speed
  {
    p.(playing := true)
  }

  function JumpForwards(p: SongPlayer, diff: Duration): (r: SongPlayer)
    ensures r.position - p.position == diff
    ensures r.playing == p.playing && r.speed == p.speed
  {
    p.(position := p.position + diff)
  }

  /** Subtracts `min(position, diff)`, so a jump past the start lands on zero
      instead of underflowing. */
  function JumpBackwards(p: SongPlayer, diff: Duration): (r: SongPlayer)
    ensures diff <= p.position ==> r.position == p.position - diff
    ensures diff > p.position ==> r.position == 0
    ensures r.playing == p.playing && r.speed == p.speed
  {
    p.(position := p.position - Min(p.position, diff))
  }

  /** Pausing and resuming at once gives back the player as it was, apart
      from the playing flag now being set. */
  lemma PauseResumeKeepsPosition(p: SongPlayer)
    ensures Resume(Pause(p)) == p.(playing := true)
    ensures Resume(Pause(p)).position == p.position
  {
  }

  /** A backward jump undoes a forward jump of the same length. */
  lemma JumpForwardsThenBackwards(p: SongPlayer, d: Duration)
    ensures JumpBackwards(JumpForwards(p, d), d) == p
  {
  }

  /** A backward jump never moves the position past the start and never
      moves it further than asked. */
  lemma JumpBackwardsBounds(p: SongPlayer, d: Duration)
    ensures JumpBackwards(p, d).position <= p.position
    ensures JumpBackwards(p, d).position + d >= p.position
  {
  }
}

=== FILE: songfile.dfy ===
/** Song definition files (crates/metalforge-lib/src/loader/songfile.rs):
    the record a song descriptor decodes to, its conversion into a `Song`
    and back.  YAML decoding is abstracted: the decoder's result is an
    input, `None` standing for a document that does not decode.
 */
module SongFiles {
  import opened Results
  import opened Ints
  import opened Asset
  import opened Songs

  datatype ArrangementDef = ArrangementDef(
    id: string, name: string, instrument: Instrument, tuning: Option<Tuning>)

  datatype SongDef = SongDef(
    title: string, titleSort: string, album: string, albumSort: string,
    artist: string, artistSort: string, year: u16, version: u16, lengthSec: u16,
    coverArtPath: Option<string>, songPath: Option<string>, songPreviewPath: Option<string>,
    arrangements: seq<ArrangementDef>)

  /** An optional asset's path inside its song. */
  function AssetPath(a: Option<AssetId>): (r: Option<string>)
    ensures r.Some? <==> a.Some?
    ensures r.Some? ==> r.value == a.value.id
  {
    match a
    case Some(id) => Some(id.id)
    case None => None
  }

  function ArrangementToDef(a: Arrangement): (d: ArrangementDef)
    ensures d.id == a.id && d.name == a.name && d.instrument == a.instrument && d.tuning == a.tuning
  {
    ArrangementDef(a.id, a.name, a.instrument, a.tuning)
  }

  /** `From<&Song> for SongDef`: the header's scalar fields, the asset
      paths of the three optional assets, and one definition per
      arrangement in order.  The song type and the assets' parent paths
      are not kept. */
  function FromSong(s: Song): (d: SongDef)
    ensures d.title == s.header.title && d.titleSort == s.header.titleSort
    ensures d.album == s.header.album && d.albumSort == s.header.albumSort
    ensures d.artist == s.header.artist && d.artistSort == s.header.artistSort
    ensures d.year == s.header.year && d.version == s.header.version && d.lengthSec == s.header.lengthSec
    ensures d.coverArtPath == AssetPath(s.coverArt)
    ensures d.songPath == AssetPath(s.song)
    ensures d.songPreviewPath == AssetPath(s.preview)
    ensures |d.arrangements| == |s.header.arrangements|
    ensures forall i :: 0 <= i < |d.arrangements| ==> d.arrangements[i] == ArrangementToDef(s.header.arrangements[i])
  {
    var h := s.header;
    SongDef(
      h.title, h.titleSort, h.album, h.albumSort, h.artist, h.artistSort,
      h.year, h.version, h.lengthSec,
      AssetPath(s.coverArt), AssetPath(s.song), AssetPath(s.preview),
      seq(|h.arrangements|, i requires 0 <= i < |h.arrangements| => ArrangementToDef(h.arrangements[i])))
  }

  /** The asset file holding an arrangement's notes. */
  function ArrangementAssetName(id: string): string {
    "arrangement_" + id + ".yaml"
  }

  /** `load_arrangement`: the definition's fields copied, the asset id built
      from the song's path and the arrangement's asset file. */
  function LoadArrangement(songPath: string, d: ArrangementDef): (a: Arrangement)
    ensures a.id == d.id && a.name == d.name && a.instrument == d.instrument && a.tuning == d.tuning
    ensures a.assetId.parentId == songPath
    ensures a.assetId.id == "arrangement_" + d.id + ".yaml"
  {
    Arrangement(d.id, FromPaths(songPath, ArrangementAssetName(d.id)), d.name, d.instrument, d.tuning)
  }

  /** An optional asset path made into an asset id of the song. */
  function AssetOf(songPath: string, p: Option<string>): (r: Option<AssetId>)
    ensures r.Some? <==> p.Some?
    ensures r.Some? ==> r.value.parentId == songPath && r.value.id == p.value
  {
    match p
    case Some(path) => Some(FromPaths(songPath, path))
    case None => None
  }

  /** `load_song_header`: the nine scalar fields of the definition and the
      given arrangements. */
  function LoadSongHeader(d: SongDef, arrangements: seq<Arrangement>): (h: SongHeader)
    ensures h.title == d.title && h.titleSort == d.titleSort
    ensures h.album == d.album && h.albumSort == d.albumSort
    ensures h.artist == d.artist && h.artistSort == d.artistSort
    ensures h.year == d.year && h.version == d.version && h.lengthSec == d.lengthSec
    ensures h.arrangements == arrangements
  {
    SongHeader(d.title, d.titleSort, d.album, d.albumSort, d.artist, d.artistSort,
               d.year, d.version, d.lengthSec, arrangements)
  }

  /** `parse_song`, after decoding: a document that does not decode is an
      `Other` error; otherwise an unpacked song with one arrangement per
      definition, in order, and each asset path made an asset of the song. */
  function ParseSong(songPath: string, decoded: Option<SongDef>): (r: Outcome<Song>)
    ensures decoded.None? ==> r == Err(Other)
    ensures decoded.Some? ==> r.Ok?
    ensures r.Ok? ==> r.value.songType == Unpacked
    ensures r.Ok? ==> r.value.coverArt == AssetOf(songPath, decoded.value.coverArtPath)
    ensures r.Ok? ==> r.value.song == AssetOf(songPath, decoded.value.songPath)
    ensures r.Ok? ==> r.value.preview == AssetOf(songPath, decoded.value.songPreviewPath)
    ensures r.Ok? ==> |r.value.header.arrangements| == |decoded.value.arrangements|
    ensures r.Ok? ==> forall i :: 0 <= i < |decoded.value.arrangements| ==>
              r.value.header.arrangements[i] == LoadArrangement(songPath, decoded.value.arrangements[i])
  {
    match decoded
    case None => Err(Other)
    case Some(d) =>
      var arrangements := seq(|d.arrangements|, i requires 0 <= i < |d.arrangements| =>
                                LoadArrangement(songPath, d.arrangements[i]));
      Ok(Song(
        LoadSongHeader(d, arrangements), Unpacked,
        AssetOf(songPath, d.coverArtPath), AssetOf(songPath, d.songPath),
        AssetOf(songPath, d.songPreviewPath)))
  }

  /** `load_song`: a file that cannot be opened fails with the open error;
      otherwise the contents are parsed.  `contents` is the open result with
      the decoded definition. */
  function LoadSong(songPath: string, contents: Outcome<Option<SongDef>>): (r: Outcome<Song>)
    ensures !contents.Ok? ==> SameFailure(r, contents)
    ensures contents.Ok? ==> r == ParseSong(songPath, contents.value)
  {
    var decoded :- contents;
    ParseSong(songPath, decoded)
  }

  /** Definition, song, definition: the definition comes back unchanged. */
  lemma DefRoundTrip(songPath: string, d: SongDef)
    ensures ParseSong(songPath, Some(d)).Ok?
    ensures FromSong(ParseSong(songPath, Some(d)).value) == d
  {
    var s := ParseSong(songPath, Some(d)).value;
    var back := FromSong(s);
    assert back.arrangements == d.arrangements;
  }

  /** Whether a song is what parsing a definition at `songPath` builds:
      unpacked, its assets under that path, and each arrangement's asset
      the arrangement file named after its id. */
  predicate Unpacks(songPath: string, s: Song) {
    && s.songType == Unpacked
    && (s.coverArt.Some? ==> s.coverArt.value.parentId == songPath)
    && (s.song.Some? ==> s.song.value.parentId == songPath)
    && (s.preview.Some? ==> s.preview.value.parentId == songPath)
    && forall i :: 0 <= i < |s.header.arrangements| ==>
         s.header.arrangements[i].assetId == FromPaths(songPath, ArrangementAssetName(s.header.arrangements[i].id))
  }

  /** Song, definition, song: exactly the songs parsing can build come back
      unchanged. */
  lemma SongRoundTrip(songPath: string, s: Song)
    ensures Unpacks(songPath, s) <==> ParseSong(songPath, Some(FromSong(s))) == Ok(s)
  {
    var r := ParseSong(songPath, Some(FromSong(s)));
    if Unpacks(songPath, s) {
      assert r.value.header.arrangements == s.header.arrangements;
    }
  }
}

/** The older song loader of crates/metalforge-lib/src/songfile.rs, which
    decodes a `LegacySongs.SongHeader` directly. */
module LegacySongFiles {
  import opened Results
  import opened Asset
  import opened LegacySongs

  /** `load_song`: an open failure passes through; a header that does not
      decode is an `Other` error; otherwise the header is kept as decoded
      and its cover art path, if any, becomes the song's cover asset. */
  function LoadSong(songPath: string, contents: Outcome<Option<SongHeader>>): (r: Outcome<Song>)
    ensures !contents.Ok? ==> SameFailure(r, contents)
    ensures contents.Ok? && contents.value.None? ==> r == Err(Other)
    ensures contents.Ok? && contents.value.Some? ==> r.Ok?
    ensures r.Ok? ==> r.value.header == contents.value.value
    ensures r.Ok? ==> (r.value.coverArt.Some? <==> r.value.header.coverArtPath.Some?)
    ensures r.Ok? && r.value.coverArt.Some? ==>
              r.value.coverArt.value == FromPaths(songPath, r.value.header.coverArtPath.value)
  {
    var decoded :- contents;
    var header :- LoadSongHeader(decoded);
    var coverArt := match header.coverArtPath
                    case Some(p) => Some(FromPaths(songPath, p))
                    case None => None;
    Ok(Song(header, coverArt))
  }

  /** `load_song_header`: decoding failures become `Other` errors. */
  function LoadSongHeader(decoded: Option<SongHeader>): (r: Outcome<SongHeader>)
    ensures decoded.None? <==> r == Err(Other)
    ensures decoded.Some? ==> r == Ok(decoded.value)
  {
    match decoded
    case Some(h) => Ok(h)
    case None => Err(Other)
  }
}

=== FILE: songs.dfy ===
/** The song record of crates/metalforge-lib/src/song/mod.rs: a header with
    its arrangements, the kind of storage the song came from, and the asset
    ids of its cover art, backing track and preview.
 */
module Songs {
  import opened Results
  import opened Ints
  import opened Text
  import opened Asset
  import opened SongIds
  import Part

  datatype SongType = Unpacked | Packed | Psarc

  datatype Instrument = Vocal | ElectricBass | AcousticGuitar | ElectricGuitar

  /** The `#[default]` variant. */
  const DefaultInstrument: Instrument := ElectricGuitar

  /** `Custom` holds one offset per string, in eighths of a semitone from
      standard tuning. */
  datatype Tuning = Standard | Custom(offsets: seq<i8>)

  datatype Arrangement = Arrangement(
    id: string, assetId: AssetId, name: string, instrument: Instrument, tuning: Option<Tuning>)

  datatype SongHeader = SongHeader(
    title: string, titleSort: string, album: string, albumSort: string,
    artist: string, artistSort: string, year: u16, version: u16, lengthSec: u16,
    arrangements: seq<Arrangement>)

  datatype Song = Song(
    header: SongHeader, songType: SongType,
    coverArt: Option<AssetId>, song: Option<AssetId>, preview: Option<AssetId>)

  /** `Song::id`: depends on title, artist, album and year only; letters and
      digits only, none of them upper case. */
  function Id(s: Song): (id: string)
    ensures forall i :: 0 <= i < |id| ==> IsAlphanumeric(id[i]) && !IsAsciiUpper(id[i])
    ensures id == KeepAlphanumeric(AsciiLower(s.header.title + s.header.artist + s.header.album
                                              + Decimal(s.header.year)))
  {
    IdOfConcatenation(s.header.title, s.header.artist, s.header.album, s.header.year);
    IdOf(s.header.title, s.header.artist, s.header.album, s.header.year)
  }

  /** `add_arrangement`: one more arrangement at the end; nothing else
      changes, so neither does the id. */
  function AddArrangement(s: Song, a: Arrangement): (r: Song)
    ensures |r.header.arrangements| == |s.header.arrangements| + 1
    ensures r.header.arrangements[..|s.header.arrangements|] == s.header.arrangements
    ensures r.header.arrangements[|s.header.arrangements|] == a
    ensures r.(header := s.header) == s
    ensures r.header.(arrangements := s.header.arrangements) == s.header
    ensures Id(r) == Id(s)
  {
    s.(header := s.header.(arrangements := s.header.arrangements + [a]))
  }

  /** `instrument_part`: only PSARC songs can load a part; the other two
      storage kinds reach `unimplemented!()`.  `loadPsarcPart` stands for
      the PSARC loader's `load_instrument_part`. */
  function InstrumentPart(s: Song, assetId: AssetId, loadPsarcPart: AssetId -> Outcome<Part.InstrumentPart>)
    : (r: Outcome<Part.InstrumentPart>)
    ensures s.songType.Psarc? ==> r == loadPsarcPart(assetId)
    ensures !s.songType.Psarc? ==> r.Panic?
  {
    match s.songType
    case Unpacked => Panic("not implemented: unpacked songs")
    case Packed => Panic("not implemented: packed songs")
    case Psarc => loadPsarcPart(assetId)
  }
}

/** The older song record of crates/metalforge-lib/src/song.rs, whose header
    carries the asset paths itself and whose song carries only the cover
    art's asset id. */
module LegacySongs {
  import opened Results
  import opened Ints
  import opened Text
  import opened Asset
  import opened SongIds

  datatype Instrument = Vocal | ElectricBass | AcousticGuitar | ElectricGuitar

  datatype Tuning = Standard | Custom(offsets: seq<u16>)

  datatype Arrangement = Arrangement(id: string, name: string, instrument: Instrument, tuning: Option<Tuning>)

  datatype SongHeader = SongHeader(
    title: string, titleSort: string, album: string, albumSort: string,
    artist: string, artistSort: string, year: u16, version: u16, lengthSec: u16,
    coverArtPath: Option<string>, backingTrackPath: Option<string>, songPreviewPath: Option<string>,
    arrangements: seq<Arrangement>)

  datatype Song = Song(header: SongHeader, coverArt: Option<AssetId>)

  /** `Song::id`, the same normalisation as the newer record's. */
  function Id(s: Song): (id: string)
    ensures forall i :: 0 <= i < |id| ==> IsAlphanumeric(id[i]) && !IsAsciiUpper(id[i])
    ensures id == KeepAlphanumeric(AsciiLower(s.header.title + s.header.artist + s.header.album
                                              + Decimal(s.header.year)))
  {
    IdOfConcatenation(s.header.title, s.header.artist, s.header.album, s.header.year);
    IdOf(s.header.title, s.header.artist, s.header.album, s.header.year)
  }

  function AddArrangement(s: Song, a: Arrangement): (r: Song)
    ensures |r.header.arrangements| == |s.header.arrangements| + 1
    ensures r.header.arrangements[..|s.header.arrangements|] == s.header.arrangements
    ensures r.header.arrangements[|s.header.arrangements|] == a
    ensures r.(header := s.header) == s
    ensures r.header.(arrangements := s.header.arrangements) == s.header
    ensures Id(r) == Id(s)
  {
    s.(header := s.header.(arrangements := s.header.arrangements + [a]))
  }
}

=== FILE: text.dfy ===
/** Character and string helpers shared by the song, asset and loader models.

    Rust's `char::is_alphanumeric` and `str::to_lowercase` follow Unicode; the
    model defines them on ASCII (see README, "Left out").  `to_ascii_lowercase`
    is ASCII-only in Rust as well, so `AsciiLower` is exact for it.
 */
module Text {

  predicate IsAsciiUpper(c: char) {
    'A' <= c <= 'Z'
  }

  predicate IsAsciiLower(c: char) {
    'a' <= c <= 'z'
  }

  predicate IsDigit(c: char) {
    '0' <= c <= '9'
  }

  predicate IsAlphanumeric(c: char) {
    IsAsciiUpper(c) || IsAsciiLower(c) || IsDigit(c)
  }

  predicate IsAscii(s: string) {
    forall i :: 0 <= i < |s| ==> s[i] < 128 as char
  }

  function LowerChar(c: char): (r: char)
    ensures IsAsciiUpper(c) ==> IsAsciiLower(r) && r as int == c as int + 32
    ensures !IsAsciiUpper(c) ==> r == c
  {
    if IsAsciiUpper(c) then (c as int + 32) as char else c
  }

  /** `str::to_ascii_lowercase`: maps A-Z to a-z, leaves every other character. */
  function AsciiLower(s: string): (r: string)
    ensures |r| == |s|
    ensures forall i :: 0 <= i < |s| ==> r[i] == LowerChar(s[i])
  {
    if |s| == 0 then "" else [LowerChar(s[0])] + AsciiLower(s[1..])
  }

  /** `String::retain(|c| c.is_alphanumeric())`. */
  function KeepAlphanumeric(s: string): (r: string)
    ensures |r| <= |s|
    ensures forall i :: 0 <= i < |r| ==> IsAlphanumeric(r[i])
    ensures (forall i :: 0 <= i < |s| ==> IsAlphanumeric(s[i])) ==> r == s
    ensures |s| == 1 && !IsAlphanumeric(s[0]) ==> r == ""
  {
    if |s| == 0 then ""
    else if IsAlphanumeric(s[0]) then [s[0]] + KeepAlphanumeric(s[1..])
    else KeepAlphanumeric(s[1..])
  }

  lemma {:induction false} KeepAlphanumericAppend(a: string, b: string)
    ensures KeepAlphanumeric(a + b) == KeepAlphanumeric(a) + KeepAlphanumeric(b)
    decreases |a|
  {
    if |a| == 0 {
      assert a + b == b;
    } else {
      assert (a + b)[1..] == a[1..] + b;
      KeepAlphanumericAppend(a[1..], b);
    }
  }

  lemma {:induction false} AsciiLowerAppend(a: string, b: string)
    ensures AsciiLower(a + b) == AsciiLower(a) + AsciiLower(b)
    decreases |a|
  {
    if |a| == 0 {
      assert a + b == b;
    } else {
      assert (a + b)[0] == a[0];
      assert (a + b)[1..] == a[1..] + b;
      AsciiLowerAppend(a[1..], b);
    }
  }

  /** Decimal rendering of a natural number, as `format!("{}", n)` writes it. */
  function Decimal(n: nat): (r: string)
    ensures |r| >= 1
    ensures forall i :: 0 <= i < |r| ==> IsDigit(r[i])
    ensures n > 0 ==> r[0] != '0'
    ensures |r| > 1 ==> r[0] != '0'
    decreases n
  {
    if n < 10 then [DigitChar(n)] else Decimal(n / 10) + [DigitChar(n % 10)]
  }

  function DigitChar(d: nat): (c: char)
    requires d < 10
    ensures IsDigit(c)
  {
    ('0' as int + d) as char
  }

  /** Reads back a string of decimal digits; the inverse of `Decimal`. */
  function DigitsValue(s: string): int
    requires forall i :: 0 <= i < |s| ==> IsDigit(s[i])
  {
    if |s| == 0 then 0
    else 10 * DigitsValue(s[..|s| - 1]) + (s[|s| - 1] as int - '0' as int)
  }

  lemma {:induction false} DecimalRoundTrip(n: nat)
    ensures DigitsValue(Decimal(n)) == n
    decreases n
  {
    var r := Decimal(n);
    if n >= 10 {
      assert r[..|r| - 1] == Decimal(n / 10);
      DecimalRoundTrip(n / 10);
    }
  }

  /** Lexicographic `<` on strings, the order Rust derives for `String`. */
  predicate StrLess(a: string, b: string)
    decreases |a|
  {
    if |a| == 0 then |b| > 0
    else if |b| == 0 then false
    else if a[0] != b[0] then a[0] < b[0]
    else StrLess(a[1..], b[1..])
  }

  lemma {:induction false} StrLessIrreflexive(a: string)
    ensures !StrLess(a, a)
    decreases |a|
  {
    if |a| > 0 {
      StrLessIrreflexive(a[1..]);
    }
  }

  lemma {:induction false} StrLessTransitive(a: string, b: string, c: string)
    requires StrLess(a, b) && StrLess(b, c)
    ensures StrLess(a, c)
    decreases |a|
  {
    if |a| > 0 && |b| > 0 && |c| > 0 && a[0] == b[0] && b[0] == c[0] {
      StrLessTransitive(a[1..], b[1..], c[1..]);
    }
  }

  lemma {:induction false} StrLessTotal(a: string, b: string)
    ensures a == b || StrLess(a, b) || StrLess(b, a)
    decreases |a|
  {
    if |a| > 0 && |b| > 0 && a[0] == b[0] {
      StrLessTotal(a[1..], b[1..]);
      if a[1..] == b[1..] {
        assert a == [a[0]] + a[1..] && b == [b[0]] + b[1..];
      }
    }
  }
}
